=== FILE: README.md ===
# Concept-card agent: a Dafny model

This project models the decision logic of the concept-card agent in `fetch-ai/`. The agent watches a lecture's transcript chunks in Elasticsearch and turns completed topics into "concept cards". It keeps a per-meeting cursor in Redis so that each pass only looks at new chunks, and it answers chat commands that pause, resume, summarise or trigger card creation. The LLM, Elasticsearch, Redis, the clock and `json.loads` become values and function parameters. Everything the agent decides from what they return is modelled with pure functions, and its properties are proved.

Modules, following the source:

- `Outcomes`: `Option`, `Result` and the exceptions that can escape (`Exc`).
- `Text`: Python string behaviour used by the agent:
  - `strip` over the `str.isspace` set, and slicing;
  - ASCII `lower`, `split` and `join`;
  - substring search and `replace`;
  - `str(int)` and `int(str)`.
- `Json`: decoded JSON values. `Lookup` is `dict.get`, where the last duplicate key wins; `Truthy` is Python truthiness.
- `Slug`: `_slug`.
- `Chunks`:
  - transcript chunks, with a missing `chunk_index` read as 0 and missing `text` read as `""`;
  - the stable sort by index and `_chunks_to_text`;
  - the split of chunks around a cursor, and the highest index.
- `MessageExtract`: `_extract_message_only`.
- `Markdown`: `_format_summary_markdown`.
- `Llm`: `_parse_json`, and how `compare_topics` and `extract_concept` guard and decode a reply.
- `Redis`: `RedisClient` over a string-keyed map.
- `Elastic`: the parts of `ElasticClient` the agent uses, over an abstract cluster, including the page of chunks a sorted, size-limited search returns.
- `Cards`: `create_concept_card` and its concept-id derivation.
- `Detection`: `_run_detection_for_meeting`.
- `Processing`: `_process_concept_cards_for_meeting` and `run_manual_concept_card_creation`.
- `Chat`: `_extract_text_from_message`, keyword routing and the replies of `handle_chat_message`. `HandleChat` routes as the source does, pause first; `HandleChatFixed` tries resume and status before pause (see Findings).

An exception that escapes a Python function is an `Err`, `Crash` or `Escaped` outcome. An exception that the source catches is modelled as the branch the source takes when it catches it.

## Model

| member | source | states |
|---|---|---|
| Text.ParseIntToString | fetch-ai/redis_client.py:24-40 | `int()` of the decimal string that Redis stores for an integer gives that integer back, for negative integers too |
| Slug.MakeSlug | fetch-ai/concept_card_agent.py:94-97 | the slug is never empty: it is `"unknown"`, or 1 to 64 characters over `[a-z0-9-]` with no leading hyphen and no two hyphens in a row |
| Slug.SlugWith | fetch-ai/concept_card_agent.py:94-97 | for any `max_len` of at least 1 the slug has that shape within `max_len`, and a text without ASCII letters or digits gives `"unknown"` |
| Slug.SlugKeepsAlnums | fetch-ai/concept_card_agent.py:94-97 | the slug's letters and digits are a non-empty prefix of the lower-cased text's letters and digits, and all of them when the text fits in `max_len` |
| Chunks.SortByIndex | fetch-ai/concept_card_agent.py:103 | `sorted(chunks, key=chunk_index)` is a permutation of the chunks in ascending index order |
| Chunks.SortStable | fetch-ai/concept_card_agent.py:103 | the sort is stable: the chunks sharing an index keep their relative order |
| Chunks.SortCharacterized | fetch-ai/concept_card_agent.py:103 | any ascending sequence that keeps each index's chunks in their original order is the sort's result |
| Chunks.ChunksToTextOrder | fetch-ai/concept_card_agent.py:100-104 | `_chunks_to_text` is the `"\n\n"`-join of each chunk's stripped text in stable ascending index order |
| Chunks.ChunksToText | fetch-ai/concept_card_agent.py:100-104 | no chunks give `""`, and one chunk gives its stripped text |
| Chunks.After | fetch-ai/concept_card_agent.py:477 | a chunk is new exactly when its index (0 if missing) is greater than the cursor |
| Chunks.UpTo | fetch-ai/concept_card_agent.py:386 | a chunk is previous exactly when its index is at most the cursor |
| Chunks.SplitAtCursor | fetch-ai/concept_card_agent.py:386-387 | the previous and the new chunks together are the fetched chunks, counting repeats |
| Chunks.SortAppend | fetch-ai/elastic_client.py:43 | sorting two lists whose indices do not interleave gives the first list sorted, then the second |
| Chunks.MaxIndex | fetch-ai/concept_card_agent.py:533 | `max(chunk_index)` is an upper bound of every index and is the index of some chunk |
| MessageExtract.ExtractMessage | fetch-ai/concept_card_agent.py:155-199 | the result is `None` or a non-empty string with no surrounding whitespace |
| MessageExtract.ExtractedIsMentioned | fetch-ai/concept_card_agent.py:155-199 | a message found is the stripped form of some string inside the value searched: nothing is made up |
| MessageExtract.ObjectPriority | fetch-ai/concept_card_agent.py:165-193 | on an object the first usable candidate wins, trying `message`, `content`, `text`, `output`, `result`, `summary`, then `response` |
| MessageExtract.MessageKeyWins | fetch-ai/concept_card_agent.py:167-172 | a non-blank string under `message` is the answer, stripped, whatever else the object holds |
| MessageExtract.ResponseIsLastResort | fetch-ai/concept_card_agent.py:186-193 | `response` decides only when none of the six preferred keys yields a message |
| MessageExtract.ListScansFromEnd | fetch-ai/concept_card_agent.py:194-198 | a list is searched from its last item: the last item's message wins over all earlier items |
| Markdown.FormatSummary | fetch-ai/concept_card_agent.py:207-208 | an empty text comes back unchanged, and no result contains three newlines in a row |
| Markdown.FormatSummaryStripped | fetch-ai/concept_card_agent.py:265-269 | the formatted summary has no leading or trailing whitespace |
| Markdown.Collapse | fetch-ai/concept_card_agent.py:267-268 | the collapsing loop ends with no `"\n\n\n"` left and never lengthens the text |
| Markdown.CollapseIdempotent | fetch-ai/concept_card_agent.py:267-268 | collapsing twice is collapsing once, and text without three newlines is left alone |
| Markdown.NumberedLineBecomesHeading | fetch-ai/concept_card_agent.py:224-232 | a numbered section line shorter than 120 characters appears in the result as `"## "` plus the stripped line |
| Llm.FencedContent | fetch-ai/llm_client.py:103-105 | a fenced block is found exactly when the text has two non-overlapping fences; its content is stripped and contains no fence |
| Llm.DecoderInput | fetch-ai/llm_client.py:101-105 | what reaches the decoder never has surrounding whitespace |
| Llm.NoFencePairKeepsText | fetch-ai/llm_client.py:101-106 | without a complete fence pair the trimmed reply is decoded unchanged |
| Llm.FenceRoundTrip | fetch-ai/llm_client.py:101-106 | wrapping content in a fence pair, with or without the `json` tag, gives back exactly that content |
| Llm.CompareTopics | fetch-ai/llm_client.py:49-61 | without an API key the comparison fails with the not-configured `RuntimeError` |
| Llm.ExtractConcept | fetch-ai/llm_client.py:80-82 | without an API key the extraction fails with the not-configured `RuntimeError` |
| Llm.UnconfiguredMakesNoRequest | fetch-ai/llm_client.py:39-53 | without an API key the result does not depend on the completion service, so no request is made |
| Llm.CompareDecodesFenced | fetch-ai/llm_client.py:49-61 | with an API key, a comparison reply that wraps JSON text in a fence, tagged or not, yields exactly what that text decodes to |
| Llm.ExtractDecodesFenced | fetch-ai/llm_client.py:80-96 | with an API key, an extraction reply that wraps JSON text in a fence, tagged or not, yields exactly what that text decodes to |
| Llm.ExtractDecodesBare | fetch-ai/llm_client.py:80-96 | with an API key, a reply without backticks yields exactly what its stripped text decodes to |
| Redis.GetLastChunkIndex | fetch-ai/redis_client.py:19-27 | an absent cursor key reads as -1; an unusable client raises |
| Redis.SetThenGet | fetch-ai/redis_client.py:29-40 | after setting a meeting's cursor to `i`, reading it gives `i` |
| Redis.ResetThenGet | fetch-ai/redis_client.py:44-48 | after a reset the meeting's cursor reads -1 |
| Redis.SetLeavesOthers | fetch-ai/redis_client.py:38-40 | setting one meeting's cursor changes no other meeting's cursor and not the pause flag |
| Redis.ResetLeavesOthers | fetch-ai/redis_client.py:46-48 | resetting one meeting's cursor changes no other meeting's cursor and not the pause flag |
| Redis.CursorKeyInjective | fetch-ai/redis_client.py:25 | different meetings have different cursor keys |
| Redis.CursorKeyIsNotPauseKey | fetch-ai/redis_client.py:62 | no cursor key is the pause key |
| Redis.PauseResume | fetch-ai/redis_client.py:59-75 | `pause` makes `is_paused` true, `resume` makes it false, and neither changes a cursor |
| Redis.OnlyOneIsPaused | fetch-ai/redis_client.py:63 | a stored flag other than `"1"` reads as not paused |
| Redis.Unconfigured | fetch-ai/redis_client.py:13-17 | without a URL `ping` is false and every other operation raises the not-configured error |
| Redis.Ping | fetch-ai/redis_client.py:50-57 | `ping` is true exactly for a configured client whose server answers |
| Elastic.QueryOrder | fetch-ai/elastic_client.py:43 | the search order is a permutation of the meeting's chunks |
| Elastic.FetchChunks | fetch-ai/elastic_client.py:27-54 | the page holds `min(limit, stored)` of the meeting's chunks and is a prefix of the search order |
| Elastic.LaterChunksUnseen | fetch-ai/elastic_client.py:27-54 | once a meeting holds `limit` indexed chunks, storing more chunks with higher indices leaves the fetched page unchanged |
| Elastic.LoadAgentState | fetch-ai/elastic_client.py:96-103 | only a missing API key raises; a state is found exactly when the server answers and holds one for the meeting, and it is the stored state; otherwise the failure reads as no state |
| Elastic.SaveAgentState | fetch-ai/elastic_client.py:105-120 | the meeting's state document is replaced, and the cards and chunks are unchanged |
| Elastic.SaveThenLoad | fetch-ai/elastic_client.py:96-120 | the state a successful save writes is the state the next load returns |
| Elastic.IndexConceptCard | fetch-ai/elastic_client.py:122-144 | the card is stored under `meeting_id + "_" + concept_id`, replacing any card with that id, and that id is returned |
| Elastic.DocIdInjective | fetch-ai/elastic_client.py:142 | when meeting ids have no underscore, different meeting/concept pairs get different document ids |
| Cards.ConceptIdFor | fetch-ai/concept_card_agent.py:308-313 | a supplied id is used verbatim; otherwise the title's slug, or `segment_{first}_{last}` exactly when the slug is `"unknown"`; a non-string title raises |
| Cards.FallbackIsNotSlug | fetch-ai/concept_card_agent.py:309-313 | a chunk-range id never has the shape of a slug |
| Cards.DerivedConceptId | fetch-ai/concept_card_agent.py:308-313 | a title without letters or digits falls back to the segment's chunk range |
| Cards.CreateConceptCard | fetch-ai/concept_card_agent.py:272-335 | no card for an empty segment, blank segment text or an unconfigured LLM; a created card is indexed under its document id, a supplied id is kept, and the agent state is untouched |
| Cards.CardNeedsEverything | fetch-ai/concept_card_agent.py:283-302 | a card needs segment text, a configured LLM and index, and a reply that decoded to an object |
| Cards.CardFields | fetch-ai/concept_card_agent.py:304-313 | the card carries the extracted title, explanation and example, with the documented defaults for missing keys |
| Cards.Get | fetch-ai/concept_card_agent.py:304-306 | `get` with a default succeeds exactly on an object, and gives the default for a missing key |
| Detection.HintId | fetch-ai/concept_card_agent.py:415-419 | a falsy hint asks for no id, and a non-empty string hint asks for its slug |
| Detection.SaveRound | fetch-ai/concept_card_agent.py:427-432 | the saved state holds the given cursor and at most the first 2000 characters of the current text |
| Detection.AfterComparison | fetch-ai/concept_card_agent.py:414-432 | the state moves to the highest index of all chunks; the cards change only on a truthy boundary with previous chunks, and then the index keeps every card it had and gains or replaces at most one card, keyed by this meeting |
| Detection.Round | fetch-ai/concept_card_agent.py:385-432 | only the meeting's state and the cards change; a card is written only on a reported boundary, and the index keeps every card it had and changes at most one card of this meeting |
| Detection.RunDetection | fetch-ai/concept_card_agent.py:368-432 | a detection round changes nothing but the meeting's state and the card index; the index keeps every card it had and changes at most one card of this meeting |
| Detection.FewChunksNoWrite | fetch-ai/concept_card_agent.py:376-379 | with fewer than two chunks nothing is written |
| Detection.NoNewChunksNoWrite | fetch-ai/concept_card_agent.py:386-391 | with no chunk past the saved cursor nothing is written |
| Detection.MaxOfAllIsMaxOfNew | fetch-ai/concept_card_agent.py:399-427 | when there are new chunks, the highest index of all chunks is the highest new index and lies past the cursor |
| Detection.CursorAdvances | fetch-ai/concept_card_agent.py:397-432 | a round that saves state moves the cursor to the highest new index, strictly past the old cursor |
| Detection.RoundStallsAtLimit | fetch-ai/concept_card_agent.py:376-391 | with 100 indexed chunks all at or below the saved cursor, a round writes nothing however many chunks are stored after them |
| Detection.CardOnlyOnBoundary | fetch-ai/concept_card_agent.py:414-424 | a card is created only when the comparison reports a boundary and there are previous chunks |
| Detection.PreviousAndCurrentPartition | fetch-ai/concept_card_agent.py:386-387 | previous and current chunks partition the fetched chunks around the cursor |
| Processing.ReadCursor | fetch-ai/concept_card_agent.py:455-463 | without Redis the starting cursor is -1, a successful read gives the stored cursor (-1 when none is stored), and a failed read falls back to -1, so the whole fetched page is processed again |
| Processing.WriteCursor | fetch-ai/concept_card_agent.py:532-536 | with a client, the cursor is written exactly when Redis is usable |
| Processing.Identify | fetch-ai/concept_card_agent.py:489 | a client without a boundary finder raises `AttributeError` |
| Processing.Covered | fetch-ai/concept_card_agent.py:509-514 | a segment covers exactly the new chunks whose index lies between its start and end |
| Processing.HintedId | fetch-ai/concept_card_agent.py:511-517 | a segment asks for an id exactly when its hint is non-empty |
| Processing.CreateForSegments | fetch-ai/concept_card_agent.py:506-530 | at most one card per segment; every created card is in the index under its document id, also when a later segment raises; no card is removed; states and chunks are untouched |
| Processing.EarlierCardSurvives | fetch-ai/concept_card_agent.py:506-530 | a card made for the first segment is the first card returned and stays indexed however the loop ends |
| Processing.Conclude | fetch-ai/concept_card_agent.py:532-551 | the pass succeeds, reports the card count and the range from cursor+1 to the highest new index, and moves the cursor on a usable Redis |
| Processing.ProcessNew | fetch-ai/concept_card_agent.py:485-551 | a failed report creates nothing and writes nothing; without a boundary finder the report is the `AttributeError` failure; an exception escaping the card loop leaves Redis alone but keeps the cards already indexed; a working boundary finder with a usable Redis moves the cursor to the highest new index |
| Processing.ProcessConceptCards | fetch-ai/concept_card_agent.py:435-551 | a failed report changes no store; an escaping exception leaves Redis alone and removes no card; the agent state and chunks are never touched; the reported cards are indexed and their count matches |
| Processing.NewChunksArePastCursor | fetch-ai/concept_card_agent.py:467-485 | the chunks processed are exactly the fetched chunks whose index is past the cursor |
| Processing.NoNewChunksChangesNothing | fetch-ai/concept_card_agent.py:479-482 | with no new chunks the pass succeeds with zero cards and writes nothing |
| Processing.CursorMovesToHighestNew | fetch-ai/concept_card_agent.py:532-536 | after a pass the stored cursor reads as the highest new index, which is past the cursor the pass read |
| Processing.ProcessWithShownClient | fetch-ai/concept_card_agent.py:487-502 | with the LLM client as written the pass never changes Redis or Elasticsearch |
| Processing.PassStallsAtLimit | fetch-ai/concept_card_agent.py:467-482 | with 1000 indexed chunks all at or below the cursor, the pass reports no new chunks and writes nothing however many chunks are stored after them |
| Processing.ShownClientNeverAdvances | fetch-ai/concept_card_agent.py:487-502 | with the LLM client as written every pass with new chunks fails on the missing method and leaves the cursor where it was |
| Processing.ManualCreation | fetch-ai/concept_card_agent.py:554-609 | a failed or empty meeting lookup changes nothing; without an answering Redis, Redis is left alone; an escaping exception or a failed report leaves Redis alone; no card is removed |
| Processing.ManualMovesCursor | fetch-ai/concept_card_agent.py:567-588 | with an answering Redis and a working boundary finder, a manual run over new chunks leaves the cursor at the highest new index |
| Processing.ManualWithoutSegmenter | fetch-ai/concept_card_agent.py:567-588 | with the LLM client as written a manual run changes neither Redis nor the card index |
| Chat.MessageText | fetch-ai/concept_card_agent.py:669-676 | the extracted message text has no surrounding whitespace |
| Chat.TextsAppend | fetch-ai/concept_card_agent.py:669-676 | the texts of two runs of content items, taken together, are the texts of each run in order: the item order of the message is kept |
| Chat.TextsOfOne | fetch-ai/concept_card_agent.py:669-676 | a text item contributes its text, or the empty string when it has none, and any other item contributes nothing |
| Chat.TwoTextsJoined | fetch-ai/concept_card_agent.py:669-676 | two trimmed, non-empty text items around a non-text item give the two texts joined by one space |
| Chat.NoneTextCounts | fetch-ai/concept_card_agent.py:669-676 | a text item without text still takes a place in the join, as an empty part |
| Chat.UserText | fetch-ai/concept_card_agent.py:688-690 | the routed text is never empty: an empty message becomes `"(empty message)"` |
| Chat.AnyIn | fetch-ai/concept_card_agent.py:696 | `any(kw in lower ...)` holds exactly when some keyword of the group occurs in the text |
| Chat.FirstRule | fetch-ai/concept_card_agent.py:696-789 | the group chosen is mentioned by the text, and no group tried before it is |
| Chat.RouteIsFirstMatch | fetch-ai/concept_card_agent.py:692-806 | a command is chosen exactly when its group is the first one mentioned; help exactly when none is |
| Chat.EmptyMessageGetsHelp | fetch-ai/concept_card_agent.py:689-806 | an empty message gets the help reply |
| Chat.AsWrittenPauseWins | fetch-ai/concept_card_agent.py:696 | in the handler as written, any text containing `pause` is a pause command |
| Chat.AsWrittenMisroutes | fetch-ai/concept_card_agent.py:696-726 | in the handler as written, the resume keyword `unpause` and the status keyword `is paused` both pause |
| Chat.KeywordsRouteHome | fetch-ai/concept_card_agent.py:696-789 | with resume and status tried before pause, every keyword sent alone reaches its own command |
| Chat.SummaryData | fetch-ai/concept_card_agent.py:758-764 | a missing `data` is `{}`, and a value that is not a string is used as is |
| Chat.SummaryText | fetch-ai/concept_card_agent.py:767-776 | the summary shown has no surrounding whitespace and no three newlines in a row |
| Chat.PlainTextSummary | fetch-ai/concept_card_agent.py:758-776 | a plain-text reply that is not JSON and has no backslash is shown as its own stripped text, formatted |
| Chat.Respond | fetch-ai/concept_card_agent.py:696-806 | pause and resume act exactly when Redis answers `ping` and leave the flag set and cleared; status reports the stored flag; a summary is shown exactly when the backend succeeds; only the create command runs a pass, can raise or touch the card index; other replies leave Redis alone |
| Chat.HandleChat | fetch-ai/concept_card_agent.py:679-806 | as written: an empty message gets help and changes nothing; any text containing `pause` is answered as a pause; Redis changes only for a pause, resume or create command when Redis answers |
| Chat.HandleChatFixed | fetch-ai/concept_card_agent.py:679-806 | with resume and status tried first: an empty message gets help and changes nothing; Redis changes only for a pause, resume or create command when Redis answers |
| Chat.AsWrittenUnpausePauses | fetch-ai/concept_card_agent.py:696-707 | as written, the message `unpause` sets the pause flag |
| Chat.FixedUnpauseResumes | fetch-ai/concept_card_agent.py:711-722 | with resume tried first, the message `unpause` clears the pause flag |
| Chat.HandleKeepsCursors | fetch-ai/concept_card_agent.py:696-792 | no message other than a create command, and no message at all with the LLM client as written, changes any meeting's cursor |
| Chat.CreateMovesCursor | fetch-ai/concept_card_agent.py:788-792 | a create message over new chunks, with an answering Redis and a working boundary finder, moves the latest meeting's cursor to the highest new index |

## Left out

- The TypeScript ingestion relay (webhook, sockets, write buffer, dashboard fan-out) is not part of this model: its source is not among the modelled files.
- Prompts and the OpenAI request: `compare_topics` and `extract_concept` take the completion as a function parameter, and `json.loads` is an abstract decoder `string -> Option<Json>`.
- `identify_segment_boundaries` is an optional function parameter (`Segmenter`): the LLM client shown does not define it (see Findings).
- Elasticsearch I/O: the cluster is a map from meeting to chunks, states and cards. A request to a cluster that does not answer fails as a whole.
- Elastic.FetchChunks: chunks with equal `chunk_index` are returned in stored order. Elasticsearch does not fix the order of such ties.
- Processing.NewChunksArePastCursor and Detection.CursorAdvances hold for the fetched page only. A meeting with more than 1000 chunks (100 for detection) has chunks that are never fetched, so they are never processed: Processing.PassStallsAtLimit and Detection.RoundStallsAtLimit show the stall.
- `get_active_meetings`, `get_latest_meeting_id` and `fetch_all_chunks` only query Elasticsearch for the latest meeting, so they are not modelled. The manual run takes what `get_latest_meeting_id` returns as a parameter.
- `detect_concept_completion` and `auto_create_concept_cards` are not modelled. They are scheduling wrappers that pick the latest meeting and call the modelled passes.
- Processing.ManualCreation: the text lines of the reply (lines 591-609) are not modelled; the reply carries the report they are formatted from.
- Chat.HandleKeepsCursors: stated only for messages that do not run a pass with a boundary finder, because such a pass moves the cursor. Chat.CreateMovesCursor states where it moves.
- The Redis key expiry (`ttl`) is time-based and has no meaning without a clock.
- Redis failures in the middle of a call are not modelled: a client is either usable for the whole call or not.
- The `\uXXXX` decoding step of `_format_summary_markdown` is not modelled: it can produce surrogate code points, which a Dafny `char` cannot hold. The formatter is modelled on already-decoded text.
- `lower()` is modelled for ASCII letters only, and the regex `\d` as ASCII digits. Python also maps other Unicode letters and digits.
- The clients are parameters, and the model assumes a configured Redis client. `get_redis` (`fetch-ai/concept_card_agent.py:87-91`) reads `config.redis`, a field that `ConceptCardAgentConfig` (`fetch-ai/config.py:55-59`) does not define, so as written it raises `AttributeError`. The pause, resume and status branches would turn that into an error reply (`:704-706`, `:719-721`, `:735-737`). The manual run (`:563`) and the timed run (`:628`) catch only `RuntimeError`, so it would escape them. This configuration gap is not modelled.
- The timed run's period, `config.agent.auto_run_interval_sec` (`fetch-ai/concept_card_agent.py:612`), is also not a field of `AgentConfig` (`fetch-ai/config.py:47-52`). The model does not cover loading the module or the timer, and takes the period as given.
- The uAgent runtime, `ctx.send`, acknowledgements, logging and `call_backend_agent_converse` are not modelled. The backend's reply is a `Backend` value.
- Reply texts are not modelled: replies and report messages are constructors that carry what the text reports, and `auto_run_interval_sec` is not modelled.
- Timestamps are a `now` parameter.
- Chunks whose `chunk_index` or `text` has a type other than an integer or a string are not modelled. The same holds for segment records whose `start_chunk`, `end_chunk` or `concept_hint` has another type.
- A loaded agent state always has both fields: a state document missing one of them is not modelled.
- JSON numbers are reals. Integer/float distinctions play no part in the modelled logic.

## Findings

| source | as written | input that shows it | evidently intended | confidence | as-written member | corrected member |
|---|---|---|---|---|---|---|
| fetch-ai/concept_card_agent.py:489 | the pass calls `llm.identify_segment_boundaries`, which `LLMClient` in `fetch-ai/llm_client.py` does not define, so the call raises `AttributeError`; the handler at line 499 turns that into a failed report | any meeting with a chunk past the cursor and a usable Redis | new chunks are split into segments, cards are created, and the cursor moves to the highest new index | high; not executed | Processing.ShownClientNeverAdvances | Processing.CursorMovesToHighestNew |
| fetch-ai/concept_card_agent.py:696 | the pause group is tried first, by substring, and `"pause"` occurs inside the resume keyword `"unpause"` and the status keyword `"is paused"` | the messages `unpause` and `is paused` | `unpause` resumes and `is paused` reports the status; the model tries resume and status before pause | high; not executed | Chat.AsWrittenMisroutes | Chat.HandleChatFixed |

=== FILE: cards.dfy ===
/**
 * `create_concept_card`: a completed transcript segment becomes one
 * concept card, whose fields the LLM extracts and whose concept id is
 * supplied, derived from the title, or derived from the segment's chunk
 * range.
 */
module Cards {
  import opened Outcomes
  import opened Text
  import opened Json
  import opened Chunks
  import opened Slug
  import opened Llm
  import opened Elastic

  /** The card `create_concept_card` returns. */
  datatype Card = Card(docId: string, conceptId: string, title: Json, shortExplain: Json, example: Json)

  /** A card and the card index after it was written; no card (a `None`
      return); or an exception that escapes `create_concept_card`. */
  datatype CardOutcome = Created(card: Card, es: ElasticClient) | NoCard | Crash(exc: Exc)

  const DefaultTitle := JStr("Untitled Concept")

  /** `obj.get(key, default)` on a decoded JSON value; anything other than
      an object has no `get`. */
  function Get(obj: Json, key: string, default: Json): (r: Result<Json>)
    ensures r.Ok? <==> obj.JObj?
    ensures obj.JObj? && Lookup(obj.fields, key).None? ==> r == Ok(default)
  {
    if obj.JObj? then Ok(Lookup(obj.fields, key).GetOr(default)) else Err(AttributeError("get"))
  }

  /** `f"segment_{first}_{last}"` over the first and last chunk of the list
      as given (not the lowest and highest index). */
  function FallbackId(segment: seq<Chunk>): (r: string)
    requires |segment| > 0
    ensures |r| > 8 && r[..8] == "segment_"
  {
    "segment_" + IntToString(IndexOf(segment[0])) + "_" + IntToString(IndexOf(segment[|segment| - 1]))
  }

  /** Python's `not concept_id` for an optional string. */
  predicate Missing(given: Option<string>) { given.None? || given.value == [] }

  /** The concept id of `create_concept_card`: a supplied id verbatim;
      otherwise the slug of the title, unless the slug is `"unknown"`, in
      which case the segment's chunk range. Slugging a title that is not a
      string raises `AttributeError`. */
  function ConceptIdFor(given: Option<string>, title: Json, segment: seq<Chunk>): (r: Result<string>)
    requires |segment| > 0
    ensures !Missing(given) ==> r == Ok(given.value)
    ensures Missing(given) ==> (r.Ok? <==> title.JStr?)
    ensures Missing(given) && title.JStr? ==>
              (r.value == FallbackId(segment) <==> MakeSlug(title.s) == Unknown)
    ensures Missing(given) && title.JStr? && r.value != FallbackId(segment) ==>
              1 <= |r.value| <= DefaultMaxLen && SlugShaped(r.value)
  {
    if !Missing(given) then Ok(given.value)
    else if !title.JStr? then Err(AttributeError("lower"))
    else
      var slug := MakeSlug(title.s);
      FallbackIsNotSlug(segment);
      if slug != Unknown then Ok(slug) else Ok(FallbackId(segment))
  }

  /** The two ways of deriving an id never meet: a chunk-range id has an
      underscore, and no slug has one. */
  lemma FallbackIsNotSlug(segment: seq<Chunk>)
    requires |segment| > 0
    ensures !SlugShaped(FallbackId(segment))
  {
    var f := FallbackId(segment);
    assert f[7] == f[..8][7] == '_';
  }

  /** `create_concept_card(meeting_id, segment_chunks, concept_id)`, with the
      LLM's completion service as `ask`, `json.loads` as `decode`, and the
      current time as `now`. */
  function CreateConceptCard(es: ElasticClient, llm: LlmClient, ask: Completion, decode: string -> Option<Json>,
                             meetingId: string, segment: seq<Chunk>, given: Option<string>, now: string): (r: CardOutcome)
    ensures |segment| == 0 ==> r == NoCard
    ensures |segment| > 0 && Strip(ChunksToText(segment)) == [] ==> r == NoCard
    ensures llm.apiKey == [] ==> r == NoCard
    ensures r.Created? ==> r.card.docId == DocId(meetingId, r.card.conceptId)
    ensures r.Created? ==> r.es.cards == es.cards[r.card.docId := CardDoc(meetingId, r.card.conceptId, r.card.title, r.card.shortExplain, r.card.example, now)]
    ensures r.Created? ==> r.es.states == es.states && r.es.chunks == es.chunks
    ensures r.Created? && !Missing(given) ==> r.card.conceptId == given.value
  {
    if |segment| == 0 then NoCard
    else
      var text := ChunksToText(segment);
      if Strip(text) == [] then NoCard
      else match ExtractConcept(llm, text, ask, decode)
        case Err(_) => NoCard
        case Ok(extracted) =>
          match Get(extracted, "title", DefaultTitle)
          case Err(e) => Crash(e)
          case Ok(title) =>
            var shortExplain := Get(extracted, "short_explain", JStr("")).value;
            var example := Get(extracted, "example", JStr("")).value;
            match ConceptIdFor(given, title, segment)
            case Err(e) => Crash(e)
            case Ok(conceptId) =>
              match IndexConceptCard(es, CardDoc(meetingId, conceptId, title, shortExplain, example, now))
              case Err(_) => NoCard
              case Ok((docId, es')) => Created(Card(docId, conceptId, title, shortExplain, example), es')
  }

  /** A card is written only for a non-empty segment with text, by a
      configured LLM client, into a reachable configured index, from a
      reply that decoded to an object. */
  lemma CardNeedsEverything(es: ElasticClient, llm: LlmClient, ask: Completion, decode: string -> Option<Json>,
                            meetingId: string, segment: seq<Chunk>, given: Option<string>, now: string)
    requires CreateConceptCard(es, llm, ask, decode, meetingId, segment, given, now).Created?
    ensures |segment| > 0 && Strip(ChunksToText(segment)) != []
    ensures llm.apiKey != [] && es.apiKey != [] && es.up
    ensures var reply := ExtractConcept(llm, ChunksToText(segment), ask, decode);
            reply.Ok? && reply.value.JObj?
  {
  }

  /** Without a supplied id, a title whose slug is usable names the card
      after its slug, and any other string title falls back to the chunk
      range of the segment. */
  lemma DerivedConceptId(given: Option<string>, title: string, segment: seq<Chunk>)
    requires Missing(given) && |segment| > 0
    ensures var r := ConceptIdFor(given, JStr(title), segment);
            && (MakeSlug(title) != Unknown ==> r == Ok(MakeSlug(title)))
            && (MakeSlug(title) == Unknown ==> r == Ok(FallbackId(segment)))
            && (Alnums(Lower(title)) == [] ==> r == Ok(FallbackId(segment)))
  {
  }

  /** The card returned carries the fields the LLM extracted, with the
      documented defaults for missing keys. */
  lemma CardFields(es: ElasticClient, llm: LlmClient, ask: Completion, decode: string -> Option<Json>,
                   meetingId: string, segment: seq<Chunk>, given: Option<string>, now: string)
    requires CreateConceptCard(es, llm, ask, decode, meetingId, segment, given, now).Created?
    ensures var card := CreateConceptCard(es, llm, ask, decode, meetingId, segment, given, now).card;
            var obj := ExtractConcept(llm, ChunksToText(segment), ask, decode).value;
            && card.title == Lookup(obj.fields, "title").GetOr(DefaultTitle)
            && card.shortExplain == Lookup(obj.fields, "short_explain").GetOr(JStr(""))
            && card.example == Lookup(obj.fields, "example").GetOr(JStr(""))
            && ConceptIdFor(given, card.title, segment) == Ok(card.conceptId)
  {
  }
}

=== FILE: chat.dfy ===
/**
 * `handle_chat_message`: a chat message is reduced to its text, routed by
 * the first keyword group its lower-cased text mentions, and answered;
 * the pause, resume and status commands act on the Redis pause flag.
 */
module Chat {
  import opened Outcomes
  import opened Text
  import opened Json
  import opened MessageExtract
  import opened Markdown
  import opened Redis
  import opened Elastic
  import opened Processing
  import opened Chunks

  /** An item of a chat message's content: one that has a `text`
      attribute (possibly `None`), or one that has none. */
  datatype ContentItem = TextContent(text: Option<string>) | OtherContent

  /** The texts of the items that have one, `None` read as `""`. */
  function Texts(content: seq<ContentItem>): (r: seq<string>)
    ensures |r| <= |content|
    ensures (forall i :: 0 <= i < |content| ==> content[i].OtherContent?) ==> r == []
  {
    if |content| == 0 then []
    else
      var rest := Texts(content[1..]);
      match content[0]
      case TextContent(t) => [t.GetOr("")] + rest
      case OtherContent => rest
  }

  /** `_extract_text_from_message`: the texts joined by spaces, stripped. */
  function MessageText(content: seq<ContentItem>): (r: string)
    ensures Stripped(r)
  {
    Strip(Join(" ", Texts(content)))
  }

  /** The texts of a concatenation are the texts of each part, in order:
      an item with a text contributes it (`None` as `""`), any other item
      nothing. */
  lemma {:induction false} TextsAppend(a: seq<ContentItem>, b: seq<ContentItem>)
    ensures Texts(a + b) == Texts(a) + Texts(b)
  {
    if |a| == 0 {
      assert a + b == b;
    } else {
      var ab := a + b;
      assert ab[0] == a[0] && ab[1..] == a[1..] + b;
      TextsAppend(a[1..], b);
      var head := if a[0].TextContent? then [a[0].text.GetOr("")] else [];
      assert Texts(ab) == head + Texts(ab[1..]);
      assert Texts(a) == head + Texts(a[1..]);
    }
  }

  lemma TextsOfOne(item: ContentItem)
    ensures item.TextContent? ==> Texts([item]) == [item.text.GetOr("")]
    ensures item.OtherContent? ==> Texts([item]) == []
  {
  }

  /** Two texts around an item without one are joined by a single space. */
  lemma TwoTextsJoined(a: string, b: string)
    requires a != [] && b != [] && Stripped(a) && Stripped(b)
    ensures MessageText([TextContent(Some(a)), OtherContent, TextContent(Some(b))]) == a + " " + b
  {
    var content := [TextContent(Some(a)), OtherContent, TextContent(Some(b))];
    TextsAppend([TextContent(Some(a))], [OtherContent, TextContent(Some(b))]);
    TextsAppend([OtherContent], [TextContent(Some(b))]);
    assert content == [TextContent(Some(a))] + [OtherContent, TextContent(Some(b))];
    assert [OtherContent, TextContent(Some(b))] == [OtherContent] + [TextContent(Some(b))];
    assert Texts(content) == [a, b];
    var joined := a + " " + b;
    assert Join(" ", [a, b]) == joined by {
      assert [a, b][1..] == [b];
    }
    assert joined[0] == a[0] && joined[|joined| - 1] == b[|b| - 1];
    StrippedStrip(joined);
  }

  /** An item whose text is `None` still counts: it adds an empty part,
      and with it a space. */
  lemma NoneTextCounts(rest: seq<ContentItem>)
    ensures Texts([TextContent(None)] + rest) == [""] + Texts(rest)
  {
    TextsAppend([TextContent(None)], rest);
  }

  const EmptyMessage := "(empty message)"

  /** The text the handler routes: the message text, or a placeholder when
      it is empty. */
  function UserText(content: seq<ContentItem>): (r: string)
    ensures r != []
    ensures MessageText(content) != [] ==> r == MessageText(content)
  {
    var text := MessageText(content);
    if text == [] then EmptyMessage else text
  }

  // ---------------------------------------------------------------------
  // Keyword routing.

  datatype Command = PauseAuto | ResumeAuto | Status | Summary | CreateCards | Help

  /** A keyword group and the command it selects. */
  datatype Rule = Rule(words: seq<string>, command: Command)

  const PauseWords: seq<string> := ["pause", "stop auto", "disable auto"]
  const ResumeWords: seq<string> := ["resume", "start auto", "enable auto", "unpause"]
  const StatusWords: seq<string> := ["status", "is paused", "auto status"]
  const SummaryWords: seq<string> := ["summary", "catch up", "catchup", "what happened", "summarize"]
  const CreateWords: seq<string> :=
    ["create concept card", "generate concept card", "run detection", "detect concept", "make card"]

  /** The groups in the order the handler tries them. */
  const AsWrittenRules: seq<Rule> :=
    [Rule(PauseWords, PauseAuto), Rule(ResumeWords, ResumeAuto), Rule(StatusWords, Status),
     Rule(SummaryWords, Summary), Rule(CreateWords, CreateCards)]

  /** The groups with resume and status tried before pause, so that
      `unpause` and `is paused` reach their own commands. */
  const Rules: seq<Rule> :=
    [Rule(ResumeWords, ResumeAuto), Rule(StatusWords, Status), Rule(PauseWords, PauseAuto),
     Rule(SummaryWords, Summary), Rule(CreateWords, CreateCards)]

  /** `any(kw in s for kw in words)`. */
  function AnyIn(s: string, words: seq<string>): (r: bool)
    ensures r <==> exists k :: 0 <= k < |words| && Contains(s, words[k])
  {
    if |words| == 0 then false
    else if Contains(s, words[0]) then true
    else
      var r := AnyIn(s, words[1..]);
      assert forall k :: 1 <= k < |words| ==> words[k] == words[1..][k - 1];
      r
  }

  /** The first group from `i` on that `s` mentions, or `|rules|` when
      there is none. */
  function FirstRule(s: string, rules: seq<Rule>, i: nat): (r: nat)
    requires i <= |rules|
    ensures i <= r <= |rules|
    ensures r < |rules| ==> AnyIn(s, rules[r].words)
    ensures forall j :: i <= j < r ==> !AnyIn(s, rules[j].words)
    decreases |rules| - i
  {
    if i == |rules| then i
    else if AnyIn(s, rules[i].words) then i
    else FirstRule(s, rules, i + 1)
  }

  /** The command of the first group the lower-cased text mentions; help
      when it mentions none. */
  function RouteBy(rules: seq<Rule>, text: string): Command {
    var k := FirstRule(Lower(text), rules, 0);
    if k < |rules| then rules[k].command else Help
  }

  /** The routing the rest of the model uses. */
  function Route(text: string): Command {
    RouteBy(Rules, text)
  }

  /** The routing of the handler as written. */
  function AsWrittenRoute(text: string): Command {
    RouteBy(AsWrittenRules, text)
  }

  /** Routing is first match: a group is chosen exactly when the text
      mentions it and no earlier group; help exactly when it mentions
      none. */
  lemma RouteIsFirstMatch(rules: seq<Rule>, text: string, k: nat)
    requires forall i :: 0 <= i < |rules| ==> rules[i].command != Help
    requires forall i, j :: 0 <= i < j < |rules| ==> rules[i].command != rules[j].command
    requires k < |rules|
    ensures RouteBy(rules, text) == rules[k].command <==>
              AnyIn(Lower(text), rules[k].words) && forall j :: 0 <= j < k ==> !AnyIn(Lower(text), rules[j].words)
    ensures RouteBy(rules, text) == Help <==> forall j :: 0 <= j < |rules| ==> !AnyIn(Lower(text), rules[j].words)
  {
    var s := Lower(text);
    var r := FirstRule(s, rules, 0);
    if AnyIn(s, rules[k].words) && forall j :: 0 <= j < k ==> !AnyIn(s, rules[j].words) {
      FirstRuleIs(s, rules, 0, k);
    }
    if RouteBy(rules, text) == rules[k].command {
      assert r < |rules|;
      assert r == k;
    }
  }

  /** The first group mentioned is the one before which none is. */
  lemma {:induction false} FirstRuleIs(s: string, rules: seq<Rule>, i: nat, k: nat)
    requires i <= k < |rules| && AnyIn(s, rules[k].words)
    requires forall j :: i <= j < k ==> !AnyIn(s, rules[j].words)
    ensures FirstRule(s, rules, i) == k
    decreases k - i
  {
    if i < k {
      FirstRuleIs(s, rules, i + 1, k);
    }
  }

  /** Text without capital ASCII letters is its own lower case. */
  lemma LowerKeeps(s: string)
    requires NoCapitals(s)
    ensures Lower(s) == s
  {
  }

  predicate NoCapitals(s: string) {
    forall i :: 0 <= i < |s| ==> !('A' <= s[i] <= 'Z')
  }

  /** A keyword with a character the text lacks is not in the text. */
  lemma MissingChar(s: string, w: string, c: char)
    requires c in w && c !in s
    ensures !Contains(s, w)
  {
    var q :| 0 <= q < |w| && w[q] == c;
    forall p: nat | p + |w| <= |s| ensures !MatchAt(s, w, p) {
      assert s[p..p + |w|][q] == s[p + q] != c;
    }
    ContainsIff(s, w);
  }

  /** No text of `texts` has the character `c`. */
  predicate Lacks(texts: seq<string>, c: char) {
    forall i :: 0 <= i < |texts| ==> c !in texts[i]
  }

  /** Keywords that each have a character no text of `texts` has. */
  lemma Apart(texts: seq<string>, words: seq<string>, marks: string)
    requires |marks| == |words|
    requires forall m :: 0 <= m < |words| ==> marks[m] in words[m] && Lacks(texts, marks[m])
    ensures forall i :: 0 <= i < |texts| ==> !AnyIn(texts[i], words)
  {
    forall i, m | 0 <= i < |texts| && 0 <= m < |words| ensures !Contains(texts[i], words[m]) {
      MissingChar(texts[i], words[m], marks[m]);
    }
  }

  // ---------------------------------------------------------------------
  // What routing decides.

  /** A message with no text gets the help reply. */
  lemma EmptyMessageGetsHelp(content: seq<ContentItem>)
    requires MessageText(content) == []
    ensures Route(UserText(content)) == Help && AsWrittenRoute(UserText(content)) == Help
  {
    assert UserText(content) == EmptyMessage;
    PlaceholderRoutesHelp();
  }

  lemma PlaceholderRoutesHelp()
    ensures Route(EmptyMessage) == Help && AsWrittenRoute(EmptyMessage) == Help
  {
    FixedPlaceholderHelp();
    AsWrittenPlaceholderHelp();
  }

  lemma FixedPlaceholderHelp()
    ensures RouteBy(Rules, EmptyMessage) == Help
  {
    PlaceholderLower();
    LowerKeeps(EmptyMessage);
    forall k | 0 <= k < |Rules| ensures !AnyIn(EmptyMessage, Rules[k].words) {
      PlaceholderMentionsNone(k);
    }
    RouteIsFirstMatch(Rules, EmptyMessage, 0);
  }

  lemma AsWrittenPlaceholderHelp()
    ensures RouteBy(AsWrittenRules, EmptyMessage) == Help
  {
    PlaceholderLower();
    LowerKeeps(EmptyMessage);
    forall k | 0 <= k < |AsWrittenRules| ensures !AnyIn(EmptyMessage, AsWrittenRules[k].words) {
      if k == 0 {
        PlaceholderMentionsNone(2);
      } else if k == 1 {
        PlaceholderMentionsNone(0);
      } else if k == 2 {
        PlaceholderMentionsNone(1);
      } else {
        PlaceholderMentionsNone(k);
      }
    }
    AsWrittenRulesDistinct();
    RouteIsFirstMatch(AsWrittenRules, EmptyMessage, 0);
  }

  lemma PlaceholderLower()
    ensures NoCapitals(EmptyMessage)
  {
  }

  /** The placeholder for an empty message mentions no keyword: it has no
      `u`, which every resume, status and pause keyword has, and no `c`,
      `h` or `u` for the other groups. */
  lemma PlaceholderMentionsNone(k: nat)
    requires k < |Rules|
    ensures !AnyIn(EmptyMessage, Rules[k].words)
  {
    if k == 0 {
      PlaceholderNot(ResumeWords, "uuuu");
    } else if k == 1 {
      PlaceholderNot(StatusWords, "uuu");
    } else if k == 2 {
      PlaceholderNot(PauseWords, "uuu");
    } else if k == 3 {
      PlaceholderNot(SummaryWords, "uuuhu");
    } else {
      PlaceholderNot(CreateWords, "ccccc");
    }
  }

  lemma PlaceholderNot(words: seq<string>, marks: string)
    requires |marks| == |words|
    requires forall m :: 0 <= m < |words| ==> marks[m] in words[m] && marks[m] in "uch"
    ensures !AnyIn(EmptyMessage, words)
  {
    PlaceholderLacks();
    var texts := [EmptyMessage];
    Apart(texts, words, marks);
    assert texts[0] == EmptyMessage;
  }

  lemma PlaceholderLacks()
    ensures Lacks([EmptyMessage], 'u') && Lacks([EmptyMessage], 'c') && Lacks([EmptyMessage], 'h')
  {
  }

  /** As written, any text mentioning `pause` is a pause command. */
  lemma AsWrittenPauseWins(text: string)
    requires Contains(Lower(text), "pause")
    ensures AsWrittenRoute(text) == PauseAuto
  {
    assert AnyIn(Lower(text), AsWrittenRules[0].words) by {
      assert PauseWords[0] == "pause";
    }
  }

  /** As written, the resume keyword `unpause` and the status keyword
      `is paused` both pause. */
  lemma AsWrittenMisroutes()
    ensures AsWrittenRoute("unpause") == PauseAuto
    ensures AsWrittenRoute("is paused") == PauseAuto
  {
    LowerKeeps("unpause");
    LowerKeeps("is paused");
    ContainsIff("unpause", "pause");
    assert MatchAt("unpause", "pause", 2);
    ContainsIff("is paused", "pause");
    assert MatchAt("is paused", "pause", 3);
    AsWrittenPauseWins("unpause");
    AsWrittenPauseWins("is paused");
  }

  /** Each keyword, sent alone, is routed to its own group. */
  lemma KeywordsRouteHome(k: nat, i: nat)
    requires k < |Rules| && i < |Rules[k].words|
    ensures Route(Rules[k].words[i]) == Rules[k].command
  {
    var w := Rules[k].words[i];
    WordLower(k, i);
    LowerKeeps(w);
    SelfContains(w);
    assert AnyIn(w, Rules[k].words);
    forall j | 0 <= j < k ensures !AnyIn(w, Rules[j].words) {
      GroupsApart(j, k);
    }
    RulesDistinct();
    RouteIsFirstMatch(Rules, w, k);
  }

  lemma SelfContains(w: string)
    ensures Contains(w, w)
  {
    ContainsIff(w, w);
    assert MatchAt(w, w, 0);
  }

  lemma AsWrittenRulesDistinct()
    ensures forall i :: 0 <= i < |AsWrittenRules| ==> AsWrittenRules[i].command != Help
    ensures forall i, j :: 0 <= i < j < |AsWrittenRules| ==> AsWrittenRules[i].command != AsWrittenRules[j].command
  {
  }

  lemma RulesDistinct()
    ensures forall i :: 0 <= i < |Rules| ==> Rules[i].command != Help
    ensures forall i, j :: 0 <= i < j < |Rules| ==> Rules[i].command != Rules[j].command
  {
  }

  // ---------------------------------------------------------------------
  // Facts about the keyword lists, one small lemma each.

  lemma WordLower(k: nat, i: nat)
    requires k < |Rules| && i < |Rules[k].words|
    ensures NoCapitals(Rules[k].words[i])
  {
    if k == 0 {
      ResumeLower(i);
    } else if k == 1 {
      StatusLower(i);
    } else if k == 2 {
      PauseLower(i);
    } else if k == 3 {
      SummaryLower(i);
    } else {
      CreateLower(i);
    }
  }

  /** Every keyword is written in lower case, group by group. */
  lemma ResumeLower(i: nat)
    requires i < |ResumeWords|
    ensures NoCapitals(ResumeWords[i])
  {
  }

  lemma StatusLower(i: nat)
    requires i < |StatusWords|
    ensures NoCapitals(StatusWords[i])
  {
  }

  lemma PauseLower(i: nat)
    requires i < |PauseWords|
    ensures NoCapitals(PauseWords[i])
  {
  }

  lemma SummaryLower(i: nat)
    requires i < |SummaryWords|
    ensures NoCapitals(SummaryWords[i])
  {
  }

  lemma CreateLower(i: nat)
    requires i < |CreateWords|
    ensures NoCapitals(CreateWords[i])
  {
  }

  /** No keyword mentions a keyword of a group tried before its own. */
  lemma GroupsApart(j: nat, k: nat)
    requires j < k < |Rules|
    ensures forall i :: 0 <= i < |Rules[k].words| ==> !AnyIn(Rules[k].words[i], Rules[j].words)
  {
    if k == 1 {
      StatusNotResume();
    } else if k == 2 {
      if j == 0 { PauseNotResume(); } else { PauseNotStatus(); }
    } else if k == 3 {
      if j == 0 { SummaryNotResume(); } else if j == 1 { SummaryNotStatus(); } else { SummaryNotPause(); }
    } else {
      if j == 0 {
        CreateNot(ResumeWords, "ssbs");
      } else if j == 1 {
        CreateNot(StatusWords, "sss");
      } else if j == 2 {
        CreateNot(PauseWords, "sss");
      } else {
        CreateNot(SummaryWords, "shhhs");
      }
    }
  }

  lemma StatusNotResume()
    ensures forall i :: 0 <= i < |StatusWords| ==> !AnyIn(StatusWords[i], ResumeWords)
  {
    Apart(StatusWords, ResumeWords, "rrnn");
  }

  lemma PauseNotResume()
    ensures forall i :: 0 <= i < |PauseWords| ==> !AnyIn(PauseWords[i], ResumeWords)
  {
    Apart(PauseWords, ResumeWords, "rrnn");
  }

  lemma PauseNotStatus()
    ensures forall i :: 0 <= i < |PauseWords| ==> !AnyIn(PauseWords[i], StatusWords)
  {
  }

  lemma SummaryNotResume()
    ensures forall i :: 0 <= i < |SummaryWords| ==> !AnyIn(SummaryWords[i], ResumeWords)
  {
  }

  lemma SummaryNotStatus()
    ensures forall i :: 0 <= i < |SummaryWords| ==> !AnyIn(SummaryWords[i], StatusWords)
  {
  }

  /** No summary keyword mentions a pause keyword. */
  lemma SummaryNotPause()
    ensures forall i :: 0 <= i < |SummaryWords| ==> !AnyIn(SummaryWords[i], PauseWords)
  {
    forall i | 0 <= i < |SummaryWords| ensures !AnyIn(SummaryWords[i], PauseWords) {
      SummaryWordNotPause(i);
    }
  }

  /** Each summary keyword lacks a letter of each pause keyword: `p` or
      `s` for `pause`, and `o` for the other two. */
  lemma SummaryWordNotPause(i: nat)
    requires i < |SummaryWords|
    ensures !AnyIn(SummaryWords[i], PauseWords)
  {
    var w := SummaryWords[i];
    if i == 0 || i == 4 {
      MissingChar(w, PauseWords[0], 'p');
    } else {
      MissingChar(w, PauseWords[0], 's');
    }
    MissingChar(w, PauseWords[1], 'o');
    MissingChar(w, PauseWords[2], 'o');
  }

  /** No card-creation keyword mentions a keyword of `words` when each of
      those has an `s`, `b` or `h`, letters no card-creation keyword has. */
  lemma CreateNot(words: seq<string>, marks: string)
    requires |marks| == |words|
    requires forall m :: 0 <= m < |words| ==> marks[m] in words[m] && marks[m] in "sbh"
    ensures forall i :: 0 <= i < |CreateWords| ==> !AnyIn(CreateWords[i], words)
  {
    CreateLacks();
    Apart(CreateWords, words, marks);
  }

  lemma CreateLacks()
    ensures Lacks(CreateWords, 's') && Lacks(CreateWords, 'b') && Lacks(CreateWords, 'h')
  {
    CreateLacksChar('s');
    CreateLacksChar('b');
    CreateLacksChar('h');
  }

  lemma CreateLacksChar(c: char)
    requires c in "sbh"
    ensures Lacks(CreateWords, c)
  {
    forall i | 0 <= i < |CreateWords| ensures c !in CreateWords[i] {
      CreateWordLacks(i, c);
    }
  }

  lemma CreateWordLacks(i: nat, c: char)
    requires i < |CreateWords| && c in "sbh"
    ensures c !in CreateWords[i]
  {
    var w := CreateWords[i];
    forall p | 0 <= p < |w| ensures w[p] != c {
      assert w[p] in "acdegiklmnoprtuv ";
    }
  }

  // ---------------------------------------------------------------------
  // Replies.

  /** What the handler answers. The texts of the replies are not modelled;
      each reply records what it reports. */
  datatype Reply =
    | PausedReply
    | ResumedReply
    | StatusReply(paused: bool)
    | RedisUnavailable(command: Command)
    | BackendFailed(message: string)
    | SummaryReply(summary: string)
    | ManualRun(result: ManualReply)
    | HelpReply

  /** What `call_backend_agent_converse` returned: its `success` flag, its
      `message`, and its `data` entry when there is one. */
  datatype Backend = Backend(success: bool, message: string, data: Option<Json>)

  const NoSummary := "No summary content could be extracted from the agent response."
  /** The two-character sequence backslash, `n`, that the backend may send. */
  const EscapedNewline := "\\n"

  /** The value the message is extracted from: the data, a string decoded
      as JSON, or a string that does not decode wrapped as a message. */
  function SummaryData(data: Option<Json>, decode: string -> Option<Json>): (r: Json)
    ensures data.None? ==> r == JObj([])
    ensures data.Some? && !data.value.JStr? ==> r == data.value
  {
    var d := data.GetOr(JObj([]));
    if d.JStr? then
      match decode(d.s)
      case Some(j) => j
      case None => JObj([Field("message", d)])
    else d
  }

  /** The summary shown to the user: the extracted message or a fallback,
      with escaped newlines made real, stripped, then formatted. */
  function SummaryText(data: Option<Json>, decode: string -> Option<Json>): (r: string)
    ensures Stripped(r) && !Contains(r, ThreeNewlines)
  {
    var message := ExtractMessage(SummaryData(data, decode)).GetOr(NoSummary);
    var text := Strip(ReplaceAll(message, EscapedNewline, "\n"));
    FormatSummaryStripped(text);
    FormatSummary(text)
  }

  /** A plain-text reply that is not JSON and has no backslash is shown as
      its own stripped text, formatted. */
  lemma PlainTextSummary(s: string, decode: string -> Option<Json>)
    requires decode(s).None? && Strip(s) != [] && '\\' !in s
    ensures SummaryText(Some(JStr(s)), decode) == FormatSummary(Strip(s))
  {
    var j := JObj([Field("message", JStr(s))]);
    assert SummaryData(Some(JStr(s)), decode) == j;
    assert Lookup(j.fields, "message") == Some(JStr(s));
    MessageKeyWins(j, s);
    var t := Strip(s);
    var a := SkipStart(s, IsSpace, 0);
    assert t == s[a..a + |t|];
    assert '\\' !in t by {
      forall i | 0 <= i < |t| ensures t[i] != '\\' {
        assert t[i] == s[a + i];
      }
    }
    ReplaceAbsent(t, EscapedNewline, "\n");
    StrippedStrip(t);
  }

  /** What the handler reads besides the stores: the LLM services of a
      manual run, what `get_latest_meeting_id` returns, the backend's reply
      to a summary request, and the JSON decoder. */
  datatype Inputs = Inputs(svc: Services, latest: Result<Option<string>>, backend: Backend,
                           decode: string -> Option<Json>)

  /** The reply, or the exception that escapes the handler, with the
      stores after it. */
  datatype Handled = Handled(reply: Result<Reply>, redis: RedisClient, es: ElasticClient)

  /** The reply to a routed command. The create command runs the manual
      pass, whose exceptions the handler does not catch. */
  function Respond(command: Command, redis: RedisClient, es: ElasticClient, inputs: Inputs): (r: Handled)
    ensures r.redis.url == redis.url && r.redis.reachable == redis.reachable
    ensures r.reply == Ok(PausedReply) <==> command == PauseAuto && Ping(redis)
    ensures r.reply == Ok(ResumedReply) <==> command == ResumeAuto && Ping(redis)
    ensures r.reply == Ok(PausedReply) ==> IsPaused(r.redis) == Ok(true)
    ensures r.reply == Ok(ResumedReply) ==> IsPaused(r.redis) == Ok(false)
    ensures r.reply.Ok? && r.reply.value.StatusReply? ==> command == Status && IsPaused(redis) == Ok(r.reply.value.paused)
    ensures r.reply.Ok? && r.reply.value.SummaryReply? <==> command == Summary && inputs.backend.success
    ensures command == CreateCards <==> r.reply.Err? || r.reply.value.ManualRun?
    ensures command != CreateCards ==> r.es == es
    ensures command != CreateCards && r.reply != Ok(PausedReply) && r.reply != Ok(ResumedReply) ==> r.redis == redis
    ensures r.es.states == es.states && r.es.chunks == es.chunks && es.cards.Keys <= r.es.cards.Keys
    ensures !Ping(redis) ==> r.redis == redis
  {
    match command
    case PauseAuto =>
      if Ping(redis) then Handled(Ok(PausedReply), Pause(redis).value, es)
      else Handled(Ok(RedisUnavailable(command)), redis, es)
    case ResumeAuto =>
      if Ping(redis) then Handled(Ok(ResumedReply), Resume(redis).value, es)
      else Handled(Ok(RedisUnavailable(command)), redis, es)
    case Status =>
      if Ping(redis) then Handled(Ok(StatusReply(IsPaused(redis).value)), redis, es)
      else Handled(Ok(RedisUnavailable(command)), redis, es)
    case Summary =>
      var backend := inputs.backend;
      if backend.success then Handled(Ok(SummaryReply(SummaryText(backend.data, inputs.decode))), redis, es)
      else Handled(Ok(BackendFailed(backend.message)), redis, es)
    case CreateCards =>
      var run := ManualCreation(es, inputs.svc, redis, inputs.latest);
      var reply := if run.reply.Ok? then Ok(ManualRun(run.reply.value)) else Err(run.reply.exc);
      Handled(reply, run.redis, run.es)
    case Help => Handled(Ok(HelpReply), redis, es)
  }

  /** `handle_chat_message` as written, after the acknowledgement: pause
      is tried first. */
  function HandleChat(content: seq<ContentItem>, redis: RedisClient, es: ElasticClient, inputs: Inputs): (r: Handled)
    ensures MessageText(content) == [] ==> r == Handled(Ok(HelpReply), redis, es)
    ensures Contains(Lower(UserText(content)), "pause") ==>
              r.reply == Ok(if Ping(redis) then PausedReply else RedisUnavailable(PauseAuto)) && r.es == es
    ensures r.redis != redis ==> AsWrittenRoute(UserText(content)) in {PauseAuto, ResumeAuto, CreateCards} && Ping(redis)
  {
    if MessageText(content) == [] then
      EmptyMessageGetsHelp(content);
      Respond(AsWrittenRoute(UserText(content)), redis, es, inputs)
    else if Contains(Lower(UserText(content)), "pause") then
      AsWrittenPauseWins(UserText(content));
      Respond(AsWrittenRoute(UserText(content)), redis, es, inputs)
    else Respond(AsWrittenRoute(UserText(content)), redis, es, inputs)
  }

  /** The handler with resume and status tried before pause. */
  function HandleChatFixed(content: seq<ContentItem>, redis: RedisClient, es: ElasticClient, inputs: Inputs): (r: Handled)
    ensures MessageText(content) == [] ==> r == Handled(Ok(HelpReply), redis, es)
    ensures r.redis != redis ==> Route(UserText(content)) in {PauseAuto, ResumeAuto, CreateCards} && Ping(redis)
  {
    if MessageText(content) == [] then
      EmptyMessageGetsHelp(content);
      Respond(Route(UserText(content)), redis, es, inputs)
    else Respond(Route(UserText(content)), redis, es, inputs)
  }

  /** A message holding one text item is routed by that text, when it
      has no surrounding whitespace. */
  lemma SingleText(t: string)
    requires t != [] && Stripped(t)
    ensures UserText([TextContent(Some(t))]) == t
  {
    assert Texts([TextContent(Some(t))]) == [t];
    StrippedStrip(t);
  }

  /** As written, the message `unpause` sets the pause flag. */
  lemma AsWrittenUnpausePauses(redis: RedisClient, es: ElasticClient, inputs: Inputs)
    requires Ping(redis)
    ensures var r := HandleChat([TextContent(Some("unpause"))], redis, es, inputs);
            r.reply == Ok(PausedReply) && IsPaused(r.redis) == Ok(true)
  {
    SingleText("unpause");
    AsWrittenMisroutes();
  }

  /** With resume tried first, the message `unpause` clears the pause flag. */
  lemma FixedUnpauseResumes(redis: RedisClient, es: ElasticClient, inputs: Inputs)
    requires Ping(redis)
    ensures var r := HandleChatFixed([TextContent(Some("unpause"))], redis, es, inputs);
            r.reply == Ok(ResumedReply) && IsPaused(r.redis) == Ok(false)
  {
    SingleText("unpause");
    assert Rules[0].words[3] == "unpause";
    KeywordsRouteHome(0, 3);
  }

  /** Apart from a manual run with a boundary finder, the handler touches
      only the pause flag: every meeting's cursor reads the same afterwards. */
  lemma HandleKeepsCursors(content: seq<ContentItem>, redis: RedisClient, es: ElasticClient, inputs: Inputs, meetingId: string)
    requires AsWrittenRoute(UserText(content)) != CreateCards || inputs.svc.segmenter.None?
    ensures GetLastChunkIndex(HandleChat(content, redis, es, inputs).redis, meetingId) == GetLastChunkIndex(redis, meetingId)
  {
    if Ping(redis) {
      PauseResume(redis, meetingId);
    }
    if AsWrittenRoute(UserText(content)) == CreateCards {
      ManualWithoutSegmenter(es, inputs.svc, redis, inputs.latest);
    }
  }

  /** A create message over a meeting with new chunks, with an answering
      Redis and a working boundary finder, moves that meeting's cursor to
      the highest new index, unless a card raises. */
  lemma CreateMovesCursor(content: seq<ContentItem>, redis: RedisClient, es: ElasticClient, inputs: Inputs, meetingId: string)
    requires AsWrittenRoute(UserText(content)) == CreateCards
    requires inputs.latest == Ok(Some(meetingId)) && meetingId != []
    requires Ping(redis) && inputs.svc.segmenter.Some?
    requires FetchChunks(es, meetingId, ProcessingLimit).Ok?
    requires var newChunks := After(FetchChunks(es, meetingId, ProcessingLimit).value, ReadCursor(Some(redis), meetingId));
             |newChunks| > 0 && inputs.svc.segmenter.value(newChunks).Ok?
    requires HandleChat(content, redis, es, inputs).reply.Ok?
    ensures var newChunks := After(FetchChunks(es, meetingId, ProcessingLimit).value, ReadCursor(Some(redis), meetingId));
            GetLastChunkIndex(HandleChat(content, redis, es, inputs).redis, meetingId) == Ok(MaxIndex(newChunks))
  {
    ManualMovesCursor(es, inputs.svc, redis, meetingId);
  }
}

=== FILE: chunks.dfy ===
/**
 * Transcript chunk records as the agent reads them from the transcript
 * index, and the list operations it performs on them: `_chunks_to_text`,
 * the cursor filters, and the highest `chunk_index`.
 */
module Chunks {
  import opened Outcomes
  import opened Text

  /** One transcript chunk document. Either field may be missing. */
  datatype Chunk = Chunk(chunkIndex: Option<int>, text: Option<string>)

  /** `c.get("chunk_index", 0)`. */
  function IndexOf(c: Chunk): int { c.chunkIndex.GetOr(0) }

  /** `c.get("text", "")`. */
  function TextOf(c: Chunk): string { c.text.GetOr("") }

  /** The separator `_chunks_to_text` puts between chunk texts. */
  const ParagraphBreak := "\n\n"

  predicate SortedByIndex(s: seq<Chunk>) {
    forall i, j :: 0 <= i < j < |s| ==> IndexOf(s[i]) <= IndexOf(s[j])
  }

  /** The chunks of `s` whose index is `k`, in their order in `s`. */
  function WithIndex(s: seq<Chunk>, k: int): (r: seq<Chunk>)
    ensures forall c :: c in r ==> c in s && IndexOf(c) == k
    ensures (exists i :: 0 <= i < |s| && IndexOf(s[i]) == k) ==> |r| > 0
  {
    if |s| == 0 then []
    else Kept(s[0], k) + WithIndex(s[1..], k)
  }

  // ---------------------------------------------------------------------
  // Python's `sorted(chunks, key=...)`: a stable sort by index.

  /** Places `c` before the first element whose index is not smaller. */
  function Insert(c: Chunk, s: seq<Chunk>): (r: seq<Chunk>)
    requires SortedByIndex(s)
    ensures |r| == |s| + 1
    ensures forall x :: x in r <==> x == c || x in s
    ensures SortedByIndex(r)
    ensures multiset(r) == multiset(s) + multiset{c}
  {
    if |s| == 0 || IndexOf(c) <= IndexOf(s[0]) then
      assert forall j :: 1 <= j < |s| + 1 ==> ([c] + s)[j] == s[j - 1];
      [c] + s
    else
      var rest := Insert(c, s[1..]);
      assert s == [s[0]] + s[1..];
      forall y | y in rest ensures IndexOf(s[0]) <= IndexOf(y) {
        if y != c {
          var m :| 0 <= m < |s[1..]| && s[1..][m] == y;
          assert s[m + 1] == y;
        }
      }
      ConsSorted(s[0], rest);
      [s[0]] + rest
  }

  /** A sorted list stays sorted under a head no larger than its elements. */
  lemma ConsSorted(x: Chunk, rest: seq<Chunk>)
    requires SortedByIndex(rest) && forall y :: y in rest ==> IndexOf(x) <= IndexOf(y)
    ensures SortedByIndex([x] + rest)
  {
    var r := [x] + rest;
    forall i, j | 0 <= i < j < |r| ensures IndexOf(r[i]) <= IndexOf(r[j]) {
      assert r[j] == rest[j - 1];
      if i > 0 {
        assert r[i] == rest[i - 1];
      }
    }
  }

  /** `sorted(s, key=lambda x: x.get("chunk_index", 0))`. */
  function SortByIndex(s: seq<Chunk>): (r: seq<Chunk>)
    ensures |r| == |s|
    ensures SortedByIndex(r)
    ensures multiset(r) == multiset(s)
  {
    if |s| == 0 then []
    else
      assert s == [s[0]] + s[1..];
      Insert(s[0], SortByIndex(s[1..]))
  }

  lemma {:induction false} InsertWithIndex(c: Chunk, s: seq<Chunk>, k: int)
    requires SortedByIndex(s)
    ensures WithIndex(Insert(c, s), k) == Kept(c, k) + WithIndex(s, k)
  {
    if |s| == 0 || IndexOf(c) <= IndexOf(s[0]) {
      InsertInFront(c, s, k);
    } else {
      assert SortedByIndex(s[1..]);
      InsertWithIndex(c, s[1..], k);
      InsertPast(c, s, k);
    }
  }

  /** `[c]` when `c` has index `k`, and nothing otherwise. */
  function Kept(c: Chunk, k: int): seq<Chunk> {
    if IndexOf(c) == k then [c] else []
  }

  lemma InsertInFront(c: Chunk, s: seq<Chunk>, k: int)
    requires SortedByIndex(s) && (|s| == 0 || IndexOf(c) <= IndexOf(s[0]))
    ensures WithIndex(Insert(c, s), k) == Kept(c, k) + WithIndex(s, k)
  {
    var r := Insert(c, s);
    assert r == [c] + s;
    WithIndexHead(r, k);
    assert r[1..] == s;
  }

  /** The step past the head: `c` goes after `s[0]`, and since their
      indices differ at most one of them has index `k`. */
  lemma InsertPast(c: Chunk, s: seq<Chunk>, k: int)
    requires SortedByIndex(s) && |s| > 0 && IndexOf(c) > IndexOf(s[0])
    requires SortedByIndex(s[1..])
    requires WithIndex(Insert(c, s[1..]), k) == Kept(c, k) + WithIndex(s[1..], k)
    ensures WithIndex(Insert(c, s), k) == Kept(c, k) + WithIndex(s, k)
  {
    var r := Insert(c, s);
    var rest := Insert(c, s[1..]);
    assert r == [s[0]] + rest;
    assert r[1..] == rest;
    WithIndexHead(r, k);
    WithIndexHead(s, k);
    SwapKept(Kept(s[0], k), Kept(c, k), WithIndex(s[1..], k));
  }

  lemma SwapKept(a: seq<Chunk>, b: seq<Chunk>, w: seq<Chunk>)
    requires a == [] || b == []
    ensures a + (b + w) == b + (a + w)
  {
    if a == [] {
      assert a + (b + w) == b + w;
    } else {
      assert b + (a + w) == a + w;
    }
  }

  /** The sort is stable: chunks that share an index keep their order. */
  lemma {:induction false} SortStable(s: seq<Chunk>, k: int)
    ensures WithIndex(SortByIndex(s), k) == WithIndex(s, k)
  {
    if |s| > 0 {
      SortStable(s[1..], k);
      InsertWithIndex(s[0], SortByIndex(s[1..]), k);
    }
  }

  /** An already sorted list is left as it is. */
  lemma {:induction false} SortSorted(s: seq<Chunk>)
    requires SortedByIndex(s)
    ensures SortByIndex(s) == s
  {
    if |s| > 0 {
      SortSorted(s[1..]);
      assert s == [s[0]] + s[1..];
    }
  }

  lemma {:induction false} WithIndexHead(s: seq<Chunk>, k: int)
    requires |s| > 0
    ensures WithIndex(s, k) == Kept(s[0], k) + WithIndex(s[1..], k)
  {
  }

  lemma {:induction false} SortedLowerBound(s: seq<Chunk>, k: int)
    requires SortedByIndex(s) && |s| > 0 && |WithIndex(s, k)| > 0
    ensures IndexOf(s[0]) <= k
  {
    var c := WithIndex(s, k)[0];
    assert c in WithIndex(s, k);
    var i :| 0 <= i < |s| && s[i] == c;
  }

  /** Two sorted lists that agree under every index start alike. */
  lemma SortedSameHead(a: seq<Chunk>, b: seq<Chunk>)
    requires SortedByIndex(a) && SortedByIndex(b) && |a| > 0
    requires forall k :: WithIndex(a, k) == WithIndex(b, k)
    ensures |b| > 0 && a[0] == b[0]
  {
    var ka := IndexOf(a[0]);
    WithIndexHead(a, ka);
    assert |WithIndex(b, ka)| > 0;
    assert |b| > 0;
    var kb := IndexOf(b[0]);
    WithIndexHead(b, kb);
    assert |WithIndex(a, kb)| > 0;
    SortedLowerBound(b, ka);
    SortedLowerBound(a, kb);
    WithIndexHead(b, ka);
    assert WithIndex(a, ka)[0] == a[0];
    assert WithIndex(b, ka)[0] == b[0];
  }

  lemma {:induction false} SameTail(a: seq<Chunk>, b: seq<Chunk>, k: int)
    requires |a| > 0 && |b| > 0 && a[0] == b[0]
    requires WithIndex(a, k) == WithIndex(b, k)
    ensures WithIndex(a[1..], k) == WithIndex(b[1..], k)
  {
    var head := if IndexOf(a[0]) == k then [a[0]] else [];
    var wa := WithIndex(a[1..], k);
    var wb := WithIndex(b[1..], k);
    WithIndexHead(a, k);
    WithIndexHead(b, k);
    assert head + wa == head + wb;
    assert wa == (head + wa)[|head|..];
    assert wb == (head + wb)[|head|..];
  }

  lemma SameTails(a: seq<Chunk>, b: seq<Chunk>)
    requires |a| > 0 && |b| > 0 && a[0] == b[0]
    requires forall k :: WithIndex(a, k) == WithIndex(b, k)
    ensures forall k :: WithIndex(a[1..], k) == WithIndex(b[1..], k)
  {
    forall k ensures WithIndex(a[1..], k) == WithIndex(b[1..], k) {
      SameTail(a, b, k);
    }
  }

  /** Sortedness and stability determine the order completely: two sorted
      lists with the same chunks under every index are equal. */
  lemma {:induction false} SortedUnique(a: seq<Chunk>, b: seq<Chunk>)
    requires SortedByIndex(a) && SortedByIndex(b)
    requires forall k :: WithIndex(a, k) == WithIndex(b, k)
    ensures a == b
    decreases |a|
  {
    if |a| == 0 {
      if |b| > 0 {
        SortedSameHead(b, a);
      }
    } else {
      SortedSameHead(a, b);
      SameTails(a, b);
      SortedUnique(a[1..], b[1..]);
      assert a == [a[0]] + a[1..] && b == [b[0]] + b[1..];
    }
  }

  /** The sorted list is the only sorted list that keeps the order of
      equal-index chunks. */
  lemma SortCharacterized(s: seq<Chunk>, t: seq<Chunk>)
    requires SortedByIndex(t) && forall k :: WithIndex(t, k) == WithIndex(s, k)
    ensures SortByIndex(s) == t
  {
    forall k ensures WithIndex(SortByIndex(s), k) == WithIndex(t, k) {
      SortStable(s, k);
    }
    SortedUnique(SortByIndex(s), t);
  }

  /** The chunks of a concatenation with a given index are those of each part. */
  lemma {:induction false} WithIndexAppend(a: seq<Chunk>, b: seq<Chunk>, k: int)
    ensures WithIndex(a + b, k) == WithIndex(a, k) + WithIndex(b, k)
  {
    if |a| == 0 {
      assert a + b == b;
    } else {
      var ab := a + b;
      assert ab[0] == a[0] && ab[1..] == a[1..] + b;
      WithIndexAppend(a[1..], b, k);
      var head, tail := Kept(a[0], k), WithIndex(a[1..], k);
      calc {
        WithIndex(ab, k);
        head + WithIndex(a[1..] + b, k);
        head + (tail + WithIndex(b, k));
        (head + tail) + WithIndex(b, k);
      }
    }
  }

  /** Sorting two lists whose indices do not interleave sorts each on its own. */
  lemma SortAppend(a: seq<Chunk>, b: seq<Chunk>)
    requires forall x, y :: x in a && y in b ==> IndexOf(x) <= IndexOf(y)
    ensures SortByIndex(a + b) == SortByIndex(a) + SortByIndex(b)
  {
    var sa, sb := SortByIndex(a), SortByIndex(b);
    SortKeepsMembers(a);
    SortKeepsMembers(b);
    SortedConcat(sa, sb);
    forall k ensures WithIndex(sa + sb, k) == WithIndex(a + b, k) {
      SortedParts(a, b, k);
    }
    SortCharacterized(a + b, sa + sb);
  }

  lemma SortKeepsMembers(s: seq<Chunk>)
    ensures forall x :: x in SortByIndex(s) <==> x in s
  {
    var t := SortByIndex(s);
    assert forall x :: x in t <==> x in multiset(t);
  }

  /** Two sorted lists, the first below the second, concatenate sorted. */
  lemma SortedConcat(x: seq<Chunk>, y: seq<Chunk>)
    requires SortedByIndex(x) && SortedByIndex(y)
    requires forall p, q :: p in x && q in y ==> IndexOf(p) <= IndexOf(q)
    ensures SortedByIndex(x + y)
  {
    var t := x + y;
    forall i, j | 0 <= i < j < |t| ensures IndexOf(t[i]) <= IndexOf(t[j]) {
      if j < |x| {
        assert t[i] == x[i] && t[j] == x[j];
      } else if |x| <= i {
        assert t[i] == y[i - |x|] && t[j] == y[j - |x|];
      } else {
        assert t[i] == x[i] && t[j] == y[j - |x|];
      }
    }
  }

  /** Sorting each part keeps each index's chunks of the whole. */
  lemma SortedParts(a: seq<Chunk>, b: seq<Chunk>, k: int)
    ensures WithIndex(SortByIndex(a) + SortByIndex(b), k) == WithIndex(a + b, k)
  {
    WithIndexAppend(SortByIndex(a), SortByIndex(b), k);
    WithIndexAppend(a, b, k);
    SortStable(a, k);
    SortStable(b, k);
  }

  // ---------------------------------------------------------------------
  // `_chunks_to_text`.

  /** Each chunk's stripped text, in list order. */
  function StrippedTexts(s: seq<Chunk>): (r: seq<string>)
    ensures |r| == |s|
    ensures forall i :: 0 <= i < |s| ==> r[i] == Strip(TextOf(s[i]))
  {
    seq(|s|, i requires 0 <= i < |s| => Strip(TextOf(s[i])))
  }

  /** `_chunks_to_text(chunks)`. */
  function ChunksToText(chunks: seq<Chunk>): (r: string)
    ensures |chunks| == 0 ==> r == []
    ensures |chunks| == 1 ==> r == Strip(TextOf(chunks[0]))
  {
    var sorted := SortByIndex(chunks);
    assert |chunks| == 1 ==> sorted == chunks by {
      if |chunks| == 1 { SortSorted(chunks); }
    }
    Join(ParagraphBreak, StrippedTexts(sorted))
  }

  /** The text is the paragraph-break join of the stripped chunk texts
      taken in ascending index order, chunks with equal index in their
      given order: any list ordered that way gives the same text. */
  lemma ChunksToTextOrder(chunks: seq<Chunk>, ordered: seq<Chunk>)
    requires SortedByIndex(ordered)
    requires forall k :: WithIndex(ordered, k) == WithIndex(chunks, k)
    ensures ChunksToText(chunks) == Join(ParagraphBreak, StrippedTexts(ordered))
  {
    SortCharacterized(chunks, ordered);
  }

  /** Chunks already in index order are joined as given. */
  lemma ChunksToTextSorted(chunks: seq<Chunk>)
    requires SortedByIndex(chunks)
    ensures ChunksToText(chunks) == Join(ParagraphBreak, StrippedTexts(chunks))
  {
    SortSorted(chunks);
  }

  // ---------------------------------------------------------------------
  // Cursor filters and the highest index.

  /** `[c for c in s if keep(c)]`. */
  function Filter(s: seq<Chunk>, keep: Chunk -> bool): (r: seq<Chunk>)
    ensures |r| <= |s|
    ensures forall c :: c in r <==> c in s && keep(c)
    ensures forall i :: 0 <= i < |r| ==> keep(r[i])
  {
    if |s| == 0 then []
    else (if keep(s[0]) then [s[0]] else []) + Filter(s[1..], keep)
  }

  /** A filter every element passes keeps the list. */
  lemma {:induction false} FilterKeepsAll(s: seq<Chunk>, keep: Chunk -> bool)
    requires forall i :: 0 <= i < |s| ==> keep(s[i])
    ensures Filter(s, keep) == s
  {
    if |s| > 0 {
      FilterKeepsAll(s[1..], keep);
      assert s == [s[0]] + s[1..];
    }
  }

  /** A filter no element passes leaves nothing. */
  lemma {:induction false} FilterKeepsNone(s: seq<Chunk>, keep: Chunk -> bool)
    requires forall i :: 0 <= i < |s| ==> !keep(s[i])
    ensures Filter(s, keep) == []
  {
    if |s| > 0 {
      FilterKeepsNone(s[1..], keep);
    }
  }

  /** Two complementary filters split the list: every chunk lands in
      exactly one of them. */
  lemma {:induction false} FilterPartition(s: seq<Chunk>, keep: Chunk -> bool, other: Chunk -> bool)
    requires forall c :: other(c) <==> !keep(c)
    ensures multiset(Filter(s, keep)) + multiset(Filter(s, other)) == multiset(s)
  {
    if |s| > 0 {
      FilterPartition(s[1..], keep, other);
      assert s == [s[0]] + s[1..];
    }
  }

  /** The chunks not yet processed: `chunk_index > cursor`. */
  function After(s: seq<Chunk>, cursor: int): (r: seq<Chunk>)
    ensures forall c :: c in r <==> c in s && IndexOf(c) > cursor
  {
    Filter(s, c => IndexOf(c) > cursor)
  }

  /** The chunks already processed: `chunk_index <= cursor`. */
  function UpTo(s: seq<Chunk>, cursor: int): (r: seq<Chunk>)
    ensures forall c :: c in r <==> c in s && IndexOf(c) <= cursor
  {
    Filter(s, c => IndexOf(c) <= cursor)
  }

  /** Every fetched chunk is either processed or new, never both. */
  lemma SplitAtCursor(s: seq<Chunk>, cursor: int)
    ensures multiset(UpTo(s, cursor)) + multiset(After(s, cursor)) == multiset(s)
  {
    FilterPartition(s, c => IndexOf(c) <= cursor, c => IndexOf(c) > cursor);
  }

  /** `max(c.get("chunk_index", 0) for c in s)`. */
  function MaxIndex(s: seq<Chunk>): (m: int)
    requires |s| > 0
    ensures forall i :: 0 <= i < |s| ==> IndexOf(s[i]) <= m
    ensures exists i :: 0 <= i < |s| && IndexOf(s[i]) == m
  {
    if |s| == 1 then IndexOf(s[0])
    else
      var rest := MaxIndex(s[1..]);
      assert forall i :: 1 <= i < |s| ==> s[i] == s[1..][i - 1];
      if IndexOf(s[0]) >= rest then IndexOf(s[0]) else rest
  }
}

=== FILE: detection.dfy ===
/**
 * `_run_detection_for_meeting`: one polling round of topic-boundary
 * detection for a meeting. The fetched chunks are split around the saved
 * cursor into previous and current; the LLM compares the two texts; on a
 * boundary the previous segment becomes a concept card; and the state is
 * saved for the next round.
 */
module Detection {
  import opened Outcomes
  import opened Text
  import opened Json
  import opened Chunks
  import opened Slug
  import opened Llm
  import opened Elastic
  import opened Cards

  /** How much of the current text the saved state keeps. */
  const SummaryLimit := 2000
  /** How much of each text the comparison request carries. */
  const CompareLimit := 4000
  /** How many chunks a round fetches: the query's `size`. */
  const DetectionLimit := 100

  /** Everything the LLM and the clock contribute to a round. */
  datatype Services = Services(
    llm: LlmClient,
    compare: (string, string) -> Result<string>,
    extract: Completion,
    decode: string -> Option<Json>,
    now: string)

  /** The cursor and summary read from a loaded state (`-1` and `""`
      without one). */
  function LastIndex(state: Option<AgentState>): int {
    if state.None? then -1 else state.value.lastChunkIndex
  }

  function LastSummary(state: Option<AgentState>): string {
    if state.None? then "" else state.value.lastTopicSummary
  }

  /** The text the new chunks are compared against: the previous chunks,
      or the saved summary when there are none. */
  function PreviousText(previous: seq<Chunk>, summary: string): string {
    if |previous| > 0 then ChunksToText(previous) else summary
  }

  /** The concept id a boundary hint asks for: `_slug(hint) if hint else
      None`, where the hint is `result.get("new_concept_hint") or ""`.
      Slugging a truthy hint that is not a string raises. */
  function HintId(hint: Option<Json>): (r: Result<Option<string>>)
    ensures hint.None? || !Truthy(hint.value) ==> r == Ok(None)
    ensures hint.Some? && hint.value.JStr? && hint.value.s != [] ==> r == Ok(Some(MakeSlug(hint.value.s)))
  {
    if hint.None? || !Truthy(hint.value) then Ok(None)
    else if hint.value.JStr? then Ok(Some(MakeSlug(hint.value.s)))
    else Err(AttributeError("lower"))
  }

  /** `after` differs from `before` at most in the meeting's state, whose
      summary is within the limit. */
  predicate StateSaved(before: ElasticClient, after: ElasticClient, meetingId: string) {
    && after.chunks == before.chunks
    && (after.states == before.states
        || (&& meetingId in after.states
            && |after.states[meetingId].lastTopicSummary| <= SummaryLimit
            && after.states == before.states[meetingId := after.states[meetingId]]))
  }

  /** `after`'s card index is `before`'s, or `before`'s with one card of
      the meeting written under its document id. */
  ghost predicate AtMostOneCard(before: ElasticClient, after: ElasticClient, meetingId: string) {
    || after.cards == before.cards
    || exists conceptId: string :: && DocId(meetingId, conceptId) in after.cards
                                   && after.cards == before.cards[DocId(meetingId, conceptId) := after.cards[DocId(meetingId, conceptId)]]
  }

  /** Saves the state that ends a round. */
  function SaveRound(es: ElasticClient, meetingId: string, maxIndex: int, currentText: string): (r: Result<ElasticClient>)
    ensures r.Ok? ==> r.value.states == es.states[meetingId := AgentState(maxIndex, Take(currentText, SummaryLimit))]
    ensures r.Ok? ==> r.value.cards == es.cards && StateSaved(es, r.value, meetingId)
  {
    SaveAgentState(es, meetingId, maxIndex, Take(currentText, SummaryLimit))
  }

  /** After the comparison: a card for the previous segment on a boundary,
      then the saved state. */
  function AfterComparison(es: ElasticClient, svc: Services, meetingId: string, chunks: seq<Chunk>,
                           previous: seq<Chunk>, currentText: string, result: Json): (r: Result<ElasticClient>)
    requires |chunks| > 0
    ensures r.Ok? ==> r.value.states == es.states[meetingId := AgentState(MaxIndex(chunks), Take(currentText, SummaryLimit))]
    ensures r.Ok? ==> StateSaved(es, r.value, meetingId)
    ensures r.Ok? ==> es.cards.Keys <= r.value.cards.Keys && AtMostOneCard(es, r.value, meetingId)
    ensures r.Ok? && r.value.cards != es.cards ==>
              |previous| > 0 && result.JObj? && Truthy(Lookup(result.fields, "is_topic_boundary").GetOr(JBool(false)))
  {
    match Get(result, "is_topic_boundary", JBool(false))
    case Err(e) => Err(e)
    case Ok(isBoundary) =>
      var hint := Lookup(result.fields, "new_concept_hint");
      if Truthy(isBoundary) && |previous| > 0 then
        match HintId(hint)
        case Err(e) => Err(e)
        case Ok(given) =>
          match CreateConceptCard(es, svc.llm, svc.extract, svc.decode, meetingId, previous, given, svc.now)
          case Crash(e) => Err(e)
          case NoCard => SaveRound(es, meetingId, MaxIndex(chunks), currentText)
          case Created(card, es') =>
            assert DocId(meetingId, card.conceptId) in es'.cards;
            SaveRound(es', meetingId, MaxIndex(chunks), currentText)
      else SaveRound(es, meetingId, MaxIndex(chunks), currentText)
  }

  /** The comparison the LLM is asked for: the previous and the current
      text, each cut to the request limit. */
  function Reply(svc: Services, chunks: seq<Chunk>, state: Option<AgentState>): Result<Json> {
    var last := LastIndex(state);
    var previousText := PreviousText(UpTo(chunks, last), LastSummary(state));
    CompareTopics(svc.llm, Take(previousText, CompareLimit), Take(ChunksToText(After(chunks, last)), CompareLimit),
                  svc.compare, svc.decode)
  }

  /** A round once the chunks and the saved state are known. */
  function Round(es: ElasticClient, svc: Services, meetingId: string, chunks: seq<Chunk>, state: Option<AgentState>): (r: Result<ElasticClient>)
    ensures r.Ok? ==> StateSaved(es, r.value, meetingId)
    ensures r.Ok? ==> es.cards.Keys <= r.value.cards.Keys && AtMostOneCard(es, r.value, meetingId)
    ensures r.Ok? && r.value.cards != es.cards ==>
              && |UpTo(chunks, LastIndex(state))| > 0
              && Reply(svc, chunks, state).Ok? && Reply(svc, chunks, state).value.JObj?
              && Truthy(Lookup(Reply(svc, chunks, state).value.fields, "is_topic_boundary").GetOr(JBool(false)))
  {
    var last := LastIndex(state);
    var previous := UpTo(chunks, last);
    var current := After(chunks, last);
    if |current| == 0 then Ok(es)
    else
      var currentText := ChunksToText(current);
      if Strip(PreviousText(previous, LastSummary(state))) == [] then
        SaveRound(es, meetingId, MaxIndex(current), currentText)
      else match Reply(svc, chunks, state)
        case Err(_) => Ok(es)
        case Ok(result) => AfterComparison(es, svc, meetingId, chunks, previous, currentText, result)
  }

  /** `_run_detection_for_meeting`: the updated store, or the exception
      that escapes the round. */
  function RunDetection(es: ElasticClient, svc: Services, meetingId: string): (r: Result<ElasticClient>)
    ensures r.Ok? ==> StateSaved(es, r.value, meetingId)
    ensures r.Ok? ==> es.cards.Keys <= r.value.cards.Keys && AtMostOneCard(es, r.value, meetingId)
  {
    match FetchChunks(es, meetingId, DetectionLimit)
    case Err(e) => Err(e)
    case Ok(chunks) =>
      if |chunks| < 2 then Ok(es)
      else match LoadAgentState(es, meetingId)
        case Err(e) => Err(e)
        case Ok(state) => Round(es, svc, meetingId, chunks, state)
  }

  // ---------------------------------------------------------------------
  // Properties of a round.

  /** The highest index of all chunks is the highest new one whenever
      there is a new chunk: both saves store the same cursor. */
  lemma MaxOfAllIsMaxOfNew(chunks: seq<Chunk>, last: int)
    requires |After(chunks, last)| > 0
    ensures MaxIndex(chunks) == MaxIndex(After(chunks, last))
    ensures MaxIndex(chunks) > last
  {
    var current := After(chunks, last);
    var m := MaxIndex(current);
    assert current[0] in chunks;
    var i :| 0 <= i < |current| && IndexOf(current[i]) == m;
    assert current[i] in chunks;
    forall j | 0 <= j < |chunks| ensures IndexOf(chunks[j]) <= m {
      if IndexOf(chunks[j]) > last {
        assert chunks[j] in current;
      }
    }
    var k :| 0 <= k < |chunks| && IndexOf(chunks[k]) == MaxIndex(chunks);
    assert IndexOf(chunks[k]) <= m;
    assert chunks[k] == current[i] || IndexOf(current[i]) <= MaxIndex(chunks) by {
      var p :| 0 <= p < |chunks| && chunks[p] == current[i];
    }
  }

  /** A meeting with fewer than two chunks is left alone. */
  lemma FewChunksNoWrite(es: ElasticClient, svc: Services, meetingId: string)
    requires FetchChunks(es, meetingId, DetectionLimit).Ok? && |FetchChunks(es, meetingId, DetectionLimit).value| < 2
    ensures RunDetection(es, svc, meetingId) == Ok(es)
  {
  }

  /** Without new chunks nothing is written. */
  lemma NoNewChunksNoWrite(es: ElasticClient, svc: Services, meetingId: string)
    requires FetchChunks(es, meetingId, DetectionLimit).Ok? && LoadAgentState(es, meetingId).Ok?
    requires |After(FetchChunks(es, meetingId, DetectionLimit).value, LastIndex(LoadAgentState(es, meetingId).value))| == 0
    ensures RunDetection(es, svc, meetingId) == Ok(es)
  {
  }

  /** A round that saves state moves the meeting's cursor to the highest
      new chunk index, past the cursor it started from. */
  lemma CursorAdvances(es: ElasticClient, svc: Services, meetingId: string)
    requires var r := RunDetection(es, svc, meetingId);
             r.Ok? && r.value.states != es.states
    ensures var chunks := FetchChunks(es, meetingId, DetectionLimit).value;
            var last := LastIndex(LoadAgentState(es, meetingId).value);
            && |After(chunks, last)| > 0
            && RunDetection(es, svc, meetingId).value.states[meetingId].lastChunkIndex == MaxIndex(After(chunks, last)) > last
  {
    var chunks := FetchChunks(es, meetingId, DetectionLimit).value;
    var last := LastIndex(LoadAgentState(es, meetingId).value);
    MaxOfAllIsMaxOfNew(chunks, last);
  }

  /** A card is written only on a reported boundary with a non-empty
      previous segment. */
  lemma CardOnlyOnBoundary(es: ElasticClient, svc: Services, meetingId: string)
    requires var r := RunDetection(es, svc, meetingId);
             r.Ok? && r.value.cards != es.cards
    ensures var chunks := FetchChunks(es, meetingId, DetectionLimit).value;
            var state := LoadAgentState(es, meetingId).value;
            && |UpTo(chunks, LastIndex(state))| > 0
            && Reply(svc, chunks, state).Ok? && Reply(svc, chunks, state).value.JObj?
            && Truthy(Lookup(Reply(svc, chunks, state).value.fields, "is_topic_boundary").GetOr(JBool(false)))
  {
    var chunks := FetchChunks(es, meetingId, DetectionLimit).value;
    var state := LoadAgentState(es, meetingId).value;
    assert RunDetection(es, svc, meetingId) == Round(es, svc, meetingId, chunks, state);
  }

  /** The previous and current chunks split the fetched chunks: each one
      is in exactly one of them, by its index against the cursor. */
  lemma PreviousAndCurrentPartition(chunks: seq<Chunk>, last: int)
    ensures multiset(UpTo(chunks, last)) + multiset(After(chunks, last)) == multiset(chunks)
    ensures forall c :: c in UpTo(chunks, last) ==> IndexOf(c) <= last
    ensures forall c :: c in After(chunks, last) ==> IndexOf(c) > last
  {
    SplitAtCursor(chunks, last);
  }

  /** A round reads one page of at most `DetectionLimit` chunks, first
      indices first. Once the meeting holds a full page and the saved
      cursor has passed every chunk on it, chunks stored later are never
      compared: the round writes nothing, however many there are. */
  lemma RoundStallsAtLimit(es: ElasticClient, svc: Services, meetingId: string, more: seq<Chunk>)
    requires Elastic.Guard(es).None? && |Stored(es, meetingId)| >= DetectionLimit
    requires var last := LastIndex(LoadAgentState(es, meetingId).value);
             forall c :: c in Stored(es, meetingId) ==> HasIndex(c) && IndexOf(c) <= last
    requires var last := LastIndex(LoadAgentState(es, meetingId).value);
             forall c :: c in more ==> HasIndex(c) && IndexOf(c) > last
    ensures var grown := es.(chunks := es.chunks[meetingId := Stored(es, meetingId) + more]);
            RunDetection(grown, svc, meetingId) == Ok(grown)
  {
    var last := LastIndex(LoadAgentState(es, meetingId).value);
    var grown := es.(chunks := es.chunks[meetingId := Stored(es, meetingId) + more]);
    LaterChunksUnseen(es, meetingId, DetectionLimit, more);
    assert LoadAgentState(grown, meetingId) == LoadAgentState(es, meetingId);
    var page := FetchChunks(es, meetingId, DetectionLimit).value;
    forall i | 0 <= i < |page| ensures IndexOf(page[i]) <= last {
      assert page[i] in page;
    }
    FilterKeepsNone(page, c => IndexOf(c) > last);
    NoNewChunksNoWrite(grown, svc, meetingId);
  }
}

=== FILE: elastic.dfy ===
/**
 * The parts of the Elasticsearch client the agent's core relies on, over
 * an abstract store: the meeting's transcript chunks, the per-meeting
 * detection state, and the concept-card index keyed by document id.
 */
module Elastic {
  import opened Outcomes
  import opened Json
  import opened Chunks

  /** A concept-card document as indexed. */
  datatype CardDoc = CardDoc(meetingId: string, conceptId: string, title: Json,
                             shortExplain: Json, example: Json, timestamp: string)

  /** The detection state saved per meeting. */
  datatype AgentState = AgentState(lastChunkIndex: int, lastTopicSummary: string)

  /** A client: its API key ("" leaves it unconfigured), whether the
      cluster answers, and what the cluster holds. */
  datatype ElasticClient = ElasticClient(
    apiKey: string,
    up: bool,
    chunks: map<string, seq<Chunk>>,
    states: map<string, AgentState>,
    cards: map<string, CardDoc>)

  const NotConfigured := RuntimeError("Elasticsearch client not configured (ELASTIC_API_KEY required)")

  /** `_ensure_client`, and the failure of a request to a cluster that
      does not answer. */
  function Guard(es: ElasticClient): (r: Option<Exc>)
    ensures r.None? <==> es.apiKey != [] && es.up
    ensures es.apiKey == [] ==> r == Some(NotConfigured)
  {
    if es.apiKey == [] then Some(NotConfigured)
    else if !es.up then Some(ConnectionError)
    else None
  }

  /** The meeting's stored chunks (none when the meeting is unknown). */
  function Stored(es: ElasticClient, meetingId: string): seq<Chunk> {
    if meetingId in es.chunks then es.chunks[meetingId] else []
  }

  /** A chunk document that has a `chunk_index` field. */
  predicate HasIndex(c: Chunk) { c.chunkIndex.Some? }

  predicate LacksIndex(c: Chunk) { c.chunkIndex.None? }

  /** The order of a search sorted by `chunk_index` ascending: the chunks
      that have an index, by index, then those that have none, which
      Elasticsearch sorts last. */
  function QueryOrder(s: seq<Chunk>): (r: seq<Chunk>)
    ensures multiset(r) == multiset(s)
    ensures |r| == |s|
  {
    var indexed := Filter(s, HasIndex);
    var missing := Filter(s, LacksIndex);
    FilterPartition(s, HasIndex, LacksIndex);
    var r := SortByIndex(indexed) + missing;
    assert multiset(r) == multiset(indexed) + multiset(missing);
    r
  }

  /** `fetch_all_chunks_for_meeting(meeting_id, limit)`: the first `limit`
      chunks of the meeting in query order. */
  function FetchChunks(es: ElasticClient, meetingId: string, limit: nat): (r: Result<seq<Chunk>>)
    ensures r.Ok? <==> Guard(es).None?
    ensures r.Ok? ==> |r.value| == if |Stored(es, meetingId)| < limit then |Stored(es, meetingId)| else limit
    ensures r.Ok? ==> forall c :: c in r.value ==> c in Stored(es, meetingId)
    ensures r.Ok? ==> r.value <= QueryOrder(Stored(es, meetingId))
  {
    match Guard(es)
    case Some(e) => Err(e)
    case None =>
      var ordered := QueryOrder(Stored(es, meetingId));
      var n := if |ordered| < limit then |ordered| else limit;
      assert forall c :: c in ordered[..n] ==> c in multiset(ordered);
      Ok(ordered[..n])
  }

  /** A full page hides what comes after it: once a meeting holds at least
      `limit` chunks, all with an index, storing more chunks with higher
      indices leaves the fetched chunks as they were. */
  lemma LaterChunksUnseen(es: ElasticClient, meetingId: string, limit: nat, more: seq<Chunk>)
    requires |Stored(es, meetingId)| >= limit
    requires forall c :: c in Stored(es, meetingId) ==> HasIndex(c)
    requires forall c :: c in more ==> HasIndex(c)
    requires forall a, b :: a in Stored(es, meetingId) && b in more ==> IndexOf(a) < IndexOf(b)
    ensures var grown := es.(chunks := es.chunks[meetingId := Stored(es, meetingId) + more]);
            FetchChunks(grown, meetingId, limit) == FetchChunks(es, meetingId, limit)
  {
    var stored := Stored(es, meetingId);
    var grown := es.(chunks := es.chunks[meetingId := stored + more]);
    assert Stored(grown, meetingId) == stored + more;
    assert Guard(grown) == Guard(es);
    if Guard(es).None? {
      IndexedOrder(stored);
      IndexedOrder(stored + more);
      SortAppend(stored, more);
      FullPage(es, meetingId, limit);
      FullPage(grown, meetingId, limit);
      PrefixOfAppend(SortByIndex(stored), SortByIndex(more), limit);
    }
  }

  /** A meeting with at least `limit` chunks fills the page. */
  lemma FullPage(es: ElasticClient, meetingId: string, limit: nat)
    requires Guard(es).None? && |Stored(es, meetingId)| >= limit
    ensures FetchChunks(es, meetingId, limit) == Ok(QueryOrder(Stored(es, meetingId))[..limit])
  {
  }

  lemma PrefixOfAppend(a: seq<Chunk>, b: seq<Chunk>, n: nat)
    requires n <= |a|
    ensures (a + b)[..n] == a[..n]
  {
  }

  /** Chunks that all have an index are fetched in plain index order. */
  lemma IndexedOrder(s: seq<Chunk>)
    requires forall c :: c in s ==> HasIndex(c)
    ensures QueryOrder(s) == SortByIndex(s)
  {
    FilterKeepsAll(s, HasIndex);
    FilterKeepsNone(s, LacksIndex);
  }

  /** `load_agent_state`: only a missing configuration escapes; a missing
      document or a failed request reads as no state. */
  function LoadAgentState(es: ElasticClient, meetingId: string): (r: Result<Option<AgentState>>)
    ensures r.Err? <==> es.apiKey == []
    ensures r.Ok? && r.value.Some? ==> meetingId in es.states && r.value.value == es.states[meetingId]
    ensures r.Ok? ==> (r.value.Some? <==> es.up && meetingId in es.states)
  {
    if es.apiKey == [] then Err(NotConfigured)
    else if es.up && meetingId in es.states then Ok(Some(es.states[meetingId]))
    else Ok(None)
  }

  /** `save_agent_state`: the meeting's state document is replaced. */
  function SaveAgentState(es: ElasticClient, meetingId: string, lastChunkIndex: int, summary: string): (r: Result<ElasticClient>)
    ensures r.Ok? <==> Guard(es).None?
    ensures r.Ok? ==> r.value.states == es.states[meetingId := AgentState(lastChunkIndex, summary)]
    ensures r.Ok? ==> r.value.cards == es.cards && r.value.chunks == es.chunks
  {
    match Guard(es)
    case Some(e) => Err(e)
    case None => Ok(es.(states := es.states[meetingId := AgentState(lastChunkIndex, summary)]))
  }

  /** The state one detection round saves is the state the next round loads. */
  lemma SaveThenLoad(es: ElasticClient, meetingId: string, lastChunkIndex: int, summary: string)
    requires SaveAgentState(es, meetingId, lastChunkIndex, summary).Ok?
    ensures LoadAgentState(SaveAgentState(es, meetingId, lastChunkIndex, summary).value, meetingId)
            == Ok(Some(AgentState(lastChunkIndex, summary)))
  {
  }

  /** The id a card is indexed under. */
  function DocId(meetingId: string, conceptId: string): (id: string)
    ensures |id| == |meetingId| + 1 + |conceptId|
    ensures id[..|meetingId|] == meetingId && id[|meetingId|] == '_' && id[|meetingId| + 1..] == conceptId
  {
    meetingId + "_" + conceptId
  }

  /** `index_concept_card`: the card document is written under its id,
      replacing any card of the same meeting and concept. */
  function IndexConceptCard(es: ElasticClient, doc: CardDoc): (r: Result<(string, ElasticClient)>)
    ensures r.Ok? <==> Guard(es).None?
    ensures r.Ok? ==> r.value.0 == DocId(doc.meetingId, doc.conceptId)
    ensures r.Ok? ==> r.value.1.cards == es.cards[r.value.0 := doc]
    ensures r.Ok? ==> r.value.1.states == es.states && r.value.1.chunks == es.chunks
  {
    match Guard(es)
    case Some(e) => Err(e)
    case None =>
      var id := DocId(doc.meetingId, doc.conceptId);
      Ok((id, es.(cards := es.cards[id := doc])))
  }

  /** Cards of different meetings or concepts get different ids when the
      meeting ids have no underscore. */
  lemma DocIdInjective(m1: string, c1: string, m2: string, c2: string)
    requires '_' !in m1 && '_' !in m2
    ensures DocId(m1, c1) == DocId(m2, c2) <==> m1 == m2 && c1 == c2
  {
    if DocId(m1, c1) == DocId(m2, c2) {
      var id := DocId(m1, c1);
      assert forall k :: 0 <= k < |m1| ==> m1[k] == id[k];
      assert forall k :: 0 <= k < |m2| ==> m2[k] == id[k];
      assert |m1| <= |m2|;
      assert |m2| <= |m1|;
      assert m1 == id[..|m1|] == m2;
      assert c1 == id[|m1| + 1..] == c2;
    }
  }
}

=== FILE: extract.dfy ===
/**
 * `_extract_message_only`: finds the human-readable message in a response
 * from the summary backend, whatever shape of JSON it came in.
 */
module MessageExtract {
  import opened Outcomes
  import opened Text
  import opened Json

  /** The object keys tried, in this order, before `"response"`. */
  const PreferredKeys: seq<string> := ["message", "content", "text", "output", "result", "summary"]

  /** What the extraction can return: nothing, or non-blank stripped text. */
  predicate IsMessage(r: Option<string>) {
    r.None? || (|r.value| > 0 && Stripped(r.value))
  }

  /** `s` is the stripped form of some string anywhere inside `j`. */
  ghost predicate Mentions(j: Json, s: string)
    decreases j
  {
    match j
    case JStr(t) => Strip(t) == s
    case JArr(items) => exists i :: 0 <= i < |items| && Mentions(items[i], s)
    case JObj(fields) => exists i :: 0 <= i < |fields| && Mentions(fields[i].value, s)
    case _ => false
  }

  /** A string counts only when it is not blank; it is returned stripped. */
  function NonBlank(s: string): (r: Option<string>)
    ensures IsMessage(r)
    ensures r.Some? <==> Strip(s) != []
  {
    var t := Strip(s);
    if |t| > 0 then Some(t) else None
  }

  /** The message in `j`, or `None`. */
  function ExtractMessage(j: Json): (r: Option<string>)
    ensures IsMessage(r)
    decreases j, 3
  {
    match j
    case JStr(s) => NonBlank(s)
    case JArr(items) => LastItem(j, |items|, true)
    case JObj(fields) =>
      var fromKeys := FromKeys(j, 0);
      if fromKeys.Some? then fromKeys else FromResponse(j)
    case _ => None
  }

  /** Scans `j.items[..n]` from the last item to the first and returns the
      first message found. With `nested` false (a list held by a preferred
      key) only objects and strings are looked at; with `nested` true (a
      list at the top of the search) every item is searched. */
  function LastItem(j: Json, n: nat, nested: bool): (r: Option<string>)
    requires j.JArr? && n <= |j.items|
    ensures IsMessage(r)
    decreases j, 2, n
  {
    if n == 0 then None
    else
      var item := j.items[n - 1];
      assert item in j.items;
      var here := if nested || item.JObj? || item.JStr? then ExtractMessage(item) else None;
      if here.Some? then here else LastItem(j, n - 1, nested)
  }

  /** The message held by the value of one preferred key. */
  function FromValue(v: Json): (r: Option<string>)
    ensures IsMessage(r)
    decreases v, 4
  {
    match v
    case JStr(_) => ExtractMessage(v)
    case JObj(_) => ExtractMessage(v)
    case JArr(items) => LastItem(v, |items|, false)
    case _ => None
  }

  /** The message under `PreferredKeys[k]`, or under a later preferred key. */
  function FromKeys(j: Json, k: nat): (r: Option<string>)
    requires j.JObj? && k <= |PreferredKeys|
    ensures IsMessage(r)
    decreases j, 2, |PreferredKeys| - k
  {
    if k == |PreferredKeys| then None
    else
      var here := KeyCandidate(j, PreferredKeys[k]);
      if here.Some? then here else FromKeys(j, k + 1)
  }

  /** The message under one key of `j`; a missing key yields nothing. */
  function KeyCandidate(j: Json, key: string): (r: Option<string>)
    requires j.JObj?
    ensures IsMessage(r)
    decreases j, 1
  {
    var v := Lookup(j.fields, key);
    if v.None? then None
    else
      LookupSmaller(j, key);
      FromValue(v.value)
  }

  /** The `"response"` member: searched when it is an object, taken when it
      is a non-blank string, ignored otherwise. */
  function FromResponse(j: Json): (r: Option<string>)
    requires j.JObj?
    ensures IsMessage(r)
    decreases j, 1
  {
    var v := Lookup(j.fields, "response");
    if v.None? then None
    else
      LookupSmaller(j, "response");
      if v.value.JObj? || v.value.JStr? then ExtractMessage(v.value) else None
  }

  /** What is mentioned by a member's value is mentioned by the object. */
  lemma MentionsField(j: Json, key: string, r: Option<string>)
    requires j.JObj? && Lookup(j.fields, key).Some?
    requires r.Some? ==> Mentions(Lookup(j.fields, key).value, r.value)
    ensures r.Some? ==> Mentions(j, r.value)
  {
    if r.Some? {
      var i :| 0 <= i < |j.fields| && j.fields[i].key == key && j.fields[i].value == Lookup(j.fields, key).value;
    }
  }

  // ---------------------------------------------------------------------
  // Nothing is made up: a message found is the stripped form of a string
  // somewhere inside the value searched. One lemma per function of the
  // search, following its recursion.

  lemma {:induction false} ExtractedIsMentioned(j: Json)
    ensures ExtractMessage(j).Some? ==> Mentions(j, ExtractMessage(j).value)
    decreases j, 3
  {
    match j
    case JStr(_) =>
    case JArr(items) =>
      LastItemMentioned(j, |items|, true);
    case JObj(_) =>
      FromKeysMentioned(j, 0);
      FromResponseMentioned(j);
    case _ =>
  }

  lemma {:induction false} LastItemMentioned(j: Json, n: nat, nested: bool)
    requires j.JArr? && n <= |j.items|
    ensures LastItem(j, n, nested).Some? ==>
              exists i :: 0 <= i < n && Mentions(j.items[i], LastItem(j, n, nested).value)
    decreases j, 2, n
  {
    if n > 0 {
      var item := j.items[n - 1];
      assert item in j.items;
      ExtractedIsMentioned(item);
      LastItemMentioned(j, n - 1, nested);
    }
  }

  lemma {:induction false} FromValueMentioned(v: Json)
    ensures FromValue(v).Some? ==> Mentions(v, FromValue(v).value)
    decreases v, 4
  {
    match v
    case JStr(_) => ExtractedIsMentioned(v);
    case JObj(_) => ExtractedIsMentioned(v);
    case JArr(items) => LastItemMentioned(v, |items|, false);
    case _ =>
  }

  lemma {:induction false} FromKeysMentioned(j: Json, k: nat)
    requires j.JObj? && k <= |PreferredKeys|
    ensures FromKeys(j, k).Some? ==> Mentions(j, FromKeys(j, k).value)
    decreases j, 2, |PreferredKeys| - k
  {
    if k < |PreferredKeys| {
      KeyCandidateMentioned(j, PreferredKeys[k]);
      FromKeysMentioned(j, k + 1);
    }
  }

  lemma {:induction false} KeyCandidateMentioned(j: Json, key: string)
    requires j.JObj?
    ensures KeyCandidate(j, key).Some? ==> Mentions(j, KeyCandidate(j, key).value)
    decreases j, 1
  {
    var v := Lookup(j.fields, key);
    if v.Some? {
      LookupSmaller(j, key);
      FromValueMentioned(v.value);
      MentionsField(j, key, FromValue(v.value));
    }
  }

  lemma {:induction false} FromResponseMentioned(j: Json)
    requires j.JObj?
    ensures FromResponse(j).Some? ==> Mentions(j, FromResponse(j).value)
    decreases j, 1
  {
    var v := Lookup(j.fields, "response");
    if v.Some? {
      LookupSmaller(j, "response");
      ExtractedIsMentioned(v.value);
      MentionsField(j, "response", FromResponse(j));
    }
  }

  // ---------------------------------------------------------------------
  // An independent statement of the object rule: the candidates in priority
  // order, and the first one that yields a message.

  /** The first present entry of `cands`. */
  function FirstFound(cands: seq<Option<string>>): Option<string> {
    if |cands| == 0 then None
    else if cands[0].Some? then cands[0]
    else FirstFound(cands[1..])
  }

  /** Each preferred key's candidate in the fixed order, then `"response"`. */
  function Candidates(j: Json): (cs: seq<Option<string>>)
    requires j.JObj?
    ensures |cs| == |PreferredKeys| + 1
  {
    seq(|PreferredKeys|, k requires 0 <= k < |PreferredKeys| => KeyCandidate(j, PreferredKeys[k]))
      + [FromResponse(j)]
  }

  lemma {:induction false} FromKeysFirstFound(j: Json, k: nat)
    requires j.JObj? && k <= |PreferredKeys|
    ensures (if FromKeys(j, k).Some? then FromKeys(j, k) else FromResponse(j))
            == FirstFound(Candidates(j)[k..])
    decreases |PreferredKeys| - k
  {
    var cs := Candidates(j);
    if k == |PreferredKeys| {
      assert cs[k..] == [FromResponse(j)];
    } else {
      FromKeysFirstFound(j, k + 1);
      assert cs[k..][1..] == cs[k + 1..];
    }
  }

  /** For an object, the result is the first candidate, in the order
      message, content, text, output, result, summary, response, that
      yields a message. */
  lemma ObjectPriority(j: Json)
    requires j.JObj?
    ensures ExtractMessage(j) == FirstFound(Candidates(j))
  {
    FromKeysFirstFound(j, 0);
    assert Candidates(j)[0..] == Candidates(j);
  }

  /** A non-blank string under `"message"` always wins. */
  lemma MessageKeyWins(j: Json, s: string)
    requires j.JObj? && Lookup(j.fields, "message") == Some(JStr(s)) && Strip(s) != []
    ensures ExtractMessage(j) == Some(Strip(s))
  {
    assert PreferredKeys[0] == "message";
    assert FromValue(JStr(s)) == NonBlank(s);
    assert KeyCandidate(j, PreferredKeys[0]) == Some(Strip(s));
    assert FromKeys(j, 0) == Some(Strip(s));
  }

  /** `"response"` is consulted only when no preferred key yields a message. */
  lemma ResponseIsLastResort(j: Json)
    requires j.JObj?
    ensures ExtractMessage(j) != FromResponse(j) ==>
              exists k :: 0 <= k < |PreferredKeys| && KeyCandidate(j, PreferredKeys[k]).Some?
  {
    ObjectPriority(j);
    var cs := Candidates(j);
    if forall k :: 0 <= k < |PreferredKeys| ==> KeyCandidate(j, PreferredKeys[k]).None? {
      NoneBeforeLast(cs);
    }
  }

  lemma {:induction false} NoneBeforeLast(cs: seq<Option<string>>)
    requires |cs| >= 1 && forall i :: 0 <= i < |cs| - 1 ==> cs[i].None?
    ensures FirstFound(cs) == cs[|cs| - 1]
  {
    if |cs| > 1 {
      NoneBeforeLast(cs[1..]);
    }
  }

  lemma {:induction false} LastItemPrefix(a: Json, b: Json, n: nat, nested: bool)
    requires a.JArr? && b.JArr? && n <= |a.items| && n <= |b.items|
    requires forall i :: 0 <= i < n ==> a.items[i] == b.items[i]
    ensures LastItem(a, n, nested) == LastItem(b, n, nested)
  {
    if n > 0 {
      LastItemPrefix(a, b, n - 1, nested);
      assert a.items[n - 1] == b.items[n - 1];
    }
  }

  /** Lists are scanned from the last item to the first: appending an item
      that yields a message makes it the answer, and appending one that
      yields none changes nothing. */
  lemma ListScansFromEnd(items: seq<Json>, x: Json)
    ensures ExtractMessage(JArr(items + [x])) ==
            if ExtractMessage(x).Some? then ExtractMessage(x) else ExtractMessage(JArr(items))
  {
    var j := JArr(items + [x]);
    assert j.items[|items|] == x;
    LastItemPrefix(j, JArr(items), |items|, true);
  }
}

=== FILE: json.dfy ===
/** Decoded JSON values, as `json.loads` hands them to the agent. */
module Json {
  import opened Outcomes

  /** A JSON value. Objects keep their members in document order. */
  datatype Json =
    | JNull
    | JBool(b: bool)
    | JNum(n: real)
    | JStr(s: string)
    | JArr(items: seq<Json>)
    | JObj(fields: seq<Field>)

  datatype Field = Field(key: string, value: Json)

  /** Python's `obj.get(key)` on a decoded object: `None` when the key is
      missing; when a key is repeated, the last member wins, as in the dict
      that `json.loads` builds. */
  function Lookup(fields: seq<Field>, key: string): (r: Option<Json>)
    ensures r.None? <==> forall i :: 0 <= i < |fields| ==> fields[i].key != key
    ensures r.Some? ==> exists i :: 0 <= i < |fields| && fields[i].key == key && fields[i].value == r.value
  {
    if |fields| == 0 then None
    else if fields[|fields| - 1].key == key then Some(fields[|fields| - 1].value)
    else Lookup(fields[..|fields| - 1], key)
  }

  /** A value found in an object is structurally smaller than the object. */
  lemma LookupSmaller(j: Json, key: string)
    requires j.JObj? && Lookup(j.fields, key).Some?
    ensures Lookup(j.fields, key).value < j
  {
    var i :| 0 <= i < |j.fields| && j.fields[i].value == Lookup(j.fields, key).value;
    assert j.fields[i] in j.fields;
  }

  /** Python truthiness of a decoded value (`bool(v)`). */
  predicate Truthy(j: Json) {
    match j
    case JNull => false
    case JBool(b) => b
    case JNum(n) => n != 0.0
    case JStr(s) => |s| > 0
    case JArr(items) => |items| > 0
    case JObj(fields) => |fields| > 0
  }
}

=== FILE: llm.dfy ===
/**
 * The LLM client: the unconfigured-client guard of `compare_topics` and
 * `extract_concept`, and `_parse_json`, which takes the JSON out of a
 * reply that may wrap it in a markdown code fence.
 */
module Llm {
  import opened Outcomes
  import opened Text
  import opened Json

  const Fence := "```"
  const JsonTag := "json"

  /** The first position at or after `from` where `w` occurs. */
  function FindFrom(s: string, w: string, from: nat): (r: Option<nat>)
    requires |w| > 0
    ensures r.Some? ==> from <= r.value && MatchAt(s, w, r.value)
    ensures r.Some? ==> forall j :: from <= j < r.value ==> !MatchAt(s, w, j)
    ensures r.None? ==> forall j :: from <= j ==> !MatchAt(s, w, j)
    decreases |s| - from
  {
    if from + |w| > |s| then None
    else if s[from..from + |w|] == w then Some(from)
    else FindFrom(s, w, from + 1)
  }

  /** What `re.search(r"```(?:json)?\s*([\s\S]*?)\s*```", text)` captures,
      stripped: the text between the first fence and the next fence after
      it, without a `json` tag right after the opening fence. The
      whitespace the pattern skips on both sides is exactly what the final
      `strip()` removes, and the lazy group ends at the first closing
      fence, so the capture is the stripped span up to that fence. */
  function FencedContent(text: string): (r: Option<string>)
    ensures r.Some? ==> Stripped(r.value)
    ensures r.Some? ==> forall j :: !MatchAt(r.value, Fence, j)
    ensures r.None? <==> !exists i, j :: i + 3 <= j && MatchAt(text, Fence, i) && MatchAt(text, Fence, j)
  {
    var open := FindFrom(text, Fence, 0);
    if open.None? then None
    else
      var start := open.value + 3;
      var close := FindFrom(text, Fence, start);
      if close.None? then None
      else
        var bodyStart := if MatchAt(text, JsonTag, start) then start + 4 else start;
        TagBeforeFence(text, start, close.value);
        var body := text[bodyStart..close.value];
        var kept := Strip(body);
        NoFenceInside(text, bodyStart, close.value);
        NoFenceInSlice(body, kept);
        Some(kept)
  }

  /** A `json` tag and a fence cannot overlap: the fence comes after the tag. */
  lemma TagBeforeFence(text: string, start: nat, close: nat)
    requires start <= close && MatchAt(text, Fence, close)
    ensures MatchAt(text, JsonTag, start) ==> start + 4 <= close
  {
    assert text[close..close + 3][0] == text[close] == '`';
    if MatchAt(text, JsonTag, start) {
      assert forall k :: start <= k < start + 4 ==> text[k] == text[start..start + 4][k - start];
      assert forall k :: start <= k < start + 4 ==> text[k] != '`';
    }
  }

  /** No fence starts inside `text[lo..hi]` when none starts in `[lo, hi)`. */
  lemma NoFenceInside(text: string, lo: nat, hi: nat)
    requires lo <= hi <= |text|
    requires forall j :: lo <= j < hi ==> !MatchAt(text, Fence, j)
    ensures forall j :: !MatchAt(text[lo..hi], Fence, j)
  {
    var s := text[lo..hi];
    forall j: nat ensures !MatchAt(s, Fence, j) {
      if j + 3 <= |s| {
        assert !MatchAt(text, Fence, lo + j);
        SliceOfSlice(text, lo, hi, j);
      }
    }
  }

  lemma SliceOfSlice(text: string, lo: nat, hi: nat, j: nat)
    requires lo <= hi <= |text| && j + 3 <= hi - lo
    ensures text[lo..hi][j..j + 3] == text[lo + j..lo + j + 3]
  {
    var s := text[lo..hi];
    var t := text[lo + j..lo + j + 3];
    assert s[j..j + 3][0] == s[j] == text[lo + j] == t[0];
    assert s[j..j + 3][1] == s[j + 1] == text[lo + j + 1] == t[1];
    assert s[j..j + 3][2] == s[j + 2] == text[lo + j + 2] == t[2];
  }

  /** The stripped part of a fence-free text is fence-free. */
  lemma NoFenceInSlice(body: string, kept: string)
    requires kept == Strip(body)
    requires forall j :: !MatchAt(body, Fence, j)
    ensures forall j :: !MatchAt(kept, Fence, j)
  {
    var a := SkipStart(body, IsSpace, 0);
    forall j: nat ensures !MatchAt(kept, Fence, j) {
      if j + 3 <= |kept| {
        assert kept[j..j + 3] == body[a + j..a + j + 3];
        assert !MatchAt(body, Fence, a + j);
      }
    }
  }

  /** The text `_parse_json` hands to `json.loads`: the reply trimmed, and
      narrowed to the fenced block when there is a complete fence pair. */
  function DecoderInput(text: string): (r: string)
    ensures Stripped(r)
  {
    var t := Strip(text);
    FencedContent(t).GetOr(t)
  }

  /** `_parse_json(text)`, with `json.loads` as the opaque `decode`. */
  function ParseJson(text: string, decode: string -> Option<Json>): Result<Json> {
    match decode(DecoderInput(text))
    case Some(j) => Ok(j)
    case None => Err(DecodeError)
  }

  /** Without a complete fence pair the trimmed reply is decoded as is. */
  lemma NoFencePairKeepsText(text: string)
    requires var t := Strip(text);
             !exists i, j :: i + 3 <= j && MatchAt(t, Fence, i) && MatchAt(t, Fence, j)
    ensures DecoderInput(text) == Strip(text)
  {
  }

  /** No fence starts where there is no backtick. */
  lemma NoBacktickNoFence(text: string, lo: nat, hi: nat)
    requires forall k :: lo <= k < hi && k < |text| ==> text[k] != '`'
    ensures forall j :: lo <= j < hi ==> !MatchAt(text, Fence, j)
  {
    forall j | lo <= j < hi ensures !MatchAt(text, Fence, j) {
      if j + 3 <= |text| {
        assert text[j..j + 3][0] == text[j];
      }
    }
  }

  lemma FindFirst(text: string, from: nat, at: nat)
    requires from <= at && MatchAt(text, Fence, at)
    requires forall j :: from <= j < at ==> !MatchAt(text, Fence, j)
    ensures FindFrom(text, Fence, from) == Some(at)
  {
  }

  /** The fenced content once the two fences and the body start have been
      located. */
  lemma FencedAt(text: string, o: nat, b: nat, c: nat)
    requires MatchAt(text, Fence, o) && forall j :: 0 <= j < o ==> !MatchAt(text, Fence, j)
    requires o + 3 <= c && MatchAt(text, Fence, c)
    requires forall j :: o + 3 <= j < c ==> !MatchAt(text, Fence, j)
    requires b == (if MatchAt(text, JsonTag, o + 3) then o + 7 else o + 3)
    ensures b <= c && FencedContent(text) == Some(Strip(text[b..c]))
  {
    FindFirst(text, 0, o);
    FindFirst(text, o + 3, c);
    TagBeforeFence(text, o + 3, c);
  }

  /** The parts of a fenced text, by position. */
  lemma Pieces(before: string, tag: string, content: string, after: string)
    ensures var text := before + Fence + tag + content + Fence + after;
            var o := |before|;
            var b := o + 3 + |tag|;
            var c := b + |content|;
            && |text| == c + 3 + |after|
            && text[..o] == before && text[o..o + 3] == Fence && text[o + 3..b] == tag
            && text[b..c] == content && text[c..c + 3] == Fence && text[c + 3..] == after
  {
    var text := before + Fence + tag + content + Fence + after;
    assert text == before + (Fence + (tag + (content + (Fence + after))));
  }

  /** The fenced content of a wrapped text is the wrapped content. */
  lemma WrappedContent(before: string, tag: string, content: string, after: string)
    requires tag == JsonTag || (tag == "" && !MatchAt(content, JsonTag, 0))
    requires '`' !in before && '`' !in content && Stripped(content)
    ensures FencedContent(before + Fence + tag + content + Fence + after) == Some(content)
  {
    Pieces(before, tag, content, after);
    WrappedAt(before + Fence + tag + content + Fence + after, before, tag, content);
  }

  /** `WrappedContent`, on a text already cut into its pieces. */
  lemma WrappedAt(text: string, before: string, tag: string, content: string)
    requires tag == JsonTag || (tag == "" && !MatchAt(content, JsonTag, 0))
    requires '`' !in before && '`' !in content && Stripped(content)
    requires var o := |before|;
             var b := o + 3 + |tag|;
             var c := b + |content|;
             && c + 3 <= |text| && text[..o] == before && text[o..o + 3] == Fence
             && text[o + 3..b] == tag && text[b..c] == content && text[c..c + 3] == Fence
    ensures FencedContent(text) == Some(content)
  {
    var o := |before|;
    var b := o + 3 + |tag|;
    var c := b + |content|;
    FenceLayout(text, before, tag, content);
    TagOffset(text, before, tag, content);
    FencedAt(text, o, b, c);
    assert text[b..c] == content;
    StrippedStrip(content);
  }

  /** The content starts after the tag exactly when the tag is detected. */
  lemma TagOffset(text: string, before: string, tag: string, content: string)
    requires tag == JsonTag || (tag == "" && !MatchAt(content, JsonTag, 0))
    requires var o := |before|;
             var b := o + 3 + |tag|;
             var c := b + |content|;
             && c + 3 <= |text| && text[b..c] == content && text[o + 3..b] == tag && text[c..c + 3] == Fence
    ensures |before| + 3 + |tag| == if MatchAt(text, JsonTag, |before| + 3) then |before| + 7 else |before| + 3
  {
    TagDetected(text, before, tag, content);
  }

  /** The `json` tag is recognised exactly when it was written. */
  lemma TagDetected(text: string, before: string, tag: string, content: string)
    requires tag == JsonTag || (tag == "" && !MatchAt(content, JsonTag, 0))
    requires var o := |before|;
             var b := o + 3 + |tag|;
             var c := b + |content|;
             && c + 3 <= |text| && text[b..c] == content && text[o + 3..b] == tag && text[c..c + 3] == Fence
    ensures MatchAt(text, JsonTag, |before| + 3) <==> tag == JsonTag
  {
    var o := |before|;
    var b := o + 3 + |tag|;
    var c := b + |content|;
    if tag == "" {
      if |content| >= 4 {
        assert text[o + 3..o + 7] == text[b..c][..4] == content[..4];
      } else if o + 7 <= |text| {
        assert text[c] == text[c..c + 3][0] == '`';
        assert text[o + 3..o + 7][c - o - 3] == text[c];
      }
    }
  }

  /** Wrapping content in a fence, with or without the `json` tag, and
      stripping it again gives the content back, whatever follows the
      closing fence. */
  lemma FenceRoundTrip(before: string, tag: string, content: string, after: string)
    requires tag == JsonTag || (tag == "" && !MatchAt(content, JsonTag, 0))
    requires '`' !in before && '`' !in content
    requires Stripped(before) && Stripped(after) && Stripped(content)
    ensures DecoderInput(before + Fence + tag + content + Fence + after) == content
  {
    var text := before + Fence + tag + content + Fence + after;
    WrappedContent(before, tag, content, after);
    Pieces(before, tag, content, after);
    WrappedStripped(text, before, after);
    StrippedStrip(text);
  }

  /** Where the fences of a wrapped text are, and that there are no others before the closing one. */
  lemma FenceLayout(text: string, before: string, tag: string, content: string)
    requires tag == JsonTag || tag == ""
    requires '`' !in before && '`' !in content
    requires var o := |before|;
             var b := o + 3 + |tag|;
             var c := b + |content|;
             && c + 3 <= |text| && text[..o] == before && text[o..o + 3] == Fence
             && text[o + 3..b] == tag && text[b..c] == content && text[c..c + 3] == Fence
    ensures var o := |before|;
            var c := o + 3 + |tag| + |content|;
            && MatchAt(text, Fence, o) && MatchAt(text, Fence, c)
            && (forall j :: 0 <= j < o ==> !MatchAt(text, Fence, j))
            && (forall j :: o + 3 <= j < c ==> !MatchAt(text, Fence, j))
  {
    var o := |before|;
    var b := o + 3 + |tag|;
    var c := b + |content|;
    assert forall k :: 0 <= k < o ==> text[k] == text[..o][k];
    assert forall k :: o + 3 <= k < b ==> text[k] == text[o + 3..b][k - o - 3];
    assert forall k :: b <= k < c ==> text[k] == text[b..c][k - b];
    NoBacktickNoFence(text, 0, o);
    NoBacktickNoFence(text, o + 3, c);
  }

  lemma WrappedStripped(text: string, before: string, after: string)
    requires Stripped(before) && Stripped(after)
    requires |text| >= |before| + |after| + 6
    requires text[..|before|] == before && text[|before|] == '`'
    requires text[|text| - |after|..] == after && text[|text| - |after| - 1] == '`'
    ensures Stripped(text)
  {
    if |before| > 0 { assert text[0] == text[..|before|][0]; }
    if |after| > 0 { assert text[|text| - 1] == text[|text| - |after|..][|after| - 1]; }
  }

  // ---------------------------------------------------------------------
  // The client.

  /** An LLM client; an empty API key leaves it unconfigured. */
  datatype LlmClient = LlmClient(apiKey: string)

  const NotConfigured := RuntimeError("LLM client not configured. Set XAI_API_KEY (for xAI/Grok) or OPENAI_API_KEY in .env.local")

  /** A chat completion request as the remote service answers it: the
      reply text, or the failure it reports. */
  type Completion = string -> Result<string>

  /** `compare_topics`: the remote is asked only by a configured client,
      and its reply is decoded by `_parse_json`. */
  function CompareTopics(client: LlmClient, previous: string, current: string,
                         ask: (string, string) -> Result<string>,
                         decode: string -> Option<Json>): (r: Result<Json>)
    ensures client.apiKey == [] ==> r == Err(NotConfigured)
  {
    if client.apiKey == [] then Err(NotConfigured)
    else
      match ask(previous, current)
      case Err(e) => Err(e)
      case Ok(reply) => ParseJson(reply, decode)
  }

  /** `extract_concept`: the same guard, for one transcript segment. */
  function ExtractConcept(client: LlmClient, segment: string, ask: Completion,
                          decode: string -> Option<Json>): (r: Result<Json>)
    ensures client.apiKey == [] ==> r == Err(NotConfigured)
  {
    if client.apiKey == [] then Err(NotConfigured)
    else
      match ask(segment)
      case Err(e) => Err(e)
      case Ok(reply) => ParseJson(reply, decode)
  }

  /** An unconfigured client fails the same way whatever the remote would
      have answered: no request is made. */
  lemma UnconfiguredMakesNoRequest(client: LlmClient, previous: string, current: string, segment: string,
                                   ask1: (string, string) -> Result<string>, ask2: (string, string) -> Result<string>,
                                   one1: Completion, one2: Completion, decode: string -> Option<Json>)
    requires client.apiKey == []
    ensures CompareTopics(client, previous, current, ask1, decode) == CompareTopics(client, previous, current, ask2, decode)
    ensures ExtractConcept(client, segment, one1, decode) == ExtractConcept(client, segment, one2, decode)
  {
  }

  /** What `_parse_json` makes of a reply whose JSON text is `content`. */
  function Decoded(content: string, decode: string -> Option<Json>): Result<Json> {
    if decode(content).Some? then Ok(decode(content).value) else Err(DecodeError)
  }

  /** A configured client whose comparison reply wraps `content` in a fence
      returns what `content` decodes to: the fence, its `json` tag and the
      text around it are dropped. */
  lemma CompareDecodesFenced(client: LlmClient, previous: string, current: string,
                             ask: (string, string) -> Result<string>, decode: string -> Option<Json>,
                             before: string, tag: string, content: string, after: string)
    requires client.apiKey != []
    requires tag == JsonTag || (tag == "" && !MatchAt(content, JsonTag, 0))
    requires '`' !in before && '`' !in content
    requires Stripped(before) && Stripped(after) && Stripped(content)
    requires ask(previous, current) == Ok(before + Fence + tag + content + Fence + after)
    ensures CompareTopics(client, previous, current, ask, decode) == Decoded(content, decode)
  {
    FenceRoundTrip(before, tag, content, after);
  }

  /** The same for the reply to a concept extraction. */
  lemma ExtractDecodesFenced(client: LlmClient, segment: string, ask: Completion, decode: string -> Option<Json>,
                             before: string, tag: string, content: string, after: string)
    requires client.apiKey != []
    requires tag == JsonTag || (tag == "" && !MatchAt(content, JsonTag, 0))
    requires '`' !in before && '`' !in content
    requires Stripped(before) && Stripped(after) && Stripped(content)
    requires ask(segment) == Ok(before + Fence + tag + content + Fence + after)
    ensures ExtractConcept(client, segment, ask, decode) == Decoded(content, decode)
  {
    FenceRoundTrip(before, tag, content, after);
  }

  /** A configured client whose reply has no backtick returns what the
      stripped reply decodes to. */
  lemma ExtractDecodesBare(client: LlmClient, segment: string, ask: Completion, decode: string -> Option<Json>, reply: string)
    requires client.apiKey != [] && ask(segment) == Ok(reply) && '`' !in reply
    ensures ExtractConcept(client, segment, ask, decode) == Decoded(Strip(reply), decode)
  {
    var t := Strip(reply);
    var a := SkipStart(reply, IsSpace, 0);
    assert t == reply[a..a + |t|];
    forall i: nat | i < |t| ensures !MatchAt(t, Fence, i) {
      assert t[i] == reply[a + i] != '`';
    }
    NoFencePairKeepsText(reply);
  }
}

=== FILE: markdown.dfy ===
/**
 * `_format_summary_markdown`: the line-by-line normaliser applied to the
 * summary text before it is sent to the chat. Numbered section lines
 * become `## ` headings, headings and bullets get a blank line before
 * them, blank runs collapse, and no three newlines remain in a row.
 */
module Markdown {
  import opened Text

  /** Numbered lines at least this long stay paragraphs. */
  const MaxSectionLen := 120
  const HeadingPrefix := "## "
  const ThreeNewlines := "\n\n\n"
  const TwoNewlines := "\n\n"

  predicate IsHash(c: char) { c == '#' }

  /** `re.match(r"^\d+\.\s+", s)`: digits, a dot, then whitespace. */
  predicate SectionStart(s: string) {
    var n := SkipStart(s, IsDigit, 0);
    n >= 1 && n + 1 < |s| && s[n] == '.' && IsSpace(s[n + 1])
  }

  /** `re.match(r"^\d+\.\s+.+", s)` on a line without newlines: a section
      start with at least one character after the whitespace. */
  predicate NumberedSection(s: string) {
    SectionStart(s) && SkipStart(s, IsDigit, 0) + 2 < |s|
  }

  /** `re.match(r"^#{1,6}\s", s)`: one to six `#` and then whitespace. */
  predicate MarkdownHeading(s: string) {
    var h := SkipStart(s, IsHash, 0);
    1 <= h <= 6 && h < |s| && IsSpace(s[h])
  }

  /** `s.startswith("- ") or s.startswith("* ")`. */
  predicate Bullet(s: string) { MatchAt(s, "- ", 0) || MatchAt(s, "* ", 0) }

  /** The heading a short numbered line becomes. */
  function SectionHeading(stripped: string): string {
    if MatchAt(stripped, "##", 0) then stripped else HeadingPrefix + stripped
  }

  predicate EndsOpen(out: seq<string>) { |out| > 0 && out[|out| - 1] != "" }

  /** The output lines after line `i` of `lines` is handled. */
  function Step(lines: seq<string>, i: nat, out: seq<string>): (r: seq<string>)
    requires i < |lines|
    ensures |r| >= |out| && r[..|out|] == out
  {
    var line := lines[i];
    var stripped := Strip(line);
    if NumberedSection(stripped) && |stripped| < MaxSectionLen then
      out + ["", SectionHeading(stripped), ""]
    else if MarkdownHeading(stripped) then
      (if EndsOpen(out) then out + [""] else out) + [stripped, ""]
    else if Bullet(stripped) then
      (if EndsOpen(out) && !Bullet(Strip(out[|out| - 1])) then out + [""] else out) + [line]
    else if stripped != [] then
      var next := if i + 1 < |lines| then Strip(lines[i + 1]) else "";
      out + [line] + (if i + 1 < |lines| && (SectionStart(next) || MarkdownHeading(next)) then [""] else [])
    else if EndsOpen(out) then out + [""]
    else out
  }

  /** The `while i < len(lines)` loop, from line `i` on. */
  function FormatLines(lines: seq<string>, i: nat, out: seq<string>): (r: seq<string>)
    requires i <= |lines|
    ensures |r| >= |out| && r[..|out|] == out
    decreases |lines| - i
  {
    if i == |lines| then out else FormatLines(lines, i + 1, Step(lines, i, out))
  }

  /** `while "\n\n\n" in result: result = result.replace("\n\n\n", "\n\n")`. */
  function Collapse(s: string): (r: string)
    ensures !Contains(r, ThreeNewlines)
    ensures |r| <= |s|
    decreases |s|
  {
    if Contains(s, ThreeNewlines) then
      ReplaceShrinks(s, ThreeNewlines, TwoNewlines);
      Collapse(ReplaceAll(s, ThreeNewlines, TwoNewlines))
    else s
  }

  /** `_format_summary_markdown(text)` on text whose `\uXXXX` escapes are
      already decoded. */
  function FormatSummary(text: string): (r: string)
    ensures text == [] ==> r == text
    ensures !Contains(r, ThreeNewlines)
  {
    if text == [] then text
    else Finish(FormatLines(Split(text, '\n'), 0, []))
  }

  /** The output lines joined, stripped and collapsed. */
  function Finish(out: seq<string>): (r: string)
    ensures !Contains(r, ThreeNewlines)
  {
    Collapse(Strip(Join("\n", out)))
  }

  // ---------------------------------------------------------------------
  // `str.replace` facts.

  lemma {:induction false} ReplaceNoLonger(s: string, pat: string, rep: string)
    requires |pat| > 0 && |rep| <= |pat|
    ensures |ReplaceAll(s, pat, rep)| <= |s|
    decreases |s|
  {
    if |s| >= |pat| {
      if s[..|pat|] == pat {
        ReplaceNoLonger(s[|pat|..], pat, rep);
      } else {
        ReplaceNoLonger(s[1..], pat, rep);
      }
    }
  }

  /** Replacing an occurring pattern by a shorter text shortens the string. */
  lemma ReplaceShrinks(s: string, pat: string, rep: string)
    requires |pat| > 0 && |rep| < |pat| && Contains(s, pat)
    ensures |ReplaceAll(s, pat, rep)| < |s|
  {
    ContainsIff(s, pat);
    var j :| MatchAt(s, pat, j);
    ReplaceShrinksAt(s, pat, rep, j);
  }

  lemma {:induction false} ReplaceShrinksAt(s: string, pat: string, rep: string, j: nat)
    requires |pat| > 0 && |rep| < |pat| && MatchAt(s, pat, j)
    ensures |ReplaceAll(s, pat, rep)| < |s|
    decreases |s|
  {
    if s[..|pat|] == pat {
      ReplaceNoLonger(s[|pat|..], pat, rep);
    } else {
      assert j != 0;
      assert s[1..][j - 1..j - 1 + |pat|] == s[j..j + |pat|];
      ReplaceShrinksAt(s[1..], pat, rep, j - 1);
    }
  }

  /** A string that does not start with the pattern's first character
      keeps its first character. */
  lemma ReplaceKeepsFirst(s: string, pat: string, rep: string)
    requires |pat| > 0 && |s| > 0 && s[0] != pat[0]
    ensures |ReplaceAll(s, pat, rep)| > 0 && ReplaceAll(s, pat, rep)[0] == s[0]
  {
    if |s| >= |pat| {
      assert s[..|pat|][0] != pat[0];
    }
  }

  /** A string that does not end with the pattern's last character keeps
      its last character. */
  lemma {:induction false} ReplaceKeepsLast(s: string, pat: string, rep: string)
    requires |pat| > 0 && |s| > 0 && s[|s| - 1] != pat[|pat| - 1]
    ensures var r := ReplaceAll(s, pat, rep);
            |r| > 0 && r[|r| - 1] == s[|s| - 1]
    decreases |s|
  {
    if |s| >= |pat| {
      if s[..|pat|] == pat {
        var rest := s[|pat|..];
        assert s[..|pat|][|pat| - 1] == s[|pat| - 1];
        ReplaceKeepsLast(rest, pat, rep);
      } else if |s| > 1 {
        ReplaceKeepsLast(s[1..], pat, rep);
      }
    }
  }

  /** A text starting with a newline-free `w` still starts with it once
      newline runs are shortened. */
  lemma {:induction false} ReplaceKeepsPrefix(s: string, w: string)
    requires MatchAt(s, w, 0) && '\n' !in w
    ensures MatchAt(ReplaceAll(s, ThreeNewlines, TwoNewlines), w, 0)
    decreases |s|
  {
    var r := ReplaceAll(s, ThreeNewlines, TwoNewlines);
    if |w| > 0 && |s| >= 3 {
      assert s[0] == w[0];
      assert s[..3][0] != '\n';
      assert s[1..][..|w| - 1] == w[1..] by {
        assert s[..|w|] == w;
      }
      ReplaceKeepsPrefix(s[1..], w[1..]);
      var t := ReplaceAll(s[1..], ThreeNewlines, TwoNewlines);
      assert r == [s[0]] + t;
      assert r[..|w|] == [w[0]] + t[..|w| - 1];
      assert w == [w[0]] + w[1..];
    }
  }

  /** A newline-free `w` occurring in a text still occurs once newline
      runs are shortened. */
  lemma {:induction false} ReplaceKeepsOccurrence(s: string, w: string, p: nat)
    requires MatchAt(s, w, p) && '\n' !in w && |w| > 0
    ensures Contains(ReplaceAll(s, ThreeNewlines, TwoNewlines), w)
    decreases |s|
  {
    var r := ReplaceAll(s, ThreeNewlines, TwoNewlines);
    if |s| < 3 {
      ContainsIff(r, w);
      assert MatchAt(r, w, p);
    } else if s[..3] == ThreeNewlines {
      NewlinesBefore(s, w, p);
      var rest := s[3..];
      MatchShift(s, w, p, 3);
      ReplaceKeepsOccurrence(rest, w, p - 3);
      assert r == TwoNewlines + ReplaceAll(rest, ThreeNewlines, TwoNewlines);
      ContainsAfter(TwoNewlines, ReplaceAll(rest, ThreeNewlines, TwoNewlines), w);
    } else if p == 0 {
      ReplaceKeepsPrefix(s, w);
      ContainsIff(r, w);
      assert MatchAt(r, w, 0);
    } else {
      MatchShift(s, w, p, 1);
      ReplaceKeepsOccurrence(s[1..], w, p - 1);
      assert r == [s[0]] + ReplaceAll(s[1..], ThreeNewlines, TwoNewlines);
      ContainsAfter([s[0]], ReplaceAll(s[1..], ThreeNewlines, TwoNewlines), w);
    }
  }

  /** A newline-free piece cannot start inside a leading run of three
      newlines. */
  lemma NewlinesBefore(s: string, w: string, p: nat)
    requires MatchAt(s, w, p) && '\n' !in w && |w| > 0
    requires |s| >= 3 && s[..3] == ThreeNewlines
    ensures p >= 3
  {
    assert s[p] == w[0];
    assert s[..3][0] == '\n' && s[..3][1] == '\n' && s[..3][2] == '\n';
  }

  /** A piece found at `p` is found at `p - k` once `k` characters are
      dropped from the front. */
  lemma MatchShift(s: string, w: string, p: nat, k: nat)
    requires MatchAt(s, w, p) && k <= p
    ensures MatchAt(s[k..], w, p - k)
  {
    assert s[k..][p - k..p - k + |w|] == s[p..p + |w|];
  }

  /** What a text contains, the text behind a prefix contains too. */
  lemma ContainsAfter(x: string, t: string, w: string)
    requires Contains(t, w)
    ensures Contains(x + t, w)
  {
    ContainsIff(t, w);
    ContainsIff(x + t, w);
    var q: nat :| MatchAt(t, w, q);
    assert (x + t)[q + |x|..q + |x| + |w|] == t[q..q + |w|];
    assert MatchAt(x + t, w, q + |x|);
  }

  // ---------------------------------------------------------------------
  // Properties of the formatter.

  /** Collapsing keeps a text free of surrounding whitespace. */
  lemma {:induction false} CollapseStripped(s: string)
    requires Stripped(s)
    ensures Stripped(Collapse(s))
    decreases |s|
  {
    if Contains(s, ThreeNewlines) {
      var t := ReplaceAll(s, ThreeNewlines, TwoNewlines);
      ReplaceShrinks(s, ThreeNewlines, TwoNewlines);
      assert |s| > 0;
      ReplaceKeepsFirst(s, ThreeNewlines, TwoNewlines);
      ReplaceKeepsLast(s, ThreeNewlines, TwoNewlines);
      CollapseStripped(t);
    }
  }

  /** Collapsing keeps every newline-free piece of the text. */
  lemma {:induction false} CollapseKeeps(s: string, w: string)
    requires Contains(s, w) && '\n' !in w && |w| > 0
    ensures Contains(Collapse(s), w)
    decreases |s|
  {
    if Contains(s, ThreeNewlines) {
      ContainsIff(s, w);
      var p: nat :| MatchAt(s, w, p);
      ReplaceKeepsOccurrence(s, w, p);
      ReplaceShrinks(s, ThreeNewlines, TwoNewlines);
      CollapseKeeps(ReplaceAll(s, ThreeNewlines, TwoNewlines), w);
    }
  }

  /** A text without three newlines in a row is left as it is: collapsing
      is idempotent. */
  lemma CollapseIdempotent(s: string)
    ensures Collapse(Collapse(s)) == Collapse(s)
    ensures !Contains(s, ThreeNewlines) ==> Collapse(s) == s
  {
  }

  /** The formatted summary has no leading or trailing whitespace. */
  lemma FormatSummaryStripped(text: string)
    ensures Stripped(FormatSummary(text))
  {
    if text != [] {
      var out := FormatLines(Split(text, '\n'), 0, []);
      CollapseStripped(Strip(Join("\n", out)));
    }
  }

  /** Lines are only ever appended: a line that has been emitted stays. */
  lemma {:induction false} EmittedStays(lines: seq<string>, i: nat, out: seq<string>, x: string)
    requires i <= |lines| && x in out
    ensures x in FormatLines(lines, i, out)
    decreases |lines| - i
  {
    var r := FormatLines(lines, i, out);
    assert r[..|out|] == out;
    var k :| 0 <= k < |out| && out[k] == x;
    assert r[k] == x;
  }

  /** Every short numbered line is emitted as its `## ` heading. */
  lemma NumberedLineEmitted(lines: seq<string>, i: nat, j: nat, out: seq<string>)
    requires i <= j < |lines|
    requires NumberedSection(Strip(lines[j])) && |Strip(lines[j])| < MaxSectionLen
    ensures HeadingPrefix + Strip(lines[j]) in FormatLines(lines, i, out)
    decreases j - i
  {
    var st := Strip(lines[j]);
    assert !MatchAt(st, "##", 0) by {
      assert IsDigit(st[0]);
    }
    if i == j {
      var next := Step(lines, i, out);
      assert HeadingPrefix + st in next by {
        assert next[|out| + 1] == HeadingPrefix + st;
      }
      EmittedStays(lines, i + 1, next, HeadingPrefix + st);
    } else {
      NumberedLineEmitted(lines, i + 1, j, Step(lines, i, out));
    }
  }

  /** A part of a join occurs in the joined text. */
  lemma {:induction false} JoinContainsPart(sep: string, parts: seq<string>, k: nat)
    requires k < |parts|
    ensures exists p :: MatchAt(Join(sep, parts), parts[k], p)
    decreases |parts|
  {
    var s := Join(sep, parts);
    if |parts| == 1 {
      assert MatchAt(s, parts[k], 0);
    } else if k == 0 {
      assert s == parts[0] + (sep + Join(sep, parts[1..]));
      assert MatchAt(s, parts[0], 0);
    } else {
      var tail := Join(sep, parts[1..]);
      JoinContainsPart(sep, parts[1..], k - 1);
      var q: nat :| MatchAt(tail, parts[1..][k - 1], q);
      var head := parts[0] + sep;
      assert s == head + tail;
      assert s[|head| + q..|head| + q + |parts[k]|] == tail[q..q + |parts[k]|];
      assert MatchAt(s, parts[k], |head| + q);
    }
  }

  /** Stripping keeps a piece that starts and ends with non-whitespace. */
  lemma StripKeeps(s: string, w: string, p: nat)
    requires MatchAt(s, w, p) && |w| > 0 && !IsSpace(w[0]) && !IsSpace(w[|w| - 1])
    ensures Contains(Strip(s), w)
  {
    var r := StripBy(s, IsSpace);
    assert r == Strip(s);
    var a := SkipStart(s, IsSpace, 0);
    assert s[p] == w[0] && s[p + |w| - 1] == w[|w| - 1];
    assert a <= p;
    assert p + |w| <= a + |r|;
    SliceWithin(s, a, r, p, |w|);
    ContainsIff(r, w);
    assert MatchAt(r, w, p - a);
  }

  /** A piece of `s` that lies inside the slice `r` of `s` from `a` on is
      the same piece of `r`, shifted by `a`. */
  lemma SliceWithin(s: string, a: nat, r: string, p: nat, n: nat)
    requires a <= p && p + n <= a + |r| <= |s| && r == s[a..a + |r|]
    ensures r[p - a..p - a + n] == s[p..p + n]
  {
    var x, y := r[p - a..p - a + n], s[p..p + n];
    forall m | 0 <= m < n ensures x[m] == y[m] {
      assert x[m] == r[p - a + m] && y[m] == s[p + m];
      assert r[p - a + m] == s[a + (p - a + m)];
    }
    assert x == y;
  }

  /** A newline-free, non-empty piece that starts and ends with
      non-whitespace. */
  predicate Solid(w: string) {
    '\n' !in w && |w| > 0 && !IsSpace(w[0]) && !IsSpace(w[|w| - 1])
  }

  /** The heading made from a newline-free numbered line is solid. */
  lemma HeadingShape(line: string)
    requires '\n' !in line && NumberedSection(Strip(line))
    ensures Solid(HeadingPrefix + Strip(line))
  {
    var st := Strip(line);
    var w := HeadingPrefix + st;
    var a := SkipStart(line, IsSpace, 0);
    assert st == line[a..a + |st|];
    assert forall i :: 0 <= i < |st| ==> st[i] == line[a + i];
    assert forall i :: 0 <= i < |w| ==> w[i] == (if i < 3 then HeadingPrefix[i] else st[i - 3]);
    assert w[|w| - 1] == st[|st| - 1];
  }

  /** An emitted line of that shape survives the final join, strip and collapse. */
  lemma EmittedSurvives(out: seq<string>, w: string)
    requires w in out && Solid(w)
    ensures Contains(Finish(out), w)
  {
    var k :| 0 <= k < |out| && out[k] == w;
    var joined := Join("\n", out);
    JoinContainsPart("\n", out, k);
    var p: nat :| MatchAt(joined, w, p);
    StripKeeps(joined, w, p);
    CollapseKeeps(Strip(joined), w);
  }

  lemma FormatSummaryNonEmpty(text: string)
    requires text != []
    ensures FormatSummary(text) == Finish(FormatLines(Split(text, '\n'), 0, []))
  {
  }

  /** The heading made from a short numbered line survives the whole
      formatting of a list of newline-free lines. */
  lemma NumberedLineSurvives(lines: seq<string>, j: nat)
    requires j < |lines| && '\n' !in lines[j]
    requires NumberedSection(Strip(lines[j])) && |Strip(lines[j])| < MaxSectionLen
    ensures Contains(Finish(FormatLines(lines, 0, [])), HeadingPrefix + Strip(lines[j]))
  {
    var w := HeadingPrefix + Strip(lines[j]);
    var out := FormatLines(lines, 0, []);
    NumberedLineEmitted(lines, 0, j, []);
    HeadingShape(lines[j]);
    EmittedSurvives(out, w);
  }

  /** A numbered section line shorter than 120 characters appears in the
      formatted summary as a `## ` heading. */
  lemma NumberedLineBecomesHeading(text: string, j: nat)
    requires var lines := Split(text, '\n');
             j < |lines| && NumberedSection(Strip(lines[j])) && |Strip(lines[j])| < MaxSectionLen
    ensures Contains(FormatSummary(text), HeadingPrefix + Strip(Split(text, '\n')[j]))
  {
    var lines := Split(text, '\n');
    assert '\n' !in lines[j];
    assert text != [] by {
      assert |Strip(lines[j])| > 0;
    }
    NumberedLineSurvives(lines, j);
    FormatSummaryNonEmpty(text);
  }
}

=== FILE: outcomes.dfy ===
/** Option and Result shapes for the Python values `None` and raised exceptions. */
module Outcomes {

  /** A Python value that may be `None`. */
  datatype Option<+T> = None | Some(value: T) {

    /** The value, or `default` when there is none (Python's `x if x is not None else default`). */
    function GetOr(default: T): T {
      match this
      case Some(v) => v
      case None => default
    }
  }

  /** The exceptions the modelled Python code raises or catches. */
  datatype Exc =
    | RuntimeError(msg: string)   // a client was used without its configuration
    | ConnectionError             // a configured remote service could not be reached
    | ValueError                  // `int(...)` on a string that is not a decimal integer
    | AttributeError(name: string)// a method or `.get` called on a value that lacks it
    | DecodeError                 // `json.loads` on text that is not JSON
    | RemoteError                 // any failure reported by an external service call

  /** Either a returned value or the exception that escaped. */
  datatype Result<+T> = Ok(value: T) | Err(exc: Exc)
}

=== FILE: processing.dfy ===
/**
 * `_process_concept_cards_for_meeting`: the incremental pass that turns the
 * chunks past a meeting's cursor into concept cards, one per segment the
 * LLM finds, and then moves the cursor to the highest index it processed.
 */
module Processing {
  import opened Outcomes
  import opened Json
  import opened Chunks
  import opened Slug
  import opened Llm
  import opened Elastic
  import opened Cards
  import opened Redis

  /** One segment reported by the boundary finder; each field may be
      missing (`start_chunk` and `end_chunk` then read as 0, the hint as ""). */
  datatype Segment = Segment(startChunk: Option<int>, endChunk: Option<int>, conceptHint: Option<string>)

  /** The boundary finder the pass calls as `llm.identify_segment_boundaries`:
      `None` when the LLM client has no such method. */
  type Segmenter = Option<seq<Chunk> -> Result<seq<Segment>>>

  /** What the LLM and the clock contribute to a pass. */
  datatype Services = Services(llm: LlmClient, segmenter: Segmenter, extract: Completion,
                               decode: string -> Option<Json>, now: string)

  /** The reason line of a report. */
  datatype Message =
    | NoChunksFound(meetingId: string)
    | FetchFailed(exc: Exc)
    | NoNewChunks(meetingId: string, lastProcessed: int)
    | SegmentsFailed(exc: Exc)
    | NoSegments(newChunks: nat, meetingId: string)
    | NoCardsCreated(newChunks: nat, meetingId: string)
    | CardsCreated(cards: nat, newChunks: nat, meetingId: string)

  /** The dictionary the pass returns. `chunkRange` is the pair printed as
      "first to last". */
  datatype Report = Report(success: bool, message: Message, cardsCreated: nat, chunksProcessed: nat,
                           chunkRange: Option<(int, int)>, createdCards: seq<Card>)

  /** How many chunks the pass fetches: the query's `size`. */
  const ProcessingLimit := 1000

  /** A report, or an exception that escapes the pass, with the stores as
      the pass leaves them. */
  datatype Outcome =
    | Finished(report: Report, redis: Option<RedisClient>, es: ElasticClient)
    | Escaped(exc: Exc, redis: Option<RedisClient>, es: ElasticClient)

  /** `after` is the client `before` was, up to its keys. */
  predicate SameServer(before: Option<RedisClient>, after: Option<RedisClient>) {
    && before.None? == after.None?
    && (before.Some? ==> after.value.url == before.value.url && after.value.reachable == before.value.reachable)
  }

  function Failure(message: Message, processed: nat): Report {
    Report(false, message, 0, processed, None, [])
  }

  /** The cursor the pass starts from: -1 without Redis or when reading it fails. */
  function ReadCursor(redis: Option<RedisClient>, meetingId: string): (last: int)
    ensures redis.None? ==> last == -1
    ensures redis.Some? && GetLastChunkIndex(redis.value, meetingId).Ok? ==> last == GetLastChunkIndex(redis.value, meetingId).value
    ensures redis.Some? && GetLastChunkIndex(redis.value, meetingId).Err? ==> last == -1
  {
    if redis.None? then -1
    else match GetLastChunkIndex(redis.value, meetingId)
      case Ok(i) => i
      case Err(_) => -1
  }

  /** Writes the cursor when there is a Redis client (the expiry is not modelled). */
  function WriteCursor(redis: Option<RedisClient>, meetingId: string, index: int): (r: Result<Option<RedisClient>>)
    ensures redis.None? ==> r == Ok(None)
    ensures redis.Some? ==> (r.Ok? <==> Live(redis.value))
    ensures r.Ok? && redis.Some? ==> r.value == Some(SetLastChunkIndex(redis.value, meetingId, index).value)
  {
    if redis.None? then Ok(None)
    else match SetLastChunkIndex(redis.value, meetingId, index)
      case Ok(c) => Ok(Some(c))
      case Err(e) => Err(e)
  }

  /** `llm.identify_segment_boundaries(new_chunks)`. */
  function Identify(segmenter: Segmenter, newChunks: seq<Chunk>): (r: Result<seq<Segment>>)
    ensures segmenter.None? ==> r == Err(AttributeError("identify_segment_boundaries"))
  {
    if segmenter.None? then Err(AttributeError("identify_segment_boundaries"))
    else segmenter.value(newChunks)
  }

  /** The new chunks a segment covers: `start <= chunk_index <= end`. */
  function Covered(newChunks: seq<Chunk>, seg: Segment): (r: seq<Chunk>)
    ensures forall c :: c in r <==> c in newChunks && seg.startChunk.GetOr(0) <= IndexOf(c) <= seg.endChunk.GetOr(0)
  {
    Filter(newChunks, c => seg.startChunk.GetOr(0) <= IndexOf(c) <= seg.endChunk.GetOr(0))
  }

  /** The concept id a segment hint asks for. */
  function HintedId(seg: Segment): (r: Option<string>)
    ensures r.Some? <==> seg.conceptHint.GetOr("") != []
  {
    var hint := seg.conceptHint.GetOr("");
    if hint != [] then Some(MakeSlug(hint)) else None
  }

  /** Every card is in the index under the document id of its meeting and concept. */
  predicate Indexed(cards: seq<Card>, meetingId: string, es: ElasticClient) {
    forall card :: card in cards ==> card.docId == DocId(meetingId, card.conceptId) && card.docId in es.cards
  }

  /** What the card loop leaves: the cards created, in segment order, the
      card index after them, and the exception that ended the loop early,
      if one did. The loop has no handler, so cards indexed before the
      exception stay indexed. */
  datatype CardLoop = CardLoop(cards: seq<Card>, es: ElasticClient, crash: Option<Exc>)

  /** The card loop: one `create_concept_card` per segment that covers a
      new chunk. */
  function CreateForSegments(es: ElasticClient, svc: Services, meetingId: string,
                             newChunks: seq<Chunk>, segments: seq<Segment>): (r: CardLoop)
    ensures |r.cards| <= |segments|
    ensures r.es.states == es.states && r.es.chunks == es.chunks
    ensures es.cards.Keys <= r.es.cards.Keys
    ensures Indexed(r.cards, meetingId, r.es)
    decreases |segments|
  {
    if |segments| == 0 then CardLoop([], es, None)
    else
      var segmentChunks := Covered(newChunks, segments[0]);
      if |segmentChunks| == 0 then CreateForSegments(es, svc, meetingId, newChunks, segments[1..])
      else
        match CreateConceptCard(es, svc.llm, svc.extract, svc.decode, meetingId, segmentChunks, HintedId(segments[0]), svc.now)
        case Crash(e) => CardLoop([], es, Some(e))
        case NoCard => CreateForSegments(es, svc, meetingId, newChunks, segments[1..])
        case Created(card, es') =>
          var rest := CreateForSegments(es', svc, meetingId, newChunks, segments[1..]);
          assert card.docId in es'.cards;
          CardLoop([card] + rest.cards, rest.es, rest.crash)
  }

  /** A card made for an earlier segment stays indexed however the loop
      ends, also when a later segment raises. */
  lemma EarlierCardSurvives(es: ElasticClient, svc: Services, meetingId: string, newChunks: seq<Chunk>,
                            segments: seq<Segment>, card: Card, es1: ElasticClient)
    requires |segments| > 0 && |Covered(newChunks, segments[0])| > 0
    requires CreateConceptCard(es, svc.llm, svc.extract, svc.decode, meetingId, Covered(newChunks, segments[0]),
                               HintedId(segments[0]), svc.now) == Created(card, es1)
    ensures var r := CreateForSegments(es, svc, meetingId, newChunks, segments);
            |r.cards| > 0 && r.cards[0] == card && card.docId in r.es.cards
  {
    assert card.docId in es1.cards;
  }

  /** The end of a pass that found segments: the cursor moves to the
      highest new index, and a failed write only costs the move. */
  function Conclude(redis: Option<RedisClient>, es: ElasticClient, meetingId: string, last: int,
                    newChunks: seq<Chunk>, cards: seq<Card>): (r: Outcome)
    requires |newChunks| > 0
    ensures r.Finished? && r.report.success && r.report.cardsCreated == |cards| && r.es == es
    ensures r.report.chunksProcessed == |newChunks| && r.report.chunkRange == Some((last + 1, MaxIndex(newChunks)))
    ensures redis.Some? && Live(redis.value) ==> r.redis == Some(SetLastChunkIndex(redis.value, meetingId, MaxIndex(newChunks)).value)
    ensures redis.None? || !Live(redis.value) ==> r.redis == redis
    ensures SameServer(redis, r.redis)
  {
    var maxNew := MaxIndex(newChunks);
    var redis' := match WriteCursor(redis, meetingId, maxNew) case Ok(c) => c case Err(_) => redis;
    var message := if |cards| == 0 then NoCardsCreated(|newChunks|, meetingId)
                   else CardsCreated(|cards|, |newChunks|, meetingId);
    Finished(Report(true, message, |cards|, |newChunks|, Some((last + 1, maxNew)), cards), redis', es)
  }

  /** The pass once there are new chunks: find the segments, make their
      cards, move the cursor. */
  function ProcessNew(es: ElasticClient, svc: Services, redis: Option<RedisClient>, meetingId: string,
                      last: int, newChunks: seq<Chunk>): (r: Outcome)
    requires |newChunks| > 0
    ensures r.Finished? && !r.report.success ==> r.report.cardsCreated == 0 && r.redis == redis && r.es == es
    ensures r.es.states == es.states && r.es.chunks == es.chunks && es.cards.Keys <= r.es.cards.Keys
    ensures r.Escaped? ==> r.redis == redis
    ensures r.Finished? ==> r.report.cardsCreated == |r.report.createdCards| && r.report.chunksProcessed == |newChunks|
    ensures r.Finished? ==> Indexed(r.report.createdCards, meetingId, r.es)
    ensures r.Finished? && Identify(svc.segmenter, newChunks).Ok? && redis.Some? && Live(redis.value) ==>
              r.report.success && r.redis == Some(SetLastChunkIndex(redis.value, meetingId, MaxIndex(newChunks)).value)
    ensures SameServer(redis, r.redis)
    ensures svc.segmenter.None? ==>
              r == Finished(Failure(SegmentsFailed(AttributeError("identify_segment_boundaries")), |newChunks|), redis, es)
  {
    match Identify(svc.segmenter, newChunks)
    case Err(e) => Finished(Failure(SegmentsFailed(e), |newChunks|), redis, es)
    case Ok(segments) =>
      if |segments| == 0 then
        var maxNew := MaxIndex(newChunks);
        match WriteCursor(redis, meetingId, maxNew)
        case Err(e) => Finished(Failure(SegmentsFailed(e), |newChunks|), redis, es)
        case Ok(redis') =>
          Finished(Report(true, NoSegments(|newChunks|, meetingId), 0, |newChunks|, Some((last + 1, maxNew)), []), redis', es)
      else
        var loop := CreateForSegments(es, svc, meetingId, newChunks, segments);
        if loop.crash.Some? then Escaped(loop.crash.value, redis, loop.es)
        else Conclude(redis, loop.es, meetingId, last, newChunks, loop.cards)
  }

  /** `_process_concept_cards_for_meeting(es, llm, redis, meeting_id)`. */
  function ProcessConceptCards(es: ElasticClient, svc: Services, redis: Option<RedisClient>, meetingId: string): (r: Outcome)
    ensures r.Finished? && !r.report.success ==> r.report.cardsCreated == 0 && r.redis == redis && r.es == es
    ensures r.es.states == es.states && r.es.chunks == es.chunks && es.cards.Keys <= r.es.cards.Keys
    ensures r.Escaped? ==> r.redis == redis
    ensures r.Finished? ==> r.report.cardsCreated == |r.report.createdCards|
    ensures r.Finished? ==> Indexed(r.report.createdCards, meetingId, r.es)
    ensures SameServer(redis, r.redis)
  {
    var last := ReadCursor(redis, meetingId);
    match FetchChunks(es, meetingId, ProcessingLimit)
    case Err(e) => Finished(Failure(FetchFailed(e), 0), redis, es)
    case Ok(all) =>
      if |all| == 0 then Finished(Failure(NoChunksFound(meetingId), 0), redis, es)
      else
        var newChunks := After(all, last);
        if |newChunks| == 0 then
          Finished(Report(true, NoNewChunks(meetingId, last), 0, 0, None, []), redis, es)
        else ProcessNew(es, svc, redis, meetingId, last, newChunks)
  }

  // ---------------------------------------------------------------------
  // Properties of a pass.

  /** The chunks a pass works on are exactly those past the cursor. */
  lemma NewChunksArePastCursor(es: ElasticClient, svc: Services, redis: Option<RedisClient>, meetingId: string)
    requires FetchChunks(es, meetingId, ProcessingLimit).Ok?
    requires var r := ProcessConceptCards(es, svc, redis, meetingId);
             r.Finished? && r.report.success
    ensures var all := FetchChunks(es, meetingId, ProcessingLimit).value;
            var last := ReadCursor(redis, meetingId);
            && ProcessConceptCards(es, svc, redis, meetingId).report.chunksProcessed == |After(all, last)|
            && (forall c :: c in After(all, last) <==> c in all && IndexOf(c) > last)
  {
  }

  /** Without new chunks the pass succeeds, creates nothing and writes nothing. */
  lemma NoNewChunksChangesNothing(es: ElasticClient, svc: Services, redis: Option<RedisClient>, meetingId: string)
    requires FetchChunks(es, meetingId, ProcessingLimit).Ok? && |FetchChunks(es, meetingId, ProcessingLimit).value| > 0
    requires |After(FetchChunks(es, meetingId, ProcessingLimit).value, ReadCursor(redis, meetingId))| == 0
    ensures var r := ProcessConceptCards(es, svc, redis, meetingId);
            && r.Finished? && r.report.success && r.report.cardsCreated == 0 && r.report.chunksProcessed == 0
            && r.redis == redis && r.es == es
  {
  }

  /** With a working boundary finder and a live Redis, a pass that does
      not crash leaves the cursor at the highest new index, which is past
      the cursor it read. */
  lemma CursorMovesToHighestNew(es: ElasticClient, svc: Services, c: RedisClient, meetingId: string)
    requires Live(c) && svc.segmenter.Some?
    requires FetchChunks(es, meetingId, ProcessingLimit).Ok?
    requires var newChunks := After(FetchChunks(es, meetingId, ProcessingLimit).value, ReadCursor(Some(c), meetingId));
             |newChunks| > 0 && svc.segmenter.value(newChunks).Ok?
    requires ProcessConceptCards(es, svc, Some(c), meetingId).Finished?
    ensures var last := ReadCursor(Some(c), meetingId);
            var newChunks := After(FetchChunks(es, meetingId, ProcessingLimit).value, last);
            var r := ProcessConceptCards(es, svc, Some(c), meetingId);
            && r.report.success && r.redis.Some?
            && GetLastChunkIndex(r.redis.value, meetingId) == Ok(MaxIndex(newChunks))
            && MaxIndex(newChunks) > last
  {
    var last := ReadCursor(Some(c), meetingId);
    var all := FetchChunks(es, meetingId, ProcessingLimit).value;
    var newChunks := After(all, last);
    var m := MaxIndex(newChunks);
    assert ProcessConceptCards(es, svc, Some(c), meetingId) == ProcessNew(es, svc, Some(c), meetingId, last, newChunks);
    SetThenGet(c, meetingId, m);
    var i :| 0 <= i < |newChunks| && IndexOf(newChunks[i]) == m;
    assert newChunks[i] in newChunks;
  }

  /** The pass reads one page of at most `ProcessingLimit` chunks, first
      indices first. Once the meeting holds a full page and the cursor has
      passed every chunk on it, chunks stored later are never read: the
      pass reports no new chunks and writes nothing, however many there are. */
  lemma PassStallsAtLimit(es: ElasticClient, svc: Services, redis: Option<RedisClient>, meetingId: string, more: seq<Chunk>)
    requires Elastic.Guard(es).None? && |Stored(es, meetingId)| >= ProcessingLimit
    requires forall c :: c in Stored(es, meetingId) ==> HasIndex(c) && IndexOf(c) <= ReadCursor(redis, meetingId)
    requires forall c :: c in more ==> HasIndex(c) && IndexOf(c) > ReadCursor(redis, meetingId)
    ensures var grown := es.(chunks := es.chunks[meetingId := Stored(es, meetingId) + more]);
            var last := ReadCursor(redis, meetingId);
            ProcessConceptCards(grown, svc, redis, meetingId) == Finished(Report(true, NoNewChunks(meetingId, last), 0, 0, None, []), redis, grown)
  {
    var last := ReadCursor(redis, meetingId);
    var grown := es.(chunks := es.chunks[meetingId := Stored(es, meetingId) + more]);
    LaterChunksUnseen(es, meetingId, ProcessingLimit, more);
    var page := FetchChunks(es, meetingId, ProcessingLimit).value;
    assert |page| == ProcessingLimit;
    forall i | 0 <= i < |page| ensures IndexOf(page[i]) <= last {
      assert page[i] in page;
    }
    NothingAfter(page, last);
  }

  lemma NothingAfter(s: seq<Chunk>, cursor: int)
    requires forall i :: 0 <= i < |s| ==> IndexOf(s[i]) <= cursor
    ensures After(s, cursor) == []
  {
    FilterKeepsNone(s, c => IndexOf(c) > cursor);
  }

  // ---------------------------------------------------------------------
  // The LLM client as shown has no `identify_segment_boundaries`.

  /** The pass with that client: the boundary finder is missing. */
  function ProcessWithShownClient(es: ElasticClient, llm: LlmClient, extract: Completion, decode: string -> Option<Json>,
                                  now: string, redis: Option<RedisClient>, meetingId: string): (r: Outcome)
    ensures r.Finished? && r.redis == redis && r.es == es
  {
    ProcessConceptCards(es, Services(llm, None, extract, decode, now), redis, meetingId)
  }

  /** With that client every pass that sees new chunks fails without
      creating a card or moving the cursor, so the next pass sees the
      same chunks again. */
  lemma ShownClientNeverAdvances(es: ElasticClient, llm: LlmClient, extract: Completion, decode: string -> Option<Json>,
                                 now: string, c: RedisClient, meetingId: string)
    requires Live(c) && FetchChunks(es, meetingId, ProcessingLimit).Ok?
    requires |After(FetchChunks(es, meetingId, ProcessingLimit).value, ReadCursor(Some(c), meetingId))| > 0
    ensures var r := ProcessWithShownClient(es, llm, extract, decode, now, Some(c), meetingId);
            && !r.report.success && r.report.message == SegmentsFailed(AttributeError("identify_segment_boundaries"))
            && r.redis == Some(c)
            && ReadCursor(r.redis, meetingId) == ReadCursor(Some(c), meetingId)
  {
  }

  // ---------------------------------------------------------------------
  // `run_manual_concept_card_creation`: the pass for the latest meeting.

  /** What a manual run reports: the failed lookup of the latest meeting,
      that there is none, or the report of the pass over it. */
  datatype ManualReply = LatestFailed(exc: Exc) | NoMeeting | PassReport(meetingId: string, report: Report)

  /** The reply, or the exception that escapes the pass, and the stores
      after the run. */
  datatype Manual = Manual(reply: Result<ManualReply>, redis: RedisClient, es: ElasticClient)

  /** The manual run, given what `get_latest_meeting_id` returned. A Redis
      that does not answer `ping` is dropped, and the pass then starts
      from no cursor. */
  function ManualCreation(es: ElasticClient, svc: Services, redis: RedisClient, latest: Result<Option<string>>): (r: Manual)
    ensures r.redis.url == redis.url && r.redis.reachable == redis.reachable
    ensures r.es.states == es.states && r.es.chunks == es.chunks && es.cards.Keys <= r.es.cards.Keys
    ensures !Ping(redis) ==> r.redis == redis
    ensures latest.Err? ==> r == Manual(Ok(LatestFailed(latest.exc)), redis, es)
    ensures latest.Ok? && latest.value.GetOr("") == [] ==> r == Manual(Ok(NoMeeting), redis, es)
    ensures r.reply.Err? || (r.reply.value.PassReport? && !r.reply.value.report.success) ==> r.redis == redis
  {
    var cursorStore := if Ping(redis) then Some(redis) else None;
    match latest
    case Err(e) => Manual(Ok(LatestFailed(e)), redis, es)
    case Ok(found) =>
      if found.GetOr("") == [] then Manual(Ok(NoMeeting), redis, es)
      else
        var pass := ProcessConceptCards(es, svc, cursorStore, found.value);
        var redis' := if pass.redis.Some? then pass.redis.value else redis;
        match pass
        case Finished(report, _, es') => Manual(Ok(PassReport(found.value, report)), redis', es')
        case Escaped(e, _, es') => Manual(Err(e), redis', es')
  }

  /** A manual run over a meeting with new chunks, with an answering Redis
      and a working boundary finder, leaves the meeting's cursor at the
      highest new index, unless a card raises. */
  lemma ManualMovesCursor(es: ElasticClient, svc: Services, redis: RedisClient, meetingId: string)
    requires Ping(redis) && meetingId != [] && svc.segmenter.Some?
    requires FetchChunks(es, meetingId, ProcessingLimit).Ok?
    requires var newChunks := After(FetchChunks(es, meetingId, ProcessingLimit).value, ReadCursor(Some(redis), meetingId));
             |newChunks| > 0 && svc.segmenter.value(newChunks).Ok?
    requires ManualCreation(es, svc, redis, Ok(Some(meetingId))).reply.Ok?
    ensures var newChunks := After(FetchChunks(es, meetingId, ProcessingLimit).value, ReadCursor(Some(redis), meetingId));
            GetLastChunkIndex(ManualCreation(es, svc, redis, Ok(Some(meetingId))).redis, meetingId) == Ok(MaxIndex(newChunks))
  {
    CursorMovesToHighestNew(es, svc, redis, meetingId);
  }

  /** Without a boundary finder a manual run never writes Redis, nor the
      card index. */
  lemma ManualWithoutSegmenter(es: ElasticClient, svc: Services, redis: RedisClient, latest: Result<Option<string>>)
    requires svc.segmenter.None?
    ensures ManualCreation(es, svc, redis, latest).redis == redis
    ensures ManualCreation(es, svc, redis, latest).es == es
  {
    var cursorStore := if Ping(redis) then Some(redis) else None;
    if latest.Ok? && latest.value.GetOr("") != [] {
      assert svc == Services(svc.llm, None, svc.extract, svc.decode, svc.now);
      var pass := ProcessWithShownClient(es, svc.llm, svc.extract, svc.decode, svc.now, cursorStore, latest.value.value);
    }
  }
}

=== FILE: redis.dfy ===
/**
 * The Redis client of the concept-card agent: a per-meeting cursor (the
 * last processed chunk index) and a global pause flag, kept in a
 * string-keyed store.
 */
module Redis {
  import opened Outcomes
  import opened Text

  /** A client: the configured URL ("" disables Redis), whether the server
      answers, and the server's keys and values. */
  datatype RedisClient = RedisClient(url: string, reachable: bool, kv: map<string, string>)

  const NotConfigured := RuntimeError("Redis client not configured (REDIS_URL required)")
  const CursorPrefix := "concept_cards:last_chunk:"
  const PauseKey := "concept_cards:paused"
  /** The only stored value that means "paused". */
  const PausedValue := "1"

  /** The key holding a meeting's cursor. */
  function CursorKey(meetingId: string): (k: string)
    ensures |k| == |CursorPrefix| + |meetingId| && k[|CursorPrefix|..] == meetingId
  {
    CursorPrefix + meetingId
  }

  /** A client that has a URL and a server that answers. */
  predicate Live(c: RedisClient) { c.url != [] && c.reachable }

  /** `_ensure_client`, and the failure of the first command sent to a
      server that does not answer. */
  function Guard(c: RedisClient): (r: Option<Exc>)
    ensures r.None? <==> Live(c)
    ensures c.url == [] ==> r == Some(NotConfigured)
  {
    if c.url == [] then Some(NotConfigured)
    else if !c.reachable then Some(ConnectionError)
    else None
  }

  /** `get_last_chunk_index`: -1 when the meeting has no cursor, else the
      stored value read by `int(...)`. */
  function GetLastChunkIndex(c: RedisClient, meetingId: string): (r: Result<int>)
    ensures Live(c) && CursorKey(meetingId) !in c.kv ==> r == Ok(-1)
    ensures !Live(c) ==> r.Err? && r.exc == Guard(c).value
  {
    match Guard(c)
    case Some(e) => Err(e)
    case None =>
      var key := CursorKey(meetingId);
      if key in c.kv then ParseInt(c.kv[key]) else Ok(-1)
  }

  /** `set_last_chunk_index`, without the expiry: the value is stored as
      its decimal text. */
  function SetLastChunkIndex(c: RedisClient, meetingId: string, chunkIndex: int): (r: Result<RedisClient>)
    ensures r.Ok? <==> Live(c)
    ensures r.Ok? ==> r.value.url == c.url && r.value.reachable == c.reachable
    ensures r.Ok? ==> r.value.kv.Keys == c.kv.Keys + {CursorKey(meetingId)}
  {
    match Guard(c)
    case Some(e) => Err(e)
    case None => Ok(c.(kv := c.kv[CursorKey(meetingId) := IntToString(chunkIndex)]))
  }

  /** `reset_last_chunk_index`: the meeting's cursor is deleted. */
  function ResetLastChunkIndex(c: RedisClient, meetingId: string): (r: Result<RedisClient>)
    ensures r.Ok? <==> Live(c)
    ensures r.Ok? ==> r.value.kv.Keys == c.kv.Keys - {CursorKey(meetingId)}
  {
    match Guard(c)
    case Some(e) => Err(e)
    case None => Ok(c.(kv := c.kv - {CursorKey(meetingId)}))
  }

  /** `ping`: false for an unconfigured client and for a server that does
      not answer, instead of an error. */
  function Ping(c: RedisClient): (r: bool)
    ensures r <==> Guard(c).None?
  {
    c.url != [] && c.reachable
  }

  /** `is_paused`. */
  function IsPaused(c: RedisClient): (r: Result<bool>)
    ensures r.Ok? <==> Live(c)
    ensures r.Ok? ==> (r.value <==> PauseKey in c.kv && c.kv[PauseKey] == PausedValue)
  {
    match Guard(c)
    case Some(e) => Err(e)
    case None => Ok(PauseKey in c.kv && c.kv[PauseKey] == "1")
  }

  /** `pause`. */
  function Pause(c: RedisClient): (r: Result<RedisClient>)
    ensures r.Ok? <==> Live(c)
    ensures r.Ok? ==> r.value.kv.Keys == c.kv.Keys + {PauseKey}
  {
    match Guard(c)
    case Some(e) => Err(e)
    case None => Ok(c.(kv := c.kv[PauseKey := "1"]))
  }

  /** `resume`. */
  function Resume(c: RedisClient): (r: Result<RedisClient>)
    ensures r.Ok? <==> Live(c)
    ensures r.Ok? ==> r.value.kv.Keys == c.kv.Keys - {PauseKey}
  {
    match Guard(c)
    case Some(e) => Err(e)
    case None => Ok(c.(kv := c.kv - {PauseKey}))
  }

  // ---------------------------------------------------------------------
  // Properties of the key scheme.

  /** Different meetings have different cursor keys. */
  lemma CursorKeyInjective(m1: string, m2: string)
    ensures CursorKey(m1) == CursorKey(m2) <==> m1 == m2
  {
    if CursorKey(m1) == CursorKey(m2) {
      assert m1 == CursorKey(m1)[|CursorPrefix|..] == CursorKey(m2)[|CursorPrefix|..] == m2;
    }
  }

  /** No cursor key is the pause key: they part at the character after
      "concept_cards:". */
  lemma CursorKeyIsNotPauseKey(m: string)
    ensures CursorKey(m) != PauseKey
  {
    assert CursorKey(m)[14] == CursorPrefix[14] == 'l';
    assert PauseKey[14] == 'p';
  }

  // ---------------------------------------------------------------------
  // Round trips.

  /** A cursor that was set reads back as the same index. */
  lemma SetThenGet(c: RedisClient, meetingId: string, chunkIndex: int)
    requires Live(c)
    ensures SetLastChunkIndex(c, meetingId, chunkIndex).Ok?
    ensures GetLastChunkIndex(SetLastChunkIndex(c, meetingId, chunkIndex).value, meetingId) == Ok(chunkIndex)
  {
    ParseIntToString(chunkIndex);
  }

  /** A cursor that was reset reads as -1: every chunk is new again. */
  lemma ResetThenGet(c: RedisClient, meetingId: string)
    requires Live(c)
    ensures ResetLastChunkIndex(c, meetingId).Ok?
    ensures GetLastChunkIndex(ResetLastChunkIndex(c, meetingId).value, meetingId) == Ok(-1)
  {
  }

  /** Setting one meeting's cursor changes no other meeting's cursor and
      not the pause flag. */
  lemma SetLeavesOthers(c: RedisClient, meetingId: string, chunkIndex: int, other: string)
    requires Live(c) && other != meetingId
    ensures var c' := SetLastChunkIndex(c, meetingId, chunkIndex).value;
            GetLastChunkIndex(c', other) == GetLastChunkIndex(c, other) && IsPaused(c') == IsPaused(c)
  {
    CursorKeyInjective(meetingId, other);
    CursorKeyIsNotPauseKey(meetingId);
  }

  /** Resetting one meeting's cursor changes no other meeting's cursor and
      not the pause flag. */
  lemma ResetLeavesOthers(c: RedisClient, meetingId: string, other: string)
    requires Live(c) && other != meetingId
    ensures var c' := ResetLastChunkIndex(c, meetingId).value;
            GetLastChunkIndex(c', other) == GetLastChunkIndex(c, other) && IsPaused(c') == IsPaused(c)
  {
    CursorKeyInjective(meetingId, other);
    CursorKeyIsNotPauseKey(meetingId);
  }

  /** `pause` makes `is_paused` true, `resume` makes it false, and neither
      touches any meeting's cursor. */
  lemma PauseResume(c: RedisClient, meetingId: string)
    requires Live(c)
    ensures IsPaused(Pause(c).value) == Ok(true)
    ensures IsPaused(Resume(c).value) == Ok(false)
    ensures GetLastChunkIndex(Pause(c).value, meetingId) == GetLastChunkIndex(c, meetingId)
    ensures GetLastChunkIndex(Resume(c).value, meetingId) == GetLastChunkIndex(c, meetingId)
  {
    CursorKeyIsNotPauseKey(meetingId);
  }

  /** Any stored flag other than "1" reads as not paused. */
  lemma OnlyOneIsPaused(c: RedisClient, v: string)
    requires Live(c) && v != PausedValue
    ensures IsPaused(c.(kv := c.kv[PauseKey := v])) == Ok(false)
  {
  }

  /** Without a URL, `ping` is false and every other operation raises the
      not-configured error, whatever the store holds. */
  lemma Unconfigured(c: RedisClient, meetingId: string, chunkIndex: int)
    requires c.url == []
    ensures !Ping(c)
    ensures GetLastChunkIndex(c, meetingId) == Err(NotConfigured)
    ensures SetLastChunkIndex(c, meetingId, chunkIndex) == Err(NotConfigured)
    ensures ResetLastChunkIndex(c, meetingId) == Err(NotConfigured)
    ensures IsPaused(c) == Err(NotConfigured)
    ensures Pause(c) == Err(NotConfigured) && Resume(c) == Err(NotConfigured)
  {
  }
}

=== FILE: slug.dfy ===
/**
 * `_slug`: turns a free-text title into an identifier made of lower-case
 * letters, digits and single hyphens.
 */
module Slug {
  import opened Text

  /** The `max_len` every caller relies on. */
  const DefaultMaxLen := 64

  /** The identifier returned when the text has no letter or digit. */
  const Unknown := "unknown"

  predicate IsHyphen(c: char) { c == '-' }

  /** The shape of a slug: only `[a-z0-9-]`, never starting with a hyphen,
      never two hyphens in a row. */
  predicate SlugShaped(s: string) {
    && (forall i :: 0 <= i < |s| ==> IsLowerAlnum(s[i]) || s[i] == '-')
    && (|s| > 0 ==> s[0] != '-')
    && (forall i :: 0 <= i < |s| - 1 ==> !(s[i] == '-' && s[i + 1] == '-'))
  }

  /** The letters and digits of `s`, in order. */
  function Alnums(s: string): string {
    if |s| == 0 then []
    else (if IsLowerAlnum(s[0]) then [s[0]] else []) + Alnums(s[1..])
  }

  lemma {:induction false} AlnumsAppend(a: string, b: string)
    ensures Alnums(a + b) == Alnums(a) + Alnums(b)
  {
    if |a| > 0 {
      assert (a + b)[1..] == a[1..] + b;
      AlnumsAppend(a[1..], b);
    } else {
      assert a + b == b;
    }
  }

  lemma {:induction false} AlnumsNone(s: string)
    requires forall i :: 0 <= i < |s| ==> !IsLowerAlnum(s[i])
    ensures Alnums(s) == []
  {
    if |s| > 0 {
      AlnumsNone(s[1..]);
    }
  }

  /** The leading non-alphanumeric run of `s` removed. */
  function SkipSeparators(s: string): (r: string)
    ensures |r| <= |s| && r == s[|s| - |r|..]
    ensures |r| == 0 || IsLowerAlnum(r[0])
    ensures Alnums(r) == Alnums(s)
  {
    if |s| > 0 && !IsLowerAlnum(s[0]) then SkipSeparators(s[1..]) else s
  }

  /** `re.sub(r"[^a-z0-9]+", "-", s)`: every maximal run of characters
      outside `[a-z0-9]` becomes one hyphen. */
  function CollapseRuns(s: string): (r: string)
    ensures |r| <= |s|
    ensures forall i :: 0 <= i < |r| ==> IsLowerAlnum(r[i]) || r[i] == '-'
    ensures forall i :: 0 <= i < |r| - 1 ==> !(r[i] == '-' && r[i + 1] == '-')
    ensures |s| > 0 ==> |r| > 0 && (IsLowerAlnum(s[0]) ==> r[0] == s[0])
    ensures Alnums(r) == Alnums(s)
  {
    if |s| == 0 then []
    else if IsLowerAlnum(s[0]) then [s[0]] + CollapseRuns(s[1..])
    else "-" + CollapseRuns(SkipSeparators(s[1..]))
  }

  /** Stripping characters that are not letters or digits keeps every letter and digit. */
  lemma StripKeepsAlnums(s: string, drop: char -> bool)
    requires forall c :: drop(c) ==> !IsLowerAlnum(c)
    ensures Alnums(StripBy(s, drop)) == Alnums(s)
  {
    var r := StripBy(s, drop);
    var a := SkipStart(s, drop, 0);
    assert s == s[..a] + r + s[a + |r|..];
    AlnumsAppend(s[..a] + r, s[a + |r|..]);
    AlnumsAppend(s[..a], r);
    AlnumsNone(s[..a]);
    AlnumsNone(s[a + |r|..]);
  }

  /** The slug before truncation: runs collapsed, hyphens stripped. */
  function SlugBody(text: string): string {
    StripBy(CollapseRuns(Strip(Lower(text))), IsHyphen)
  }

  /** `_slug(text, max_len)`. */
  function SlugWith(text: string, maxLen: int): (r: string)
    ensures 1 <= maxLen ==> r == Unknown || (1 <= |r| <= maxLen && SlugShaped(r))
    ensures Alnums(Lower(text)) == [] ==> r == Unknown
  {
    var s := SlugBody(text);
    SlugBodyShape(text);
    SlugBodyAlnums(text);
    if |s| > 0 then TakeShaped(s, maxLen); Take(s, maxLen) else Unknown
  }

  lemma TakeShaped(s: string, n: int)
    requires SlugShaped(s)
    ensures SlugShaped(Take(s, n))
  {
    var r := Take(s, n);
    assert forall i :: 0 <= i < |r| ==> r[i] == s[i];
  }

  lemma SpaceIsNotAlnum(c: char)
    requires IsSpace(c)
    ensures !IsLowerAlnum(c)
  {
  }

  /** Stripping hyphens from a collapsed string leaves a slug. */
  lemma StripHyphensShape(c: string)
    requires forall i :: 0 <= i < |c| ==> IsLowerAlnum(c[i]) || c[i] == '-'
    requires forall i :: 0 <= i < |c| - 1 ==> !(c[i] == '-' && c[i + 1] == '-')
    ensures SlugShaped(StripBy(c, IsHyphen))
  {
    var s := StripBy(c, IsHyphen);
    var a := SkipStart(c, IsHyphen, 0);
    assert s == c[a..a + |s|];
    forall i | 0 <= i < |s| - 1
      ensures !(s[i] == '-' && s[i + 1] == '-')
    {
      assert s[i] == c[a + i] && s[i + 1] == c[(a + i) + 1];
    }
  }

  lemma SlugBodyShape(text: string)
    ensures SlugShaped(SlugBody(text)) && |SlugBody(text)| <= |text|
  {
    StripHyphensShape(CollapseRuns(Strip(Lower(text))));
  }

  /** The slug body has exactly the letters and digits of the lower-cased
      text, and is empty exactly when there are none. */
  lemma SlugBodyAlnums(text: string)
    ensures Alnums(SlugBody(text)) == Alnums(Lower(text))
    ensures |SlugBody(text)| == 0 <==> Alnums(Lower(text)) == []
  {
    var c := CollapseRuns(Strip(Lower(text)));
    var s := SlugBody(text);
    forall ch | IsSpace(ch) ensures !IsLowerAlnum(ch) { SpaceIsNotAlnum(ch); }
    StripKeepsAlnums(Lower(text), IsSpace);
    StripKeepsAlnums(c, IsHyphen);
    SlugBodyShape(text);
    if |s| > 0 {
      AlnumsFirst(s);
    }
  }

  lemma AlnumsFirst(s: string)
    requires |s| > 0 && IsLowerAlnum(s[0])
    ensures |Alnums(s)| > 0 && Alnums(s)[0] == s[0]
  {
  }

  lemma AlnumsNonEmpty(s: string)
    requires Alnums(s) != []
    ensures |s| > 0
  {
  }

  /** `_slug(text)` with the default `max_len` of 64. */
  function MakeSlug(text: string): (r: string)
    ensures r == Unknown || (1 <= |r| <= DefaultMaxLen && SlugShaped(r))
  {
    SlugWith(text, DefaultMaxLen)
  }

  /** A slug keeps the letters and digits of its text, in order: all of
      them when the text fits in `maxLen`, a non-empty leading part of
      them otherwise. Only texts without letters or digits give
      `"unknown"` by default (a text whose letters spell it gives it too). */
  lemma {:induction false} SlugKeepsAlnums(text: string, maxLen: int)
    requires 1 <= maxLen
    ensures var r := SlugWith(text, maxLen);
            var want := Alnums(Lower(text));
            && (want != [] ==> 0 < |Alnums(r)| <= |want| && Alnums(r) == want[..|Alnums(r)|])
            && (want != [] && |text| <= maxLen ==> Alnums(r) == want)
  {
    var s := SlugBody(text);
    SlugBodyShape(text);
    SlugBodyAlnums(text);
    if Alnums(Lower(text)) != [] {
      assert SlugWith(text, maxLen) == Take(s, maxLen);
      TakeKeepsAlnums(s, maxLen);
      if |text| <= maxLen {
        assert Take(s, maxLen) == s;
      }
    }
  }

  /** A cut of a slug body keeps a non-empty leading part of its letters
      and digits. */
  lemma TakeKeepsAlnums(s: string, n: int)
    requires 1 <= n && |s| > 0 && IsLowerAlnum(s[0])
    ensures var r := Take(s, n);
            0 < |Alnums(r)| <= |Alnums(s)| && Alnums(r) == Alnums(s)[..|Alnums(r)|]
  {
    var r := Take(s, n);
    assert s == r + s[|r|..];
    AlnumsAppend(r, s[|r|..]);
    assert r[0] == s[0];
    AlnumsFirst(r);
  }
}

=== FILE: text.dfy ===
/**
 * The Python `str` operations the agent relies on, over `seq<char>`:
 * whitespace, `strip`, slicing, `lower` (ASCII), `split`, `join`, `in`,
 * `replace`, and `str(int)` / `int(str)` for base-10 integers.
 */
module Text {
  import opened Outcomes

  /** Python's `str.isspace()` for one character (the code points of the
      Unicode White_Space set as CPython classifies them). */
  predicate IsSpace(c: char) {
    var n := c as int;
    || n == 0x20 || (0x09 <= n <= 0x0D) || (0x1C <= n <= 0x1F) || n == 0x85 || n == 0xA0
    || n == 0x1680 || (0x2000 <= n <= 0x200A) || n == 0x2028 || n == 0x2029
    || n == 0x202F || n == 0x205F || n == 0x3000
  }

  predicate IsDigit(c: char) { '0' <= c <= '9' }

  predicate IsLowerAlnum(c: char) { ('a' <= c <= 'z') || IsDigit(c) }

  /** `s` has no character of `drop` at either end. */
  predicate TrimmedBy(s: string, drop: char -> bool) {
    |s| == 0 || (!drop(s[0]) && !drop(s[|s| - 1]))
  }

  /** No leading or trailing whitespace: a fixed point of Python's `strip()`. */
  predicate Stripped(s: string) { TrimmedBy(s, IsSpace) }

  /** The first position at or after `i` whose character `drop` keeps. */
  function SkipStart(s: string, drop: char -> bool, i: nat): (k: nat)
    requires i <= |s|
    ensures i <= k <= |s|
    ensures forall j :: i <= j < k ==> drop(s[j])
    ensures k < |s| ==> !drop(s[k])
    decreases |s| - i
  {
    if i < |s| && drop(s[i]) then SkipStart(s, drop, i + 1) else i
  }

  /** The end of `s[lo..j]` once its trailing characters selected by `drop` are removed. */
  function SkipEnd(s: string, drop: char -> bool, lo: nat, j: nat): (k: nat)
    requires lo <= j <= |s|
    ensures lo <= k <= j
    ensures forall m :: k <= m < j ==> drop(s[m])
    ensures k > lo ==> !drop(s[k - 1])
    decreases j
  {
    if j > lo && drop(s[j - 1]) then SkipEnd(s, drop, lo, j - 1) else j
  }

  /** Python's `s.strip(chars)`: the slice of `s` left after removing every
      leading and trailing character that `drop` selects. */
  function StripBy(s: string, drop: char -> bool): (r: string)
    ensures TrimmedBy(r, drop)
    ensures var a := SkipStart(s, drop, 0);
            && a + |r| <= |s| && r == s[a..a + |r|]
            && (forall i :: a + |r| <= i < |s| ==> drop(s[i]))
    ensures (forall i :: 0 <= i < |s| ==> drop(s[i])) ==> r == []
  {
    var a := SkipStart(s, drop, 0);
    s[a..SkipEnd(s, drop, a, |s|)]
  }

  /** Python's `s.strip()`. */
  function Strip(s: string): (r: string)
    ensures Stripped(r) && |r| <= |s|
  {
    StripBy(s, IsSpace)
  }

  /** Python's `s[:n]`, including the meaning of a negative `n`. */
  function Take(s: string, n: int): (r: string)
    ensures 0 <= n ==> |r| == if n < |s| then n else |s|
    ensures |r| <= |s| && r == s[..|r|]
  {
    if n >= |s| then s
    else if n >= 0 then s[..n]
    else if |s| + n >= 0 then s[..|s| + n]
    else []
  }

  function LowerChar(c: char): char {
    if 'A' <= c <= 'Z' then (c as int + 32) as char else c
  }

  /** Python's `s.lower()` restricted to ASCII letters. */
  function Lower(s: string): (r: string)
    ensures |r| == |s|
    ensures forall i :: 0 <= i < |s| ==> r[i] == LowerChar(s[i])
  {
    seq(|s|, i requires 0 <= i < |s| => LowerChar(s[i]))
  }

  /** `w` occurs in `s` at position `i`. */
  predicate MatchAt(s: string, w: string, i: nat) {
    i + |w| <= |s| && s[i..i + |w|] == w
  }

  /** Character-by-character comparison used by `Contains`; stated this way
      so that occurrences in literal strings are decided by unfolding. */
  predicate MatchFrom(s: string, w: string, i: nat, k: nat)
    requires i + |w| <= |s| && k <= |w|
    decreases |w| - k
  {
    k == |w| || (s[i + k] == w[k] && MatchFrom(s, w, i, k + 1))
  }

  predicate ContainsFrom(s: string, w: string, i: nat)
    decreases |s| - i
  {
    i + |w| <= |s| && (MatchFrom(s, w, i, 0) || ContainsFrom(s, w, i + 1))
  }

  /** Python's `w in s`. */
  predicate Contains(s: string, w: string) {
    ContainsFrom(s, w, 0)
  }

  lemma {:induction false} MatchFromIff(s: string, w: string, i: nat, k: nat)
    requires i + |w| <= |s| && k <= |w|
    ensures MatchFrom(s, w, i, k) <==> s[i + k..i + |w|] == w[k..]
    decreases |w| - k
  {
    if k < |w| {
      MatchFromIff(s, w, i, k + 1);
      assert s[i + k..i + |w|] == [s[i + k]] + s[i + k + 1..i + |w|];
      assert w[k..] == [w[k]] + w[k + 1..];
    }
  }

  lemma {:induction false} ContainsFromIff(s: string, w: string, i: nat)
    ensures ContainsFrom(s, w, i) <==> exists j :: i <= j && MatchAt(s, w, j)
    decreases |s| - i
  {
    if i + |w| <= |s| {
      MatchFromIff(s, w, i, 0);
      ContainsFromIff(s, w, i + 1);
      if ContainsFrom(s, w, i) {
        if MatchFrom(s, w, i, 0) {
          assert MatchAt(s, w, i);
        }
      }
      if exists j :: i <= j && MatchAt(s, w, j) {
        var j :| i <= j && MatchAt(s, w, j);
        if j == i {
          assert MatchFrom(s, w, i, 0);
        } else {
          assert i + 1 <= j && MatchAt(s, w, j);
        }
      }
    }
  }

  /** `Contains` is Python's substring test: some position holds `w`. */
  lemma ContainsIff(s: string, w: string)
    ensures Contains(s, w) <==> exists j :: MatchAt(s, w, j)
  {
    ContainsFromIff(s, w, 0);
  }

  /** Python's `sep.join(parts)`. */
  function Join(sep: string, parts: seq<string>): (r: string)
    ensures |parts| == 0 ==> r == []
    ensures |parts| == 1 ==> r == parts[0]
  {
    if |parts| == 0 then []
    else if |parts| == 1 then parts[0]
    else parts[0] + sep + Join(sep, parts[1..])
  }

  /** Python's `s.split(c)` for a single separator character. */
  function Split(s: string, c: char): (r: seq<string>)
    ensures |r| >= 1
    ensures forall k :: 0 <= k < |r| ==> c !in r[k]
    ensures Join([c], r) == s
  {
    if c !in s then [s]
    else
      var i := FirstIndexOf(s, c);
      var rest := Split(s[i + 1..], c);
      assert s == s[..i] + [c] + s[i + 1..];
      [s[..i]] + rest
  }

  function FirstIndexOf(s: string, c: char): (i: nat)
    requires c in s
    ensures i < |s| && s[i] == c && c !in s[..i]
  {
    if s[0] == c then 0 else FirstIndexOf(s[1..], c) + 1
  }

  /** Python's `s.replace(pat, rep)`: every non-overlapping occurrence of
      `pat`, scanning from the left, is replaced by `rep`. */
  function ReplaceAll(s: string, pat: string, rep: string): (r: string)
    requires |pat| > 0
    decreases |s|
  {
    if |s| < |pat| then s
    else if s[..|pat|] == pat then rep + ReplaceAll(s[|pat|..], pat, rep)
    else [s[0]] + ReplaceAll(s[1..], pat, rep)
  }

  /** Text without the first character of the pattern is left alone. */
  lemma {:induction false} ReplaceAbsent(s: string, pat: string, rep: string)
    requires |pat| > 0 && pat[0] !in s
    ensures ReplaceAll(s, pat, rep) == s
    decreases |s|
  {
    if |s| >= |pat| {
      assert s[..|pat|][0] == s[0] != pat[0];
      ReplaceAbsent(s[1..], pat, rep);
      assert [s[0]] + s[1..] == s;
    }
  }

  // ---------------------------------------------------------------------
  // Base-10 integers: Python's `str(i)` and `int(s)`.

  function DigitChar(d: nat): (c: char)
    requires d < 10
    ensures IsDigit(c)
  {
    ('0' as int + d) as char
  }

  function DigitValue(c: char): nat
    requires IsDigit(c)
  {
    c as int - '0' as int
  }

  /** Decimal digits of `n` without leading zeros. */
  function NatToString(n: nat): (r: string)
    ensures |r| >= 1
    ensures forall i :: 0 <= i < |r| ==> IsDigit(r[i])
    decreases n
  {
    if n < 10 then [DigitChar(n)] else NatToString(n / 10) + [DigitChar(n % 10)]
  }

  /** Python's `str(i)` for an `int`. */
  function IntToString(i: int): (r: string)
    ensures |r| >= 1
  {
    if i < 0 then "-" + NatToString(-i) else NatToString(i)
  }

  /** Digits with single underscores between them, as `int()` accepts. */
  predicate DecimalBody(s: string) {
    && |s| >= 1 && IsDigit(s[0]) && IsDigit(s[|s| - 1])
    && (forall i :: 0 <= i < |s| ==> IsDigit(s[i]) || s[i] == '_')
    && (forall i :: 0 <= i < |s| - 1 ==> !(s[i] == '_' && s[i + 1] == '_'))
  }

  /** The value of digits read left to right, skipping underscores. */
  function DecimalValue(s: string): nat
    requires forall i :: 0 <= i < |s| ==> IsDigit(s[i]) || s[i] == '_'
  {
    if |s| == 0 then 0
    else if s[|s| - 1] == '_' then DecimalValue(s[..|s| - 1])
    else DecimalValue(s[..|s| - 1]) * 10 + DigitValue(s[|s| - 1])
  }

  /** Python's `int(s)` in base 10: surrounding whitespace ignored, an
      optional sign, then the digits; anything else raises `ValueError`. */
  function ParseInt(s: string): (r: Result<int>)
  {
    var t := Strip(s);
    var negative := |t| > 0 && t[0] == '-';
    var body := if |t| > 0 && (t[0] == '-' || t[0] == '+') then t[1..] else t;
    if DecimalBody(body) then Ok(if negative then -(DecimalValue(body) as int) else DecimalValue(body))
    else Err(ValueError)
  }

  lemma {:induction false} NatToStringValue(n: nat)
    ensures DecimalValue(NatToString(n)) == n
    decreases n
  {
    if n >= 10 {
      var r := NatToString(n);
      NatToStringValue(n / 10);
      assert r[..|r| - 1] == NatToString(n / 10);
    }
  }

  /** A string without leading or trailing whitespace is its own `strip()`. */
  lemma StrippedStrip(s: string)
    requires Stripped(s)
    ensures Strip(s) == s
  {
    if |s| > 0 {
      assert SkipStart(s, IsSpace, 0) == 0;
      assert SkipEnd(s, IsSpace, 0, |s|) == |s|;
    }
  }

  lemma DigitsBody(d: string)
    requires |d| >= 1 && forall i :: 0 <= i < |d| ==> IsDigit(d[i])
    ensures DecimalBody(d) && Stripped(d)
  {
  }

  /** `int(str(i)) == i`: the decimal form of every integer reads back. */
  lemma {:induction false} ParseIntToString(i: int)
    ensures ParseInt(IntToString(i)) == Ok(i)
  {
    if i < 0 {
      ParseNegative(-i);
    } else {
      ParseDigits(i);
    }
  }

  lemma ParseDigits(n: nat)
    ensures ParseInt(NatToString(n)) == Ok(n)
  {
    var s := NatToString(n);
    NatToStringValue(n);
    DigitsBody(s);
    StrippedStrip(s);
    assert s[0] != '-' && s[0] != '+';
  }

  lemma ParseNegative(n: nat)
    requires n > 0
    ensures ParseInt("-" + NatToString(n)) == Ok(-(n as int))
  {
    var digits := NatToString(n);
    var s := "-" + digits;
    NatToStringValue(n);
    DigitsBody(digits);
    assert s[0] == '-' && s[1..] == digits && s[|s| - 1] == digits[|digits| - 1];
    assert Stripped(s);
    StrippedStrip(s);
  }
}
